=== FILE: README.md ===
# DiscordRPBot: the write-back model cache and the command logic, in Dafny

This project models the core of DiscordRPBot, a Discord bot for role play. A
user keeps a set of characters and posts in character through channel
webhooks. The bot is written in PHP. Its entities (guilds, channels, users,
characters and the per-guild, per-channel and per-thread character
selections) live in a write-back cache:

- A fetch answers from a per-class cache of query-keyed groups, or asks the
  database and caches the answer.
- Setters mark objects dirty through a one-way lifecycle latch
  (CURRENT, NEW, UPDATED, DELETED).
- A periodic flush writes every dirty object back with the insert, update or
  delete statement its state calls for.

Around the cache sits the command logic:

- the message cache that recognises the bot's own webhook echoes;
- the per-message context (guild, channel, user, the selected character);
- command look-up, the permission check and argument splitting;
- the splitting of a role-play message into command blocks;
- the avatar command's image checks and crop plan;
- the character-management commands in direct messages;
- the guild-settings commands.

Everything is pure: the database's answers, the clock, the fuzzy text
comparison and the Discord objects are parameters. Objects live in a heap
under handles that are never reused.

Files, one module each:

| file | module | models |
|---|---|---|
| wrappers.dfy | Wrappers | `Option` |
| values.dfy | Values | scalars, PHP's loose `==`, queries and rows |
| php_text.dfy | PhpText | explode/implode, trim, strtolower, str_pad, decimal text |
| php_array.dfy | PhpArrays | PHP arrays with holes: unset, array_values, array_unshift |
| db_query.dfy | Db | DBQuery and the structure of its SQL |
| lifecycle.dfy | Lifecycle | the DB state latch of BaseModel |
| characters.dfy, guilds.dfy, channels.dfy, users.dfy, pair_users.dfy | Characters, Guilds, Channels, Users, PairUsers | the seven entity classes |
| entities.dfy | Entities | dispatch over the entity classes |
| cache_group.dfy, update_model.dfy, model_cache.dfy | CacheGroups, UpdateModels, ModelCaches | the per-class cache |
| registry.dfy | Registries | BaseModel's static side: fetch, flush, write completion, invalidation |
| message_cache.dfy | MessageCaches | MessageCache |
| message_info.dfy | MessageInfos | MessageInfo |
| command_handler.dfy | CommandHandlers | CommandHandler |
| bot_helper.dfy | BotHelpers | BotHelper::extractCommandName |
| dm_command.dfy | NameRules | DMCommand::sanitiseName |
| message_container.dfy | MessageContainers | MessageContainer |
| avatar_command.dfy | Avatars | AvatarCommand |
| dm_commands.dfy | DmCommands | the list, new, n, delete, ooc and default commands |
| guild_commands.dfy | GuildCommands | the charsetting, prefix and sprefix commands |

Where the code departs from its evident intent, the model follows the code:

- Character look-up by shortcut compares with PHP's `==`, not exactly. A
  shortcut "7" finds a character whose shortname is "07"
  (`CommandHandlers.ShortcutMatchIsLoose`).
- On a recognised bot message in a channel not yet recorded for the user,
  `identifyBotMessage` replaces the user's whole channel map.
- The guild-setting command refers to a THREAD setting constant that the Guild
  model does not declare (see Findings).
- The DM command `new` calls `Character::createNewCharacter`, a static method
  no class defines, once every check passes, so it fails before replying (see
  Findings). `DmCommands.NewCommand` ends in `UndefinedMethod` there;
  `DmCommands.NewCommandCorrected` returns the create request instead.
- The Channel insert and update statements name the `guilds` table. The
  update also passes its two values in swapped order. These statements, and
  the other placeholder/parameter mismatches, are reproduced as data.

## Model

| member | source | states |
|---|---|---|
| Lifecycle.Code | src/RPCharacterBot/Common/BaseModel.php:17-20 | every state's integer constant lies between 0 and 3 |
| Lifecycle.CodeInjective | src/RPCharacterBot/Common/BaseModel.php:17-20 | distinct states have distinct integer codes |
| Lifecycle.Construct | src/RPCharacterBot/Common/BaseModel.php:64-70 | a freshly constructed object is CURRENT |
| Lifecycle.SetUpdateState | src/RPCharacterBot/Common/BaseModel.php:310-315 | the requested state takes effect only from CURRENT; NEW, UPDATED and DELETED stay |
| Lifecycle.MarkDeleted | src/RPCharacterBot/Common/BaseModel.php:356-358 | delete() makes the object DELETED from any state and keeps its fields |
| Lifecycle.SetDirty | src/RPCharacterBot/Model/Guild.php:171-227 | a dirty-marking setter assigns the field and latches UPDATED only from CURRENT |
| Lifecycle.SetQuiet | src/RPCharacterBot/Model/Character.php:203-280 | a quiet setter assigns the field and leaves the state alone |
| Lifecycle.LatchIsOneWay | src/RPCharacterBot/Common/BaseModel.php:310-315 | after any sequence of requests, a non-CURRENT state is unchanged and a CURRENT one becomes the first non-CURRENT request |
| Lifecycle.LatchTakesFirstChange | src/RPCharacterBot/Common/BaseModel.php:310-315 | the first non-CURRENT request decides the state; later requests are ignored |
| Db.NewQuery | src/RPCharacterBot/Common/DBQuery.php:21-25 | a query built from SQL alone has an empty parameter list and returns that SQL |
| Characters.FromDbResult | src/RPCharacterBot/Model/Character.php:145-153 | id, user_id, shortname, name and avatar are copied; the default flag is column != 0 |
| Characters.RowRoundTrip | src/RPCharacterBot/Model/Character.php:145-153 | reading back the row a character occupies yields the same character |
| Characters.CreateNewFromQuery | src/RPCharacterBot/Model/Character.php:161-164 | createNewFromQuery assigns no field |
| Characters.CreatedCharacterLacksQueryUser | src/RPCharacterBot/Model/Character.php:161-164 | a character created from a query does not carry the query's user_id |
| Characters.FetchQuery | src/RPCharacterBot/Model/Character.php:61-68 | the fetch selects from characters by user_id with exactly the query's user_id |
| Characters.InsertStatement | src/RPCharacterBot/Model/Character.php:75-89 | the insert binds user_id, shortname, name, avatar and the 1/0 flag, one per placeholder |
| Characters.SetObjectIdAfterInsert | src/RPCharacterBot/Model/Character.php:97-100 | the id becomes the insert id and nothing else changes |
| Characters.DeleteStatement | src/RPCharacterBot/Model/Character.php:107-114 | the delete is keyed by the character's id |
| Characters.UpdateStatement | src/RPCharacterBot/Model/Character.php:121-137 | the update names four SET columns and id but passes only the four values, so it is not well formed |
| Characters.Set | src/RPCharacterBot/Model/Character.php:203-256 | each text setter changes its own column only and keeps the state |
| Characters.SetDefault | src/RPCharacterBot/Model/Character.php:275-280 | setDefaultCharacter changes the flag only and keeps the state |
| Characters.EditsNeverDirty | src/RPCharacterBot/Model/Character.php:203-280 | any sequence of edits leaves the state as it was, so an edited CURRENT character is never written back |
| Guilds.FromDbResult | src/RPCharacterBot/Model/Guild.php:124-130 | the four columns are copied |
| Guilds.RowRoundTrip | src/RPCharacterBot/Model/Guild.php:124-130 | reading back a guild's row yields the same guild |
| Guilds.CreateNewFromQuery | src/RPCharacterBot/Model/Guild.php:138-142 | a new guild has the query's id, setting CHANNEL and no prefixes |
| Guilds.FetchQuery | src/RPCharacterBot/Model/Guild.php:53-60 | the fetch binds exactly the query's id |
| Guilds.InsertStatement | src/RPCharacterBot/Model/Guild.php:67-80 | the insert binds id, setting, main and quick prefix |
| Guilds.DeleteStatement | src/RPCharacterBot/Model/Guild.php:87-94 | the delete is keyed by id |
| Guilds.UpdateStatement | src/RPCharacterBot/Model/Guild.php:101-116 | the update binds setting, main and quick prefix, then id |
| Guilds.NewGuildKeyedByItsQuery | src/RPCharacterBot/Model/Guild.php:53-142 | a guild created from a query is deleted under the key it was fetched by |
| Guilds.Set | src/RPCharacterBot/Model/Guild.php:171-227 | each setter assigns its column only and marks UPDATED only from CURRENT |
| Channels.FromDbResult | src/RPCharacterBot/Model/Channel.php:116-121 | id and webhook id are copied; allowOoc is allow_ooc != 0 |
| Channels.RowRoundTrip | src/RPCharacterBot/Model/Channel.php:116-121 | the persisted part of a channel survives a row round trip |
| Channels.CreateNewFromQuery | src/RPCharacterBot/Model/Channel.php:129-134 | a new channel has the query's id, no webhook id and OOC allowed |
| Channels.FetchQuery | src/RPCharacterBot/Model/Channel.php:48-55 | the fetch uses only the query's id |
| Channels.InsertStatement | src/RPCharacterBot/Model/Channel.php:62-74 | the insert binds id, webhook id and the 1/0 flag but names the guilds table |
| Channels.DeleteStatement | src/RPCharacterBot/Model/Channel.php:81-88 | the delete is keyed by id |
| Channels.UpdateStatement | src/RPCharacterBot/Model/Channel.php:95-108 | the update names the guilds table and passes flag and webhook id in swapped positions |
| Channels.UpdateBindsOnlyByCoincidence | src/RPCharacterBot/Model/Channel.php:95-108 | the update binds the channel's columns only when the webhook id equals the 1/0 flag |
| Channels.SetAllowOoc | src/RPCharacterBot/Model/Channel.php:153-159 | setAllowOoc assigns the flag and marks UPDATED only from CURRENT |
| Channels.SetWebhookId | src/RPCharacterBot/Model/Channel.php:188-192 | setWebhookId assigns the id and keeps the state |
| Channels.SetWebhook | src/RPCharacterBot/Model/Channel.php:212-217 | setWebhook changes nothing persisted and keeps the state |
| Users.FromDbResult | src/RPCharacterBot/Model/User.php:98-102 | id and ooc_prefix are copied |
| Users.RowRoundTrip | src/RPCharacterBot/Model/User.php:98-102 | reading back a user's row yields the same user |
| Users.CreateNewFromQuery | src/RPCharacterBot/Model/User.php:110-114 | a new user has the query's id and no OOC prefix |
| Users.FetchQuery | src/RPCharacterBot/Model/User.php:33-40 | the fetch binds exactly the query's id |
| Users.InsertStatement | src/RPCharacterBot/Model/User.php:47-58 | the insert binds id and ooc prefix |
| Users.DeleteStatement | src/RPCharacterBot/Model/User.php:65-72 | the delete is keyed by id |
| Users.UpdateStatement | src/RPCharacterBot/Model/User.php:79-90 | the update binds ooc prefix, then id |
| Users.NewUserKeyedByItsQuery | src/RPCharacterBot/Model/User.php:33-114 | a user created from a query is deleted under the key it was fetched by |
| Users.SetOocPrefix | src/RPCharacterBot/Model/User.php:133-139 | setOocPrefix assigns the prefix and marks UPDATED only from CURRENT |
| Users.UncacheByIdQuery | src/RPCharacterBot/Model/User.php:157-160 | uncacheById invalidates with the sub-query {id: id} |
| PairUsers.FromDbResult | src/RPCharacterBot/Model/GuildUser.php:57-63 | the four columns are copied, for each of the three scopes |
| PairUsers.RowRoundTrip | src/RPCharacterBot/Model/ChannelUser.php:57-63 | reading back a selection's row yields the same selection |
| PairUsers.CreateNewFromQuery | src/RPCharacterBot/Model/ThreadUser.php:48-52 | a new selection takes scope id and user id from the query and selects no character |
| PairUsers.FetchQuery | src/RPCharacterBot/Model/GuildUser.php:68-75 | the fetch binds user_id, then the scope id |
| PairUsers.InsertStatement | src/RPCharacterBot/Model/GuildUser.php:80-91 | the insert passes four values; it is well formed exactly for ThreadUser, whose SQL has four placeholders |
| PairUsers.UpdateStatement | src/RPCharacterBot/Model/ChannelUser.php:96-110 | the update binds character, former character, scope id and user id |
| PairUsers.DeleteStatement | src/RPCharacterBot/Model/ThreadUser.php:115-126 | the delete binds scope id and user id |
| PairUsers.NewRowKeyedByItsQuery | src/RPCharacterBot/Model/GuildUser.php:48-126 | a selection created from a query is updated and deleted under the key values the query selects by |
| PairUsers.Set | src/RPCharacterBot/Model/GuildUser.php:159-180 | both setters mark UPDATED only from CURRENT and assign their own column only |
| PairUsers.UncacheByUserIdQuery | src/RPCharacterBot/Model/ThreadUser.php:188-191 | uncacheByUserId invalidates with the sub-query {user_id: id} |
| Entities.ConfigNamesDistinct | src/RPCharacterBot/Model/Guild.php:13-14 | no two entity classes share a cache configuration name |
| Entities.FetchQuery | src/RPCharacterBot/Common/BaseModel.php:162-164 | each class's fetch is a well-formed SELECT that binds the query's values |
| Entities.FromDbResult | src/RPCharacterBot/Common/BaseModel.php:384 | hydration yields an object of the requested class |
| Entities.CreateNewFromQuery | src/RPCharacterBot/Common/BaseModel.php:376 | creation yields an object of the requested class |
| Entities.InsertStatement | src/RPCharacterBot/Common/BaseModel.php:391 | each class's insert is an INSERT that binds the object's columns |
| Entities.UpdateStatement | src/RPCharacterBot/Common/BaseModel.php:398 | each class's update is an UPDATE; which of them can run is stated by StatementsWellFormed |
| Entities.DeleteStatement | src/RPCharacterBot/Common/BaseModel.php:405 | each class's delete is well formed |
| Entities.StatementsWellFormed | src/RPCharacterBot/Common/BaseModel.php:391-405 | every delete can run; every insert except GuildUser's and ChannelUser's can run; every update except Character's can run |
| Entities.SetObjectIdAfterInsert | src/RPCharacterBot/Common/BaseModel.php:258-261 | only Character stores the insert id; other classes are unchanged |
| CacheGroups.Without | src/RPCharacterBot/Common/Cache/CacheGroup.php:61-69 | the objects other than the given one, each kept, in order |
| CacheGroups.WithoutAbsent | src/RPCharacterBot/Common/Cache/CacheGroup.php:61-69 | removing an absent object changes nothing |
| CacheGroups.WithoutAppend | src/RPCharacterBot/Common/Cache/CacheGroup.php:61-69 | the removal works piecewise, so survivors keep their relative order |
| CacheGroups.Delete | src/RPCharacterBot/Common/Cache/CacheGroup.php:61-71 | delete removes every occurrence of the object, keeps the key, and reports whether the group is now empty |
| CacheGroups.AddObjects | src/RPCharacterBot/Common/Cache/CacheGroup.php:80-91 | every input object is loosely present afterwards; existing members stay in front, unchanged; each appended object comes from the input and is not loosely equal to any object before it |
| CacheGroups.AddObjectsSnoc | src/RPCharacterBot/Common/Cache/CacheGroup.php:82-90 | the loop read front to back: the last input object is appended after all earlier ones exactly when no loosely equal object is held yet, which fixes the appended order |
| CacheGroups.FirstOfEqualsKept | src/RPCharacterBot/Common/Cache/CacheGroup.php:82-90 | of two loosely equal new objects only the first is appended |
| CacheGroups.AddPresentIsNoop | src/RPCharacterBot/Common/Cache/CacheGroup.php:80-91 | adding objects already present changes nothing |
| CacheGroups.AddObjectsIdempotent | src/RPCharacterBot/Common/Cache/CacheGroup.php:80-91 | adding the same list twice equals adding it once |
| ModelCaches.NewCache | src/RPCharacterBot/Common/Cache/ModelCache.php:35-40 | a new cache keeps the given size and priority and starts with no groups, as a list |
| ModelCaches.FindGroup | src/RPCharacterBot/Common/Cache/ModelCache.php:99-108 | the position of the first group with an identical key, or the count when there is none |
| ModelCaches.GetCacheGroupForQuery | src/RPCharacterBot/Common/Cache/ModelCache.php:99-117 | a hit returns the group with that key and puts it in front; a miss changes nothing |
| ModelCaches.PromoteKeepsOthersInOrder | src/RPCharacterBot/Common/Cache/ModelCache.php:99-117 | a hit moves the group to the front and keeps the others in order; the count is unchanged |
| ModelCaches.Live | src/RPCharacterBot/Common/Cache/ModelCache.php:79-86 | exactly the objects of the list that are not marked DELETED, never more of them than the list has |
| ModelCaches.LiveAppend | src/RPCharacterBot/Common/Cache/ModelCache.php:79-86 | the filter keeps order: filtering two lists one after the other is filtering each and concatenating |
| ModelCaches.GetObjectsByQuery | src/RPCharacterBot/Common/Cache/ModelCache.php:70-90 | null on a miss; a hit answers the first group's non-deleted objects in order, or null when all of them are DELETED; the promotion of getCacheGroupForQuery is kept |
| ModelCaches.AddModelsToCache | src/RPCharacterBot/Common/Cache/ModelCache.php:127-153 | as written: size and priority kept; an empty list changes nothing; when the call throws nothing is force-saved and one group more than before is left |
| ModelCaches.DenseAddNeverThrows | src/RPCharacterBot/Common/Cache/ModelCache.php:142-152 | on a list-shaped cache with a size of at least zero, adding never reads a missing group |
| ModelCaches.AddUnderExistingKey | src/RPCharacterBot/Common/Cache/ModelCache.php:136-138 | adding under an existing key promotes and merges that group; the count is unchanged |
| ModelCaches.AddNewKeyBelowCapacity | src/RPCharacterBot/Common/Cache/ModelCache.php:140-144 | below capacity a new key is appended at the back |
| ModelCaches.AddNewKeyAtCapacity | src/RPCharacterBot/Common/Cache/ModelCache.php:140-152 | at capacity the new group is appended and at once removed, its models force-saved, and the next array key is left one past the count |
| ModelCaches.SecondOverflowThrows | src/RPCharacterBot/Common/Cache/ModelCache.php:140-152 | a second miss on a full cache finds no group under key cacheSize, throws and leaves cacheSize + 1 groups |
| ModelCaches.AddModelsToCacheReindexed | src/RPCharacterBot/Common/Cache/ModelCache.php:127-153 | the corrected add: the array is renumbered after the overflow group is unset |
| ModelCaches.ReindexedKeepsBound | src/RPCharacterBot/Common/Cache/ModelCache.php:140-152 | with renumbering the cache never exceeds cacheSize groups and never throws |
| ModelCaches.PendingIn | src/RPCharacterBot/Common/Cache/ModelCache.php:165-171 | every entry carries the cache's priority and an object of the group |
| ModelCaches.PendingInMembers | src/RPCharacterBot/Common/Cache/ModelCache.php:165-171 | an object gets an entry exactly when it is in the group and not CURRENT |
| ModelCaches.PendingAllMembers | src/RPCharacterBot/Common/Cache/ModelCache.php:162-173 | over all groups, an object gets an entry exactly when some group holds it and it is not CURRENT |
| ModelCaches.CollectFromGroup | src/RPCharacterBot/Common/Cache/ModelCache.php:165-171 | the inner loop appends one group's pending entries after the queued ones |
| ModelCaches.CollectRequiredUpdates | src/RPCharacterBot/Common/Cache/ModelCache.php:162-173 | the queue keeps its entries in front and gains the pending entries, group by group and object by object |
| ModelCaches.DeleteObject | src/RPCharacterBot/Common/Cache/ModelCache.php:181-198 | after delete no group holds the object; size and priority are unchanged |
| ModelCaches.DeleteKeepsNonEmptyGroups | src/RPCharacterBot/Common/Cache/ModelCache.php:181-198 | delete leaves exactly the groups that still hold something once the object is removed, in order |
| ModelCaches.Uncache | src/RPCharacterBot/Common/Cache/ModelCache.php:206-238 | uncache keeps size and priority and leaves only groups the cache already had |
| ModelCaches.UncacheRemovesExactlyMatches | src/RPCharacterBot/Common/Cache/ModelCache.php:206-238 | uncache leaves exactly the groups whose key does not contain the sub-query, in order |
| ModelCaches.EmptySubQueryClearsAll | src/RPCharacterBot/Common/Cache/ModelCache.php:206-238 | an empty sub-query removes every group |
| Registries.InitialValid | src/RPCharacterBot/Common/BaseModel.php:133-156 | the empty registry satisfies the invariant: no caches, no timer |
| Registries.CacheSize | src/RPCharacterBot/Common/BaseModel.php:140-146 | a new cache gets the configured size for the class, or 100 |
| Registries.EnsureCache | src/RPCharacterBot/Common/BaseModel.php:133-156 | a class without a cache gets one with its size and priority; the timer is armed only for the first cache |
| Registries.OneFlushTimer | src/RPCharacterBot/Common/BaseModel.php:133-137 | however many classes are fetched, at most one flush timer is registered |
| Registries.EnsureAllKeepsCaches | src/RPCharacterBot/Common/BaseModel.php:133-156 | setting up caches never replaces a cache that exists |
| Registries.Loaded | src/RPCharacterBot/Common/BaseModel.php:164-187 | one CURRENT object per row in row order; with no rows one NEW object from the query if createNew, else none |
| Registries.Fetch | src/RPCharacterBot/Common/BaseModel.php:128-195 | no query is sent exactly when the cache look-up hits, and then the fetch resolves with the cached live objects; a query sent is the class's fetch; a failed query resolves nothing; an answered query on a list-shaped cache always resolves; objects loaded by a miss are fresh; other classes' caches are untouched |
| Registries.Lookup | src/RPCharacterBot/Common/BaseModel.php:135-160 | the class's cache is set up, the first group under the query is promoted, and the answer is that group's live objects, or null when there is no such group or none is live |
| Registries.FetchRowsResolvesWithRows | src/RPCharacterBot/Common/BaseModel.php:164-183 | on a miss into a list-shaped cache, an answer with rows sends the fetch query and resolves with one new CURRENT object per row, in row order |
| Registries.FetchNoRows | src/RPCharacterBot/Common/BaseModel.php:164-187 | on a miss into a list-shaped cache, an answer with no rows sends the fetch query and resolves with one NEW object if createNew, else with nothing |
| Registries.FetchThenHit | src/RPCharacterBot/Common/BaseModel.php:158-187 | a new query into a list-shaped cache below its size, answered with objects, is cached: the same fetch again sends nothing and resolves with the same objects |
| Registries.FetchAtCapacityRefetches | src/RPCharacterBot/Common/BaseModel.php:158-187 | a new query into a full list-shaped cache resolves, but its objects are force-saved at once and the same fetch again sends the query again |
| Registries.FetchSingle | src/RPCharacterBot/Common/BaseModel.php:79-92 | fetchSingleByQuery yields the first object, or null when there is none |
| Registries.ApplyUpdate | src/RPCharacterBot/Common/BaseModel.php:213-223 | DELETED sends the delete, UPDATED the update, NEW the insert, CURRENT nothing |
| Registries.Dispatch | src/RPCharacterBot/Common/BaseModel.php:203-223 | every write sent for a list of objects belongs to a listed object and is the statement its state calls for |
| Registries.DispatchCoversDirty | src/RPCharacterBot/Common/BaseModel.php:203-223 | every non-CURRENT object handed to forceSaveToDb gets a write |
| Registries.DispatchIndex | src/RPCharacterBot/Common/BaseModel.php:203-223 | names the position of the write a dirty object handed to forceSaveToDb receives |
| Registries.Complete | src/RPCharacterBot/Common/BaseModel.php:230-300 | an insert stores the id and sets CURRENT; an update sets CURRENT; a delete uncaches and keeps DELETED; a failure changes nothing |
| Registries.DeleteCompletionUncaches | src/RPCharacterBot/Common/BaseModel.php:268-280 | after a successful delete the object is in no group of its class's cache |
| Registries.WriteBackSettles | src/RPCharacterBot/Common/BaseModel.php:230-300 | a successful insert or update makes the object CURRENT, so the next flush does not send it |
| Registries.ChangeDuringUpdateIsLost | src/RPCharacterBot/Common/BaseModel.php:289-315 | a change made while an update is in flight is marked CURRENT by the completion and never written |
| Registries.DeleteDuringWriteIsLost | src/RPCharacterBot/Common/BaseModel.php:289-358 | a delete() while a write is in flight is overwritten by CURRENT |
| Registries.CollectAll | src/RPCharacterBot/Common/BaseModel.php:322-333 | the queue is filled cache by cache, in cache creation order |
| Registries.SendAll | src/RPCharacterBot/Common/BaseModel.php:335-340 | each queued object's write is sent in queue order |
| Registries.StoreCachedObjects | src/RPCharacterBot/Common/BaseModel.php:322-341 | the flush queues every pending object and sends their writes in queue order |
| Registries.FlushQueueDirty | src/RPCharacterBot/Common/BaseModel.php:322-333 | every queued object is in the heap and not CURRENT |
| Registries.EditReachesFlush | src/RPCharacterBot/Common/BaseModel.php:322-334 | after an in-place edit of a cached object, the next flush queues it exactly when its new state is not CURRENT |
| Registries.FlushQueueMembers | src/RPCharacterBot/Common/BaseModel.php:322-333 | an object is queued with a priority exactly when a cache with that priority holds it and it is not CURRENT |
| Registries.UncacheBySubQuery | src/RPCharacterBot/Common/BaseModel.php:344-351 | the class's cache drops the matching groups; a class with no cache is left alone |
| Registries.UncacheUserById | src/RPCharacterBot/Model/User.php:157-160 | the heap and the other classes' caches stay; the user cache keeps exactly the groups whose key does not hold the id, in order |
| Registries.UncacheThreadUsersByUserId | src/RPCharacterBot/Model/ThreadUser.php:188-191 | the heap and the other classes' caches stay; the thread-selection cache keeps exactly the groups whose key does not hold the user id, in order |
| Registries.UncacheByIdForcesRefetch | src/RPCharacterBot/Model/User.php:157-160 | after uncacheById, fetching a user by a loosely equal id asks the database again |
| MessageCaches.Initial | src/RPCharacterBot/Common/MessageCache.php:61-70 | the singleton starts with empty caches and both clearance times at now |
| MessageCaches.CleanWebhookCache | src/RPCharacterBot/Common/MessageCache.php:136-160 | within 60/5 s of the last run nothing changes; otherwise clearance is now and the list holds the recent submissions, renumbered |
| MessageCaches.CleanKeepsExactlyRecent | src/RPCharacterBot/Common/MessageCache.php:143-159 | after a run, a submission survives exactly when it was there and is at most 60 s old |
| MessageCaches.SubmitToWebHook | src/RPCharacterBot/Common/MessageCache.php:171-186 | one entry (now, user, channel, username, trimmed text) is appended, then the list is cleaned |
| MessageCaches.DropEmptyUsers | src/RPCharacterBot/Common/MessageCache.php:117-127 | exactly the users with a non-empty channel map remain |
| MessageCaches.CleanMainCache | src/RPCharacterBot/Common/MessageCache.php:92-129 | at most every 120 s, messages older than 600 s and then users without channels are removed |
| MessageCaches.FindSubmission | src/RPCharacterBot/Common/MessageCache.php:203-228 | the first submission in the same channel, by the same name, with a similar text |
| MessageCaches.Store | src/RPCharacterBot/Common/MessageCache.php:230-239 | the message is filed under user and channel and other users are untouched; the user's other channels survive when this channel was already recorded (or, corrected, always); as written, a user without an entry for this channel is left with this message alone |
| MessageCaches.IdentifyBotMessage | src/RPCharacterBot/Common/MessageCache.php:195-243 | false with no change unless a bot with discriminator 0 echoes a submission; a match files the message under the submitter, keeps the submissions, and leaves other users' entries as they were apart from the clean-up's ageing |
| MessageCaches.IdentifyForgetsOtherChannels | src/RPCharacterBot/Common/MessageCache.php:235-239 | as written, a match in a new channel makes the user's other channel entries disappear |
| MessageCaches.IdentifyBotMessageCorrected | src/RPCharacterBot/Common/MessageCache.php:195-243 | the corrected form keeps the user's other channels |
| MessageCaches.CorrectedKeepsOtherEntries | src/RPCharacterBot/Common/MessageCache.php:230-243 | with the correction, every other (user, channel) entry is only ever aged out |
| MessageCaches.FindLastUserMessage | src/RPCharacterBot/Common/MessageCache.php:252-266 | null when the user or channel is absent, else the stored message |
| MessageCaches.FindAfterIdentify | src/RPCharacterBot/Common/MessageCache.php:195-266 | a recognised, still recent message is what the next look-up for its user and channel finds |
| MessageCaches.RemoveFromCache | src/RPCharacterBot/Common/MessageCache.php:275-293 | only that entry goes, a user left with none goes, other entries stay, and an absent entry is a no-op |
| MessageInfos.OrConfig | src/RPCharacterBot/Common/MessageInfo.php:221-222 | a non-null value is kept; only null falls back to the configuration or its default |
| MessageInfos.DefaultCharacter | src/RPCharacterBot/Common/MessageInfo.php:352-367 | the first flagged character, else the first one, else none |
| MessageInfos.FirstDefault | src/RPCharacterBot/Common/MessageInfo.php:355-362 | the first flagged character, or none exactly when none is flagged |
| MessageInfos.DefaultPrefersFlagged | src/RPCharacterBot/Common/MessageInfo.php:352-367 | a flagged character anywhere is chosen over an unflagged first one |
| MessageInfos.FindById | src/RPCharacterBot/Common/MessageInfo.php:446-455 | the first character whose id is loosely equal, or none exactly when there is none |
| MessageInfos.LastMatchingWebhook | src/RPCharacterBot/Common/MessageInfo.php:284-291 | the last webhook whose id is loosely equal to the stored one |
| MessageInfos.ResolveChannel | src/RPCharacterBot/Common/MessageInfo.php:235-305 | RP exactly when the channel is known and has a webhook, or is a text channel with a matching webhook; a resolved webhook is kept as is; otherwise the last matching webhook is attached, and a text channel without one is deleted |
| MessageInfos.SettingsScope | src/RPCharacterBot/Common/MessageInfo.php:374-428 | setting GUILD selects the guild scope, any other the channel scope, and no known channel nothing |
| MessageInfos.SelectCharacter | src/RPCharacterBot/Common/MessageInfo.php:436-467 | no current character clears the stored id; a stored id equal to the current one keeps it; a differing stored id selects the first character with that id, or is reset to the current one when there is none |
| MessageInfos.SelectionAgrees | src/RPCharacterBot/Common/MessageInfo.php:436-467 | after selection the stored id agrees with the selected character's id, or is null when there is none |
| MessageInfos.SelectionIsStable | src/RPCharacterBot/Common/MessageInfo.php:436-467 | handling the next message with the left settings selects the same character and changes nothing |
| MessageInfos.ParseMessage | src/RPCharacterBot/Common/MessageInfo.php:186-372 | the OOC prefix falls back to configuration; a DM has no prefixes, channel or settings and takes the default character; a guild message's prefixes fall back to configuration; the channel outcome is ResolveChannel's; when settings are used, the character and settings are SelectCharacter's on the scope the guild setting picks |
| MessageInfos.GuildSettingAlwaysSelects | src/RPCharacterBot/Common/MessageInfo.php:374-409 | with setting GUILD the guild's settings are used even outside a known channel |
| MessageInfos.UnknownChannelSelectsNothing | src/RPCharacterBot/Common/MessageInfo.php:374-428 | with another setting and no channel record nothing is selected and no settings change |
| CommandHandlers.ReadablePermission | src/RPCharacterBot/Common/CommandHandler.php:76-84 | the name split on '_', each word capitalised, joined by spaces, in double quotes |
| CommandHandlers.PermissionListString | src/RPCharacterBot/Common/CommandHandler.php:74-97 | "A", "A and B" or "A, B, ... and Z" of the readable names |
| CommandHandlers.ListItems | src/RPCharacterBot/Common/CommandHandler.php:85-94 | the loop joins the items as the readable list |
| CommandHandlers.PermissionsMatch | src/RPCharacterBot/Common/CommandHandler.php:133-141 | the check passes exactly when every required name present in the table is granted |
| CommandHandlers.UnknownPermissionIgnored | src/RPCharacterBot/Common/CommandHandler.php:133-141 | requiring a name the table lacks never changes the outcome |
| CommandHandlers.CommandNameOf | src/RPCharacterBot/Common/CommandHandler.php:262-266 | a class named XxxCommand derives the lower-cased "xxx"; other classes derive nothing |
| CommandHandlers.RegisteredNames | src/RPCharacterBot/Common/CommandHandler.php:255-270 | a name is registered exactly when some discovered class derives it |
| CommandHandlers.RegisteredClass | src/RPCharacterBot/Common/CommandHandler.php:255-270 | the class registered under a name is a discovered class deriving that name |
| CommandHandlers.SearchCommand | src/RPCharacterBot/Common/CommandHandler.php:241-279 | the class registered under the lower-cased command, or none |
| CommandHandlers.SearchIgnoresCase | src/RPCharacterBot/Common/CommandHandler.php:244 | look-up gives the same answer for a command and its lower-cased form |
| CommandHandlers.GetCharacterByShortcut | src/RPCharacterBot/Common/CommandHandler.php:323-335 | the first character whose shortname is loosely equal to the shortcut, or none exactly when there is none |
| CommandHandlers.ShortcutMatchIsLoose | src/RPCharacterBot/Common/CommandHandler.php:323-335 | the comparison is PHP's `==`: "7" finds a character with shortname "07" |
| CommandHandlers.GetMessageWords | src/RPCharacterBot/Common/CommandHandler.php:342-351 | words exist exactly when the content has a space; no word contains a space |
| CommandHandlers.WordsRejoin | src/RPCharacterBot/Common/CommandHandler.php:342-351 | the command piece, a space and the words joined by spaces give back the content |
| BotHelpers.ExtractCommandName | src/RPCharacterBot/Common/Helpers/BotHelper.php:13-28 | null unless the text is longer than the prefix and starts with it; then prefix + result is the text and the result is not empty |
| BotHelpers.ExtractAfterPrefix | src/RPCharacterBot/Common/Helpers/BotHelper.php:13-28 | extracting after prefixing a non-empty command gives the command back |
| NameRules.Clean | src/RPCharacterBot/Commands/DMCommand.php:20 | the cleaned name has no white space other than spaces (the Unicode separators, horizontal and vertical space included) and no space at either end |
| NameRules.CleanIdempotent | src/RPCharacterBot/Commands/DMCommand.php:20 | cleaning a cleaned name changes nothing |
| NameRules.SanitiseName | src/RPCharacterBot/Commands/DMCommand.php:18-34 | the name written back is the cleaned one; the result is null exactly when no rule is broken, else the rejection text |
| NameRules.AcceptedIsStable | src/RPCharacterBot/Commands/DMCommand.php:18-34 | an accepted name is accepted again, unchanged |
| MessageContainers.LineCommand | src/RPCharacterBot/Common/MultiMessage/MessageContainer.php:51-63 | a line names a command exactly when its first word is the quick prefix followed by a name a discovered class is registered under; the answer is that class |
| MessageContainers.GroupsPartitionLines | src/RPCharacterBot/Common/MultiMessage/MessageContainer.php:50-83 | every line lands in exactly one group, in order |
| MessageContainers.LaterGroupsStartWithCommands | src/RPCharacterBot/Common/MultiMessage/MessageContainer.php:60-70 | a group after the first starts at a command line and has that command as its handler |
| MessageContainers.ParseMessage | src/RPCharacterBot/Common/MultiMessage/MessageContainer.php:39-90 | at least one block, the first handled by the default handler, the blocks being the trimmed groups of the lines |
| MessageContainers.ParseLines | src/RPCharacterBot/Common/MultiMessage/MessageContainer.php:50-79 | the loop builds the closed blocks and the open one as the grouping prescribes |
| MessageContainers.FinishedBlocks | src/RPCharacterBot/Common/MultiMessage/MessageContainer.php:81-87 | closing the open block and trimming yields the blocks of the grouping |
| MessageContainers.IsValid | src/RPCharacterBot/Common/MultiMessage/MessageContainer.php:96-112 | false for no blocks, true for one, otherwise true exactly when every handler is stackable |
| MessageContainers.NoCommandsOneBlock | src/RPCharacterBot/Common/MultiMessage/MessageContainer.php:39-112 | a message with no later command line is one valid default block |
| Avatars.AvatarRequest | src/RPCharacterBot/Commands/DM/AvatarCommand.php:119-135 | fewer than two words is the usage reply; the shortcut is refused exactly when no character has it; otherwise the first character with it and the URL to download |
| Avatars.LastValue | src/RPCharacterBot/Commands/DM/AvatarCommand.php:269-280 | the value of the last line with the key, or none when no line has it |
| Avatars.LastOccurrenceWins | src/RPCharacterBot/Commands/DM/AvatarCommand.php:269-280 | of several lines with the same key, the last one decides |
| Avatars.ReadImageInfo | src/RPCharacterBot/Commands/DM/AvatarCommand.php:266-280 | the loop yields the mime type and geometry of the last lines keyed "mime type" and "geometry" |
| Avatars.ParseGeometry | src/RPCharacterBot/Commands/DM/AvatarCommand.php:293-305 | a size is read exactly when the text before the first '+', trimmed, splits on 'x' into two digit strings |
| Avatars.GeometryRoundTrip | src/RPCharacterBot/Commands/DM/AvatarCommand.php:293-305 | the geometry text of a w x h image reads back as (w, h) |
| Avatars.Extension | src/RPCharacterBot/Commands/DM/AvatarCommand.php:338-341 | jpg exactly for image/jpeg or image/jpg in any ASCII case, else png |
| Avatars.PlanCrop | src/RPCharacterBot/Commands/DM/AvatarCommand.php:380-403 | the output is square with side min(w, h); x offset (w - h) / 2 when wider; crop exactly when w != h; resize exactly when the side is not 128 |
| Avatars.CropIsCentred | src/RPCharacterBot/Commands/DM/AvatarCommand.php:380-399 | the parts cut left and right differ by at most one pixel |
| Avatars.Analyse | src/RPCharacterBot/Commands/DM/AvatarCommand.php:248-344 | a failed run, a missing mime or geometry, an unreadable geometry or a side under 128 ends in a reply, each exactly in its case; a readable geometry of at least 128 by 128 is converted with the centred crop |
| Avatars.ConvertedIsSquare | src/RPCharacterBot/Commands/DM/AvatarCommand.php:371-403 | a converted avatar's square side is at least 128, and exactly 128 when no resize is planned |
| DmCommands.ListCommand | src/RPCharacterBot/Commands/DM/ListCommand.php:14-42 | no characters gives exactly the header; otherwise header, table head, one line per character in order, closing fence |
| DmCommands.AppendRows | src/RPCharacterBot/Commands/DM/ListCommand.php:34-37 | the loop appends the characters' lines in list order |
| DmCommands.TableAppend | src/RPCharacterBot/Commands/DM/ListCommand.php:34-37 | the table of two lists is the table of the first followed by that of the second |
| DmCommands.LineShape | src/RPCharacterBot/Commands/DM/ListCommand.php:36 | a line is a break, the shortname padded to at least 16 bytes, " - " and the name |
| DmCommands.NewCommand | src/RPCharacterBot/Commands/DM/NewCommand.php:16-48 | usage below two words; then, each exactly when it fails, the shortcut pattern, the free shortcut and the name rules are checked in that order, the sanitiser's reply being passed on verbatim; when all pass, the call to the undefined createNewCharacter fails, so no character is ever created |
| DmCommands.NewCommandFails | src/RPCharacterBot/Commands/DM/NewCommand.php:45 | the request "new bob Bob" from a user with no characters ends in the undefined method as written, and creates "bob" named "Bob" when corrected |
| DmCommands.NewCommandCorrected | src/RPCharacterBot/Commands/DM/NewCommand.php:16-48 | the intended command: it creates exactly when every check passes, with the lower-cased shortcut and the cleaned name; every other reply is the one given as written |
| DmCommands.NewIsOnce | src/RPCharacterBot/Commands/DM/NewCommand.php:31-35 | with the corrected command, once the created character exists, the same command is refused as a taken shortcut |
| DmCommands.NickCommand | src/RPCharacterBot/Commands/DM/NickCommand.php:16-42 | usage, an unknown shortcut and a rejected name (each exactly in its case, the sanitiser's reply verbatim) change nothing; a rename changes only the first character with the shortcut, to the cleaned name, keeping its state |
| DmCommands.DeleteCommand | src/RPCharacterBot/Commands/DM/DeleteCommand.php:15-33 | usage and unknown shortcut change nothing; otherwise the named character becomes DELETED and the reply names it |
| DmCommands.OocCommand | src/RPCharacterBot/Commands/DM/OocCommand.php:15-35 | one or two words with a first word of at most 5 characters set the OOC prefix through the dirty-marking setter; anything else changes nothing |
| DmCommands.DefaultTarget | src/RPCharacterBot/Commands/DM/DefaultCommand.php:19-28 | the named character, the usage reply exactly when there are no words, or the unknown-shortcut reply |
| DmCommands.DefaultCommand | src/RPCharacterBot/Commands/DM/DefaultCommand.php:15-50 | as written: with a flagged character nothing changes; with none the named one is flagged and the reply names the last character |
| DmCommands.DefaultNeverMoves | src/RPCharacterBot/Commands/DM/DefaultCommand.php:30-41 | as written, once any character is flagged no flag ever changes |
| DmCommands.DefaultCommandCorrected | src/RPCharacterBot/Commands/DM/DefaultCommand.php:15-50 | corrected: the named character ends up flagged and the reply names it |
| DmCommands.CorrectedDefaultIsUnique | src/RPCharacterBot/Commands/DM/DefaultCommand.php:30-47 | corrected, with at most one default before, the named character is afterwards the only default |
| GuildCommands.SettingWord | src/RPCharacterBot/Commands/Guild/CharsettingCommand.php:25-35 | the lower-cased first word when it is server, channel, guild or thread |
| GuildCommands.Charsetting | src/RPCharacterBot/Commands/Guild/CharsettingCommand.php:23-75 | as written: usage for other words; channel and thread fail on the missing constant; server and guild set GUILD unless already set |
| GuildCommands.ChannelSettingUnreachable | src/RPCharacterBot/Commands/Guild/CharsettingCommand.php:43-57 | as written, asking for per-channel characters fails and leaves the guild unchanged |
| GuildCommands.CharsettingCorrected | src/RPCharacterBot/Commands/Guild/CharsettingCommand.php:37-74 | corrected: server and guild map to GUILD, channel to CHANNEL, thread to THREAD; the setter runs exactly when the setting differs |
| GuildCommands.CorrectedSettingSticks | src/RPCharacterBot/Commands/Guild/CharsettingCommand.php:66-74 | corrected, repeating the command replies "already" and changes nothing |
| GuildCommands.PrefixPing | src/RPCharacterBot/Commands/Guild/PrefixPingCommand.php:22-46 | usage with no words; the lower-cased word of 1 to 6 allowed characters becomes the main prefix; any rejection leaves the guild unchanged |
| GuildCommands.MainPrefixShape | src/RPCharacterBot/Commands/Guild/PrefixPingCommand.php:30-43 | an accepted main prefix is lower case, 1 to 6 long, of allowed characters with at most a final line feed |
| GuildCommands.Sprefix | src/RPCharacterBot/Commands/Guild/SprefixCommand.php:22-40 | usage with no words; the lower-cased word of 1 to 4 copies of one allowed character becomes the quick prefix; a rejection leaves the guild unchanged |
| GuildCommands.QuickPrefixAccepted | src/RPCharacterBot/Commands/Guild/SprefixCommand.php:30-37 | every run of 1 to 4 copies of an allowed character is accepted and stored |

## Left out

- Networking, the Discord gateway and event wiring, the websocket server and the thread helper: they are I/O. Replies are outcome values, not sent messages.
- The MySQL adapter: database answers are parameters (rows or an error for a fetch, success with an insert id or an error for a write).
- The BotException thrown when a fetch fails is modelled as a promise that never resolves. Error logging is not modelled.
- Promise scheduling (futureTick, the 15-second periodic timer) is a sequence of steps. The race of two interleaved fetches for the same query is concurrency and is not modelled.
- Class discovery by reflection over the file system, and the COMMAND_NAMESPACE check, are replaced by the list of discovered class names.
- The Discord permission table and `permissionsFor` are a given map and a given predicate.
- `similar_text` with its float percentage is an oracle `similar`. `time()` is the parameter `now`.
- Character::createNewCharacter is defined nowhere in the repository, so the new command as written always fails once its checks pass. The corrected command returns a create request; the insert of the new character that such a factory would perform is not modelled.
- The avatar command's download, temporary files, ImageMagick processes and HTML/og:image retry are I/O. The float `round` of geometry values is left out; only digit strings are read.
- A report line without ": " gives the value "" (PHP reads null and trims it to the empty string).
- The webhook-sending commands and the thin guild commands (setup, unset, new, ooc) are I/O wrappers.
- Logging, interfaces and plain records (ConsoleOutput, StackableCommand, MessageBlock, CharacterDefaultModel) appear only as type shapes.
- Values.IsNumeric: only non-empty runs of ASCII digits are numeric strings. PHP also accepts signs, decimals, exponents and surrounding white space.
- BotHelpers.ExtractCommandName: the prefix comparison uses the same restricted notion of numeric strings.
- Case folding is ASCII only (PhpText.Lower). `mb_strtolower` and the `/iu` flags also fold other letters; the sanitiser's reserved-name check and the guild commands' lower-casing are affected.
- GuildCommands.CharsettingCorrected: THREAD is given the value 3, a value distinct from CHANNEL and GUILD, because the Guild model declares no such constant.
- Character's default flag is a bool in the model. In the source it is null only on a character made by createNewFromQuery (Character.php:161-164, which assigns nothing). The insert and update builders write it as 0 (`? 1:0`). The getter is declared `: bool` and would throw a TypeError on null. It is called only on characters that MessageInfo fetches with createNew set to false (MessageInfo.php:338-340), and fromDbResult always sets the flag, so the null case never reaches it.
- Channel's resolved webhook object is represented by the webhook's id.
- MessageContainers.ParseMessage: the quick prefix is taken as a string. A null quick prefix would reach a strlen of null.
- MessageCaches.IdentifyBotMessage: the discriminator is taken as an already-converted integer.
- The main cache clean-up's early exit on a null entry is dead code (entries are never null) and is not modelled.
- The CacheGroup skip of non-model values cannot happen here: the heap holds only entities.
- The CACHE_PRIORITY and cache size defaults of a class with no configuration are the values BaseModel declares (priority 1, size 100).
- Registries.Fetch: on a hit it does not state that the returned handles are in the heap.
- Registries.FetchThenHit: covers a new query into a cache below its size. A query whose group exists but holds only DELETED objects merges the loaded objects into that group; that case is not stated.
- MessageInfo's magic property reader (`__get`) is the typed Info record's fields. Its error for an unknown property name cannot arise in the record and is not modelled.
- Commands edit cached objects in place (the channel's webhook, a character's name or default flag, a user's OOC prefix). The model's commands return the edited value, and the caller puts it back at its heap handle. Registries.EditReachesFlush states what the next flush then writes: the edit is written back exactly when the new state is not CURRENT. The quiet setters, such as the character name setter and setWebhook, are therefore not written back on their own.
- Registries.DispatchCoversDirty: states that every dirty object gets at least one write, not exactly one.
- ModelCaches: after the crash path of the overflow finding, a later hit can leave the same group at two positions. The model keeps two copies, as values.

## Findings

| source | as written | input that shows it | evidently intended | confidence | as-written member | corrected member |
|---|---|---|---|---|---|---|
| src/RPCharacterBot/Common/Cache/ModelCache.php:142-152 | on overflow the group under key cacheSize is unset but the array is not renumbered, so the next append uses key cacheSize + 1 | a full cache and two misses in a row: the second finds no group under key cacheSize, calls a method on null and throws; the cache keeps cacheSize + 1 groups | renumber after the unset, so the cache stays at cacheSize groups | high, not executed | ModelCaches.SecondOverflowThrows | ModelCaches.ReindexedKeepsBound |
| src/RPCharacterBot/Common/MessageCache.php:235-239 | a user with no entry for the message's channel gets a new channel map holding only that channel | a user with channel A recorded; a recognised bot message in channel B while the clean-up is throttled: the look-up for A becomes null | add the channel to the user's existing map | high, not executed | MessageCaches.IdentifyForgetsOtherChannels | MessageCaches.CorrectedKeepsOtherEntries |
| src/RPCharacterBot/Commands/DM/DefaultCommand.php:39 | the comparison after the search loop uses the loop variable, which the break leaves on the flagged character; with none flagged it compares the last character with null | a user whose character "a" is default sends "default b": nothing changes and the reply names "a" | compare the named character with the current default, unflag the old one, flag the new one | high, not executed | DmCommands.DefaultNeverMoves | DmCommands.CorrectedDefaultIsUnique |
| src/RPCharacterBot/Commands/Guild/CharsettingCommand.php:48-57 | RPCHAR_SETTING_THREAD is read but the Guild model declares only the CHANNEL and GUILD constants | "charsetting channel" in a guild set to GUILD: the second switch reads the missing constant before reaching the CHANNEL case and the command fails | declare the THREAD constant | high, not executed | GuildCommands.ChannelSettingUnreachable | GuildCommands.CorrectedSettingSticks |
| src/RPCharacterBot/Commands/DM/NewCommand.php:45 | once the usage, shortcut pattern, free-shortcut and name checks pass, the command calls Character::createNewCharacter, which no class defines and no magic static call handles, so PHP throws an Error | "new bob Bob" from a user with no characters: every check passes and the call fails; no character is created and the success reply is never sent | a factory that creates the character for the user with the shortcut and the cleaned name | high, not executed | DmCommands.NewCommandFails | DmCommands.NewIsOnce |

=== FILE: avatar_command.dfy ===
/**
 * The decisions of the avatar command (src/RPCharacterBot/Commands/DM/AvatarCommand.php):
 * argument checks, reading ImageMagick's `-verbose info:` report, the size check,
 * the output extension and the crop/resize plan. Downloading, temporary files
 * and running ImageMagick are left out; the report text and exit code are inputs.
 */
module Avatars {
  import opened Wrappers
  import opened PhpText
  import opened Values
  import Characters
  import CommandHandlers

  /** Side length of a stored avatar, in pixels. */
  const AvatarDimension: nat := 128

  const UsageReply: string := "Usage: avatar [shortcut] [avatar url]"

  /** What the command does with its arguments before any download. */
  datatype Request = Usage | UnknownShortcut(shortcut: string) | Download(character: nat, url: string)

  /**
   * handleCommandInternal: two words are needed; the lower-cased first one must
   * be a character's shortcut; the second is the URL.
   */
  function AvatarRequest(content: string, characters: seq<Characters.Character>): (r: Request)
    ensures |CommandHandlers.GetMessageWords(content)| < 2 <==> r == Usage
    ensures r.UnknownShortcut? ==> r.shortcut == Lower(CommandHandlers.GetMessageWords(content)[0])
    ensures r.UnknownShortcut? ==> CommandHandlers.GetCharacterByShortcut(characters, r.shortcut).None?
    ensures r.Download? ==> r.character < |characters| && r.url == CommandHandlers.GetMessageWords(content)[1]
    ensures r.Download? ==>
      LooseEq(characters[r.character].shortname, Text(Lower(CommandHandlers.GetMessageWords(content)[0])))
    ensures var words := CommandHandlers.GetMessageWords(content); |words| >= 2 ==>
      var found := CommandHandlers.GetCharacterByShortcut(characters, Lower(words[0]));
      (r.UnknownShortcut? <==> found.None?) && (r.Download? ==> found == Some(r.character))
  {
    var words := CommandHandlers.GetMessageWords(content);
    if |words| < 2 then Usage
    else
      var shortcut := Lower(words[0]);
      match CommandHandlers.GetCharacterByShortcut(characters, shortcut)
      case None => UnknownShortcut(shortcut)
      case Some(i) => Download(i, words[1])
  }

  // ---------------------------------------------------------------------------
  // Reading the report

  /** The key of a report line: the lower-cased text before the first ": " of the trimmed line. */
  function LineKey(line: string): string {
    Lower(SplitOnce(Trim(line), ": ").0)
  }

  /** The value of a report line: the trimmed text after the first ": " (empty when there is none). */
  function LineValue(line: string): string {
    match SplitOnce(Trim(line), ": ").1
    case Some(v) => Trim(v)
    case None => ""
  }

  /** The key of every line. */
  function Keys(lines: seq<string>): (ks: seq<string>)
    ensures |ks| == |lines|
    ensures forall i :: 0 <= i < |lines| ==> ks[i] == LineKey(lines[i])
  {
    seq(|lines|, i requires 0 <= i < |lines| => LineKey(lines[i]))
  }

  /** The last position holding the key. */
  function LastIndex(ks: seq<string>, key: string): (r: Option<nat>)
    ensures r.None? <==> key !in ks
    ensures r.Some? ==> r.value < |ks| && ks[r.value] == key
    ensures r.Some? ==> forall j :: r.value < j < |ks| ==> ks[j] != key
    decreases |ks|
  {
    if |ks| == 0 then None
    else if ks[|ks| - 1] == key then Some(|ks| - 1)
    else
      assert ks == ks[..|ks| - 1] + [ks[|ks| - 1]];
      LastIndex(ks[..|ks| - 1], key)
  }

  /** The value of the last line with the given key. */
  function LastValue(lines: seq<string>, key: string): (r: Option<string>)
    ensures r.None? <==> forall i :: 0 <= i < |lines| ==> LineKey(lines[i]) != key
    ensures r.Some? ==> exists i :: 0 <= i < |lines| && LineKey(lines[i]) == key && r.value == LineValue(lines[i])
  {
    match LastIndex(Keys(lines), key)
    case Some(i) => Some(LineValue(lines[i]))
    case None => None
  }

  /** Of several lines with the same key, the last one decides. */
  lemma LastOccurrenceWins(lines: seq<string>, key: string, i: nat)
    requires i < |lines| && LineKey(lines[i]) == key
    requires forall j :: i < j < |lines| ==> LineKey(lines[j]) != key
    ensures LastValue(lines, key) == Some(LineValue(lines[i]))
  {
    LastIndexIs(Keys(lines), key, i);
  }

  lemma LastIndexIs(ks: seq<string>, key: string, i: nat)
    requires i < |ks| && ks[i] == key
    requires forall j :: i < j < |ks| ==> ks[j] != key
    ensures LastIndex(ks, key) == Some(i)
  {
    assert key in ks;
  }

  /** The loop over the report lines: the mime type and geometry, each from its last line. */
  method ReadImageInfo(analysis: string) returns (mime: Option<string>, geometry: Option<string>)
    ensures mime == LastValue(Split(analysis, '\n'), "mime type")
    ensures geometry == LastValue(Split(analysis, '\n'), "geometry")
  {
    var lines := Split(analysis, '\n');
    mime, geometry := None, None;
    var i := 0;
    while i < |lines|
      invariant 0 <= i <= |lines|
      invariant mime == LastValue(lines[..i], "mime type")
      invariant geometry == LastValue(lines[..i], "geometry")
    {
      var key := LineKey(lines[i]);
      ReadStep(lines, i, "mime type");
      ReadStep(lines, i, "geometry");
      if key == "mime type" {
        mime := Some(LineValue(lines[i]));
      } else if key == "geometry" {
        geometry := Some(LineValue(lines[i]));
      }
      i := i + 1;
    }
    assert lines[..i] == lines;
  }

  /** One more line replaces the value for its own key and keeps the others. */
  lemma ReadStep(lines: seq<string>, i: nat, key: string)
    requires i < |lines|
    ensures LastValue(lines[..i + 1], key)
         == if LineKey(lines[i]) == key then Some(LineValue(lines[i])) else LastValue(lines[..i], key)
  {
    var ks := Keys(lines[..i + 1]);
    assert ks[..i] == Keys(lines[..i]);
    assert ks[i] == LineKey(lines[i]);
  }

  /**
   * The width and height in a geometry such as "640x480+0+0": the text before
   * the first '+', trimmed, must split on 'x' into exactly two numbers.
   */
  function ParseGeometry(geometry: string): (r: Option<(nat, nat)>)
    ensures r.Some? <==> (|Split(Trim(Split(geometry, '+')[0]), 'x')| == 2
                          && IsNumeric(Split(Trim(Split(geometry, '+')[0]), 'x')[0])
                          && IsNumeric(Split(Trim(Split(geometry, '+')[0]), 'x')[1]))
  {
    var resolution := Trim(Split(geometry, '+')[0]);
    var resData := Split(resolution, 'x');
    if |resData| != 2 || !IsNumeric(resData[0]) || !IsNumeric(resData[1]) then None
    else Some((DigitsValue(resData[0]), DigitsValue(resData[1])))
  }

  /** A decimal text holds no character other than digits. */
  lemma DigitsLack(n: nat, c: char)
    requires !IsDigit(c)
    ensures c !in NatToString(n)
  {
  }

  /** The geometry text ImageMagick prints for a w x h image is read back as (w, h). */
  lemma GeometryRoundTrip(w: nat, h: nat, offsets: string)
    ensures ParseGeometry(NatToString(w) + "x" + NatToString(h) + "+" + offsets) == Some((w, h))
  {
    var sw, sh := NatToString(w), NatToString(h);
    var res := sw + "x" + sh;
    DigitsLack(w, '+');
    DigitsLack(h, '+');
    DigitsLack(w, 'x');
    DigitsLack(h, 'x');
    assert res + "+" + offsets == res + ['+'] + offsets;
    SplitAfterPiece(res, '+', offsets);
    assert res[0] == sw[0] && res[|res| - 1] == sh[|sh| - 1];
    TrimKeepsTrimmed(res);
    assert res == sw + ['x'] + sh;
    SplitAfterPiece(sw, 'x', sh);
    SplitPlain(sh, 'x');
    DecimalRoundTrip(w);
    DecimalRoundTrip(h);
  }

  // ---------------------------------------------------------------------------
  // Size, format and conversion

  /** jpg for a JPEG mime type (either spelling, any ASCII case), png otherwise. */
  function Extension(mime: string): (r: string)
    ensures r == "jpg" <==> Lower(mime) == "image/jpeg" || Lower(mime) == "image/jpg"
    ensures r == "jpg" || r == "png"
  {
    if Lower(mime) == "image/jpeg" || Lower(mime) == "image/jpg" then "jpg" else "png"
  }

  /** The ImageMagick operations: an optional crop to a square, then an optional resize to 128 x 128. */
  datatype CropPlan = CropPlan(crop: bool, cropX: nat, width: nat, height: nat, resize: bool)

  /**
   * convertDownloadedFile: a wide image loses equal parts left and right, a tall
   * one is cut at the bottom; the square is resized unless it already has the
   * avatar size.
   */
  function PlanCrop(w: nat, h: nat): (p: CropPlan)
    ensures p.width == p.height && p.width == (if w < h then w else h)
    ensures p.crop <==> w != h
    ensures p.cropX == (if w > h then (w - h) / 2 else 0)
    ensures p.cropX + p.width <= w && p.height <= h
    ensures p.resize <==> p.width != AvatarDimension
  {
    var cropX, crop, outW, outH := 0, false, w, h;
    var (cropX, crop, outW, outH) :=
      if w > h then ((w - h) / 2, true, h, h)
      else if w != h then (0, true, w, w)
      else (cropX, crop, outW, outH);
    CropPlan(crop, cropX, outW, outH, outW != AvatarDimension || outH != AvatarDimension)
  }

  /** The crop window is centred horizontally: the parts cut left and right differ by at most one pixel. */
  lemma CropIsCentred(w: nat, h: nat)
    requires w > h
    ensures var p := PlanCrop(w, h);
      var right := w - p.cropX - p.width;
      right == p.cropX || right == p.cropX + 1
  {
  }

  /** How the analysis of a downloaded file ends. */
  datatype Analysis =
    | ExitFailure(code: int)
    | Unverifiable
    | BadGeometry
    | TooSmall
    | Convert(extension: string, plan: CropPlan)

  /**
   * fileAnalysed and imageDataAvailable: a failed ImageMagick run, a report
   * without mime type or geometry, an unreadable geometry, or an image smaller
   * than 128 in either direction each end with a reply; otherwise the file is
   * converted.
   */
  method Analyse(exitCode: int, analysis: string) returns (r: Analysis)
    ensures exitCode != 0 <==> r.ExitFailure?
    ensures r.ExitFailure? ==> r.code == exitCode
    ensures exitCode == 0 ==> (r == Unverifiable <==>
      LastValue(Split(analysis, '\n'), "mime type").None? || LastValue(Split(analysis, '\n'), "geometry").None?)
    ensures r.TooSmall? || r.Convert? ==>
      ParseGeometry(LastValue(Split(analysis, '\n'), "geometry").value).Some?
    ensures r.TooSmall? ==> var (w, h) := ParseGeometry(LastValue(Split(analysis, '\n'), "geometry").value).value;
      w < AvatarDimension || h < AvatarDimension
    ensures r.Convert? ==> var (w, h) := ParseGeometry(LastValue(Split(analysis, '\n'), "geometry").value).value;
      w >= AvatarDimension && h >= AvatarDimension && r.plan == PlanCrop(w, h)
      && r.extension == Extension(LastValue(Split(analysis, '\n'), "mime type").value)
    ensures r == BadGeometry ==>
      (exitCode == 0 && LastValue(Split(analysis, '\n'), "geometry").Some?
       && ParseGeometry(LastValue(Split(analysis, '\n'), "geometry").value).None?)
    ensures (exitCode == 0 && LastValue(Split(analysis, '\n'), "mime type").Some?
             && LastValue(Split(analysis, '\n'), "geometry").Some?
             && ParseGeometry(LastValue(Split(analysis, '\n'), "geometry").value).Some?)
      ==> r.TooSmall? || r.Convert?
  {
    if exitCode != 0 {
      return ExitFailure(exitCode);
    }
    var mime, geometry := ReadImageInfo(analysis);
    if mime.None? || geometry.None? {
      return Unverifiable;
    }
    var size := ParseGeometry(geometry.value);
    if size.None? {
      return BadGeometry;
    }
    var (width, height) := size.value;
    if height < AvatarDimension || width < AvatarDimension {
      return TooSmall;
    }
    r := Convert(Extension(mime.value), PlanCrop(width, height));
  }

  /** Every converted avatar comes out square with the avatar side: cropped to min(w, h), then resized if needed. */
  lemma ConvertedIsSquare(w: nat, h: nat)
    requires w >= AvatarDimension && h >= AvatarDimension
    ensures PlanCrop(w, h).width >= AvatarDimension
    ensures !PlanCrop(w, h).resize ==> PlanCrop(w, h).width == AvatarDimension && PlanCrop(w, h).height == AvatarDimension
  {
  }
}

=== FILE: bot_helper.dfy ===
/**
 * BotHelper::extractCommandName (src/RPCharacterBot/Common/Helpers/BotHelper.php):
 * the command word after a prefix.
 */
module BotHelpers {
  import opened Wrappers
  import opened PhpText
  import opened Values

  /** Loose `==` between two strings of the same length is plain equality. */
  lemma LooseEqSameLength(a: string, b: string)
    requires |a| == |b|
    ensures LooseEq(Text(a), Text(b)) <==> a == b
  {
    if IsNumeric(a) && IsNumeric(b) && DigitsValue(a) == DigitsValue(b) {
      SameLengthSameValue(a, b);
    }
  }

  /**
   * extractCommandName: null unless the text is strictly longer than the prefix
   * and its first |prefix| characters equal the prefix (by PHP's `==`); then
   * the rest of the text.
   */
  function ExtractCommandName(text: string, prefix: string): (r: Option<string>)
    ensures |prefix| >= |text| ==> r.None?
    ensures r.Some? <==> |prefix| < |text| && text[..|prefix|] == prefix
    ensures r.Some? ==> prefix + r.value == text && |r.value| > 0
  {
    if |prefix| >= |text| then None
    else
      var firstLetters := text[..|prefix|];
      LooseEqSameLength(firstLetters, prefix);
      if LooseEq(Text(firstLetters), Text(prefix)) then
        assert prefix + text[|prefix|..] == text;
        Some(text[|prefix|..])
      else None
  }

  /** Prefixing a non-empty command and extracting it again gives the command back. */
  lemma ExtractAfterPrefix(prefix: string, command: string)
    requires |command| > 0
    ensures ExtractCommandName(prefix + command, prefix) == Some(command)
  {
    assert (prefix + command)[..|prefix|] == prefix;
  }
}

=== FILE: cache_group.dfy ===
/**
 * One cached query result (src/RPCharacterBot/Common/Cache/CacheGroup.php): the
 * serialized query it answers and the objects it holds, by handle.
 */
module CacheGroups {
  import opened Values
  import opened Entities

  /** An object's identity: objects live in a heap and are compared with `===` by handle. */
  type Handle = nat

  type Heap = map<Handle, Entity>

  /**
   * The query string is fixed for the group's lifetime: the datatype has no
   * operation that changes it, and every operation below returns it unchanged.
   */
  datatype CacheGroup = CacheGroup(queryString: Query, cachedObjects: seq<Handle>)

  /** PHP's non-strict `==` between two objects: the same instance, or loosely equal properties. */
  predicate SameObject(heap: Heap, x: Handle, y: Handle) {
    x == y || (x in heap && y in heap && LooseSame(heap[x], heap[y]))
  }

  /** in_array without the strict flag, over objects. */
  predicate InArray(heap: Heap, x: Handle, objects: seq<Handle>) {
    exists i :: 0 <= i < |objects| && SameObject(heap, x, objects[i])
  }

  lemma InArrayGrows(heap: Heap, x: Handle, s: seq<Handle>, t: seq<Handle>)
    requires InArray(heap, x, s)
    ensures InArray(heap, x, s + t)
  {
    var i :| 0 <= i < |s| && SameObject(heap, x, s[i]);
    assert (s + t)[i] == s[i];
  }

  /** The objects other than h, in their order (the `!==` filter). */
  function Without(s: seq<Handle>, h: Handle): (r: seq<Handle>)
    ensures h !in r
    ensures forall x :: x in r <==> x in s && x != h
    decreases |s|
  {
    if |s| == 0 then [] else (if s[0] == h then [] else [s[0]]) + Without(s[1..], h)
  }

  /** Removing an absent object changes nothing. */
  lemma {:induction false} WithoutAbsent(s: seq<Handle>, h: Handle)
    requires h !in s
    ensures Without(s, h) == s
    decreases |s|
  {
    if |s| > 0 {
      WithoutAbsent(s[1..], h);
      assert [s[0]] + s[1..] == s;
    }
  }

  /** The filter works piecewise, so the survivors keep their relative order. */
  lemma {:induction false} WithoutAppend(s: seq<Handle>, t: seq<Handle>, h: Handle)
    ensures Without(s + t, h) == Without(s, h) + Without(t, h)
    decreases |s|
  {
    if |s| == 0 {
      assert s + t == t;
    } else {
      var head: seq<Handle> := if s[0] == h then [] else [s[0]];
      assert (s + t)[0] == s[0] && (s + t)[1..] == s[1..] + t;
      assert Without(s + t, h) == head + Without(s[1..] + t, h);
      WithoutAppend(s[1..], t, h);
      assert Without(s, h) == head + Without(s[1..], h);
      assert head + (Without(s[1..], h) + Without(t, h)) == (head + Without(s[1..], h)) + Without(t, h);
    }
  }

  /**
   * delete: removes every occurrence of that very object and reports
   * whether the group is empty afterwards.
   */
  function Delete(g: CacheGroup, h: Handle): (r: (CacheGroup, bool))
    ensures r.0.queryString == g.queryString
    ensures r.0.cachedObjects == Without(g.cachedObjects, h)
    ensures r.1 <==> forall x :: x in g.cachedObjects ==> x == h
  {
    var rest := Without(g.cachedObjects, h);
    assert |rest| > 0 ==> rest[0] in rest;
    (g.(cachedObjects := rest), |rest| == 0)
  }

  /**
   * addObjects: each object not already loosely present is appended,
   * in input order; nothing already held moves or disappears.
   */
  function AddObjects(g: CacheGroup, heap: Heap, objects: seq<Handle>): (r: CacheGroup)
    ensures r.queryString == g.queryString
    ensures g.cachedObjects <= r.cachedObjects
    ensures forall i :: 0 <= i < |objects| ==> InArray(heap, objects[i], r.cachedObjects)
    ensures forall i :: |g.cachedObjects| <= i < |r.cachedObjects| ==> r.cachedObjects[i] in objects
    ensures forall i :: |g.cachedObjects| <= i < |r.cachedObjects| ==> !InArray(heap, r.cachedObjects[i], r.cachedObjects[..i])
    decreases |objects|
  {
    if |objects| == 0 then g
    else if InArray(heap, objects[0], g.cachedObjects) then
      var r := AddObjects(g, heap, objects[1..]);
      AddedKeepsFirst(g, heap, objects, r);
      r
    else
      var g' := g.(cachedObjects := g.cachedObjects + [objects[0]]);
      var r := AddObjects(g', heap, objects[1..]);
      assert r.cachedObjects[|g.cachedObjects|] == objects[0];
      assert r.cachedObjects[..|g.cachedObjects|] == g.cachedObjects;
      assert InArray(heap, objects[0], r.cachedObjects) by {
        assert SameObject(heap, objects[0], r.cachedObjects[|g.cachedObjects|]);
      }
      r
  }

  /** Helper for AddObjects: a skipped first object is present in the result as well. */
  lemma AddedKeepsFirst(g: CacheGroup, heap: Heap, objects: seq<Handle>, r: CacheGroup)
    requires |objects| > 0 && InArray(heap, objects[0], g.cachedObjects)
    requires g.cachedObjects <= r.cachedObjects
    ensures InArray(heap, objects[0], r.cachedObjects)
  {
    InArrayGrows(heap, objects[0], g.cachedObjects, r.cachedObjects[|g.cachedObjects|..]);
    assert g.cachedObjects + r.cachedObjects[|g.cachedObjects|..] == r.cachedObjects;
  }

  /**
   * The foreach read front to back: the last input object is appended after
   * all earlier ones exactly when no loosely equal object is already held.
   * With the empty input giving the group back, this fixes both the order of
   * the appended objects and which of several loosely equal inputs is kept
   * (the first).
   */
  lemma {:induction false} AddObjectsSnoc(g: CacheGroup, heap: Heap, objects: seq<Handle>, o: Handle)
    ensures AddObjects(g, heap, objects + [o]) ==
      (var a := AddObjects(g, heap, objects);
       if InArray(heap, o, a.cachedObjects) then a else a.(cachedObjects := a.cachedObjects + [o]))
    decreases |objects|
  {
    if |objects| == 0 {
      assert objects + [o] == [o];
      assert [o][1..] == [];
    } else {
      assert (objects + [o])[0] == objects[0];
      assert (objects + [o])[1..] == objects[1..] + [o];
      if InArray(heap, objects[0], g.cachedObjects) {
        AddObjectsSnoc(g, heap, objects[1..], o);
      } else {
        var g' := g.(cachedObjects := g.cachedObjects + [objects[0]]);
        AddObjectsSnoc(g', heap, objects[1..], o);
      }
    }
  }

  /** Two loosely equal new objects: only the first one is appended. */
  lemma FirstOfEqualsKept(g: CacheGroup, heap: Heap, x: Handle, y: Handle)
    requires !InArray(heap, x, g.cachedObjects)
    requires SameObject(heap, y, x)
    ensures AddObjects(g, heap, [x, y]).cachedObjects == g.cachedObjects + [x]
  {
    var a := AddObjects(g, heap, [x]);
    assert a.cachedObjects == g.cachedObjects + [x] by {
      AddObjectsSnoc(g, heap, [], x);
      assert [] + [x] == [x];
    }
    assert InArray(heap, y, a.cachedObjects) by {
      assert SameObject(heap, y, a.cachedObjects[|g.cachedObjects|]);
    }
    assert AddObjects(g, heap, [x] + [y]) == a by {
      AddObjectsSnoc(g, heap, [x], y);
    }
    assert [x] + [y] == [x, y];
  }

  /** Adding objects that are all already present changes nothing. */
  lemma {:induction false} AddPresentIsNoop(g: CacheGroup, heap: Heap, objects: seq<Handle>)
    requires forall i :: 0 <= i < |objects| ==> InArray(heap, objects[i], g.cachedObjects)
    ensures AddObjects(g, heap, objects) == g
    decreases |objects|
  {
    if |objects| > 0 {
      AddPresentIsNoop(g, heap, objects[1..]);
    }
  }

  /** Adding the same list twice is the same as adding it once. */
  lemma AddObjectsIdempotent(g: CacheGroup, heap: Heap, objects: seq<Handle>)
    ensures AddObjects(AddObjects(g, heap, objects), heap, objects) == AddObjects(g, heap, objects)
  {
    AddPresentIsNoop(AddObjects(g, heap, objects), heap, objects);
  }
}

=== FILE: channels.dfy ===
/**
 * A channel set up for role play (src/RPCharacterBot/Model/Channel.php): its
 * webhook id, whether out-of-character talk is allowed, and the resolved webhook
 * object (which is not persisted; the model keeps only the webhook's id).
 */
module Channels {
  import opened Wrappers
  import opened Values
  import opened Db
  import opened Lifecycle

  const ConfigName: string := "channels"
  const Priority: int := 1
  const Table: string := "channels"

  datatype Channel = Channel(id: Scalar, webhookId: Scalar, allowOoc: bool, webhook: Option<string>)

  const Columns: seq<string> := ["id", "webhook_id", "allow_ooc"]

  /** A newly constructed object: allowOoc defaults to true. */
  const Blank: Channel := Channel(Null, Null, true, None)

  function Column(c: Channel, col: string): Scalar {
    if col == "id" then c.id
    else if col == "webhook_id" then c.webhookId
    else if col == "allow_ooc" then Flag(c.allowOoc)
    else Null
  }

  function ToRow(c: Channel): Row {
    map col | col in Columns :: Column(c, col)
  }

  /** fromDbResult: id and webhook id copied, allowOoc is `allow_ooc != 0`; the webhook object is untouched. */
  function FromDbResult(row: Row): (c: Channel)
    ensures Column(c, "id") == RowGet(row, "id") && Column(c, "webhook_id") == RowGet(row, "webhook_id")
    ensures c.allowOoc <==> !LooseEq(RowGet(row, "allow_ooc"), Num(0))
    ensures c.webhook == None
  {
    Blank.(id := RowGet(row, "id"), webhookId := RowGet(row, "webhook_id"), allowOoc := NonZero(RowGet(row, "allow_ooc")))
  }

  /** The persisted part of a channel survives a row round trip. */
  lemma RowRoundTrip(c: Channel)
    ensures FromDbResult(ToRow(c)) == c.(webhook := None)
  {
    var row := ToRow(c);
    assert RowGet(row, "id") == c.id;
    assert RowGet(row, "webhook_id") == c.webhookId;
    assert RowGet(row, "allow_ooc") == Flag(c.allowOoc);
  }

  /** A new channel: the query's id, no webhook id, OOC allowed. */
  function CreateNewFromQuery(q: Query): (c: Channel)
    ensures Column(c, "id") == QueryGet(q, "id")
    ensures c.webhookId == Null && c.allowOoc && c.webhook == None
  {
    Blank.(id := QueryGet(q, "id"), webhookId := Null, allowOoc := true)
  }

  /** The fetch uses only the query's id; other keys are ignored. */
  function FetchQuery(q: Query): (r: DBQuery)
    ensures r.sql.Select? && r.sql.Table() == Table && r.sql.Columns() == ["id"]
    ensures r.WellFormed() && r.Binds(col => QueryGet(q, col))
  {
    DBQuery(Select(Table, ["id"]), [QueryGet(q, "id")])
  }

  /** The insert binds its columns correctly but names the guilds table. */
  function InsertStatement(c: Channel): (r: DBQuery)
    ensures r.sql.Insert? && r.sql.Columns() == Columns
    ensures r.WellFormed() && r.Binds(col => Column(c, col))
    ensures r.sql.Table() == "guilds" && r.sql.Table() != Table
  {
    DBQuery(Insert("guilds", ["id", "webhook_id", "allow_ooc"], 3), [c.id, c.webhookId, Flag(c.allowOoc)])
  }

  function DeleteStatement(c: Channel): (r: DBQuery)
    ensures r.sql.Delete? && r.sql.Table() == Table && r.sql.Columns() == ["id"]
    ensures r.WellFormed() && r.Binds(col => Column(c, col))
  {
    DBQuery(Delete(Table, ["id"]), [c.id])
  }

  /**
   * The update names the guilds table and passes the flag where webhook_id is
   * named and the webhook id where allow_ooc is named.
   */
  function UpdateStatement(c: Channel): (r: DBQuery)
    ensures r.sql.Update? && r.sql.Table() == "guilds"
    ensures r.sql.Columns() == ["webhook_id", "allow_ooc", "id"] && r.WellFormed()
    ensures r.parameters[0] == Column(c, "allow_ooc") && r.parameters[1] == Column(c, "webhook_id")
    ensures r.parameters[2] == Column(c, "id")
  {
    DBQuery(Update("guilds", ["webhook_id", "allow_ooc"], ["id"]), [Flag(c.allowOoc), c.webhookId, c.id])
  }

  /**
   * Because of the swapped order, the update binds the channel's own columns only
   * in the coincidence that the stored webhook id equals the 1/0 flag.
   */
  lemma UpdateBindsOnlyByCoincidence(c: Channel)
    ensures UpdateStatement(c).Binds(col => Column(c, col)) <==> c.webhookId == Flag(c.allowOoc)
  {
    var r := UpdateStatement(c);
    if r.Binds(col => Column(c, col)) {
      assert r.parameters[0] == Column(c, r.sql.Columns()[0]);
    }
  }

  /** setAllowOoc marks the channel UPDATED if it was CURRENT. */
  function SetAllowOoc(o: Tracked<Channel>, allow: bool): (r: Tracked<Channel>)
    ensures r.value == o.value.(allowOoc := allow)
    ensures r.state == SetUpdateState(o.state, Updated)
  {
    SetDirty(o, o.value.(allowOoc := allow))
  }

  /** setWebhookId assigns the id without marking the channel dirty. */
  function SetWebhookId(o: Tracked<Channel>, webhookId: string): (r: Tracked<Channel>)
    ensures r.state == o.state && Column(r.value, "webhook_id") == Text(webhookId)
    ensures Column(r.value, "id") == Column(o.value, "id") && Column(r.value, "allow_ooc") == Column(o.value, "allow_ooc")
  {
    SetQuiet(o, o.value.(webhookId := Text(webhookId)))
  }

  /** setWebhook stores the resolved webhook object; nothing persisted changes. */
  function SetWebhook(o: Tracked<Channel>, webhookObjectId: string): (r: Tracked<Channel>)
    ensures r.state == o.state && r.value.webhook == Some(webhookObjectId)
    ensures forall col :: Column(r.value, col) == Column(o.value, col)
  {
    SetQuiet(o, o.value.(webhook := Some(webhookObjectId)))
  }

  predicate LooseSame(a: Channel, b: Channel) {
    LooseEq(a.id, b.id) && LooseEq(a.webhookId, b.webhookId) && a.allowOoc == b.allowOoc && a.webhook == b.webhook
  }
}

=== FILE: characters.dfy ===
/**
 * A user's role-play character (src/RPCharacterBot/Model/Character.php): the
 * row <-> field mapping, the statement builders and the setters.
 */
module Characters {
  import opened Values
  import opened Db
  import opened Lifecycle

  const ConfigName: string := "characters"
  const Priority: int := 2
  const Table: string := "characters"

  datatype Character = Character(
    id: Scalar,
    userId: Scalar,
    shortname: Scalar,
    name: Scalar,
    avatar: Scalar,
    isDefault: bool)

  /** The columns of the characters table. */
  const Columns: seq<string> :=
    ["id", "user_id", "character_shortname", "character_name", "character_avatar", "default_character"]

  /** The properties of a newly constructed object, before anything assigns them. */
  const Blank: Character := Character(Null, Null, Null, Null, Null, false)

  /** The value a character stores in a column; the flag is stored as 1/0. */
  function Column(c: Character, col: string): Scalar {
    if col == "id" then c.id
    else if col == "user_id" then c.userId
    else if col == "character_shortname" then c.shortname
    else if col == "character_name" then c.name
    else if col == "character_avatar" then c.avatar
    else if col == "default_character" then Flag(c.isDefault)
    else Null
  }

  /** The row a character occupies in its table. */
  function ToRow(c: Character): Row {
    map col | col in Columns :: Column(c, col)
  }

  /** fromDbResult: every column is copied, and the flag is `!= 0`. */
  function FromDbResult(row: Row): (c: Character)
    ensures forall col :: col in Columns && col != "default_character" ==> Column(c, col) == RowGet(row, col)
    ensures c.isDefault <==> !LooseEq(RowGet(row, "default_character"), Num(0))
  {
    Character(
      RowGet(row, "id"),
      RowGet(row, "user_id"),
      RowGet(row, "character_shortname"),
      RowGet(row, "character_name"),
      RowGet(row, "character_avatar"),
      NonZero(RowGet(row, "default_character")))
  }

  /** Reading back the row a character occupies yields the same character. */
  lemma RowRoundTrip(c: Character)
    ensures FromDbResult(ToRow(c)) == c
  {
    var row := ToRow(c);
    assert RowGet(row, "id") == c.id;
    assert RowGet(row, "user_id") == c.userId;
    assert RowGet(row, "character_shortname") == c.shortname;
    assert RowGet(row, "character_name") == c.name;
    assert RowGet(row, "character_avatar") == c.avatar;
    assert RowGet(row, "default_character") == Flag(c.isDefault);
  }

  /** createNewFromQuery assigns nothing. */
  function CreateNewFromQuery(q: Query): (c: Character)
    ensures forall col :: col in Columns && col != "default_character" ==> Column(c, col) == Null
    ensures !c.isDefault
  {
    Blank
  }

  /**
   * A character created from a query does not carry the query's user id, so it
   * would not satisfy the fetch that created it.
   */
  lemma CreatedCharacterLacksQueryUser(q: Query)
    requires QueryGet(q, "user_id") != Null
    ensures Column(CreateNewFromQuery(q), "user_id") != QueryGet(q, "user_id")
  {
  }

  /** The fetch selects by the query's user_id only. */
  function FetchQuery(q: Query): (r: DBQuery)
    ensures r.sql.Select? && r.sql.Table() == Table && r.sql.Columns() == ["user_id"]
    ensures r.WellFormed() && r.Binds(col => QueryGet(q, col))
  {
    DBQuery(Select(Table, ["user_id"]), [QueryGet(q, "user_id")])
  }

  /** The insert writes every column except the auto-increment id. */
  function InsertStatement(c: Character): (r: DBQuery)
    ensures r.sql.Insert? && r.sql.Table() == Table
    ensures "id" !in r.sql.Columns() && forall col :: col in Columns && col != "id" ==> col in r.sql.Columns()
    ensures r.WellFormed() && r.Binds(col => Column(c, col))
  {
    DBQuery(
      Insert(Table, ["user_id", "character_shortname", "character_name", "character_avatar", "default_character"], 5),
      [c.userId, c.shortname, c.name, c.avatar, Flag(c.isDefault)])
  }

  /** setObjectIdAfterInsert: the id becomes the insert id, nothing else changes. */
  function SetObjectIdAfterInsert(c: Character, insertId: Scalar): (r: Character)
    ensures Column(r, "id") == insertId
    ensures forall col :: col != "id" ==> Column(r, col) == Column(c, col)
  {
    c.(id := insertId)
  }

  /** The delete is keyed by id. */
  function DeleteStatement(c: Character): (r: DBQuery)
    ensures r.sql.Delete? && r.sql.Table() == Table && r.sql.Columns() == ["id"]
    ensures r.WellFormed() && r.Binds(col => Column(c, col))
  {
    DBQuery(Delete(Table, ["id"]), [c.id])
  }

  /**
   * The update names four SET columns and `id` in its WHERE clause, but passes
   * only the four SET values: the placeholder for id has no parameter.
   */
  function UpdateStatement(c: Character): (r: DBQuery)
    ensures r.sql.Update? && r.sql.Table() == Table && r.sql.whereColumns == ["id"]
    ensures r.Binds(col => Column(c, col))
    ensures |r.parameters| + 1 == r.sql.Placeholders() && r.sql.Columns()[|r.parameters|] == "id"
    ensures !r.WellFormed()
  {
    DBQuery(
      Update(Table, ["character_shortname", "character_name", "character_avatar", "default_character"], ["id"]),
      [c.shortname, c.name, c.avatar, Flag(c.isDefault)])
  }

  /** The text fields with setters. */
  datatype Field = Shortname | Name | Avatar

  function FieldColumn(f: Field): string {
    match f
    case Shortname => "character_shortname"
    case Name => "character_name"
    case Avatar => "character_avatar"
  }

  /**
   * setCharacterShortname / setCharacterName / setCharacterAvatar: assign the one
   * field and never touch the lifecycle state (the object is not marked dirty).
   */
  function Set(o: Tracked<Character>, f: Field, v: Scalar): (r: Tracked<Character>)
    ensures r.state == o.state
    ensures Column(r.value, FieldColumn(f)) == v
    ensures forall col :: col != FieldColumn(f) ==> Column(r.value, col) == Column(o.value, col)
  {
    match f
    case Shortname => SetQuiet(o, o.value.(shortname := v))
    case Name => SetQuiet(o, o.value.(name := v))
    case Avatar => SetQuiet(o, o.value.(avatar := v))
  }

  /** setDefaultCharacter: assigns the flag, likewise without marking the object dirty. */
  function SetDefault(o: Tracked<Character>, b: bool): (r: Tracked<Character>)
    ensures r.state == o.state && r.value.isDefault == b
    ensures forall col :: col != "default_character" ==> Column(r.value, col) == Column(o.value, col)
  {
    SetQuiet(o, o.value.(isDefault := b))
  }

  /**
   * Because no setter marks the object dirty, an edited character that was
   * CURRENT stays CURRENT and its edit is never written back.
   */
  lemma {:induction false} EditsNeverDirty(o: Tracked<Character>, edits: seq<(Field, Scalar)>)
    ensures ApplyEdits(o, edits).state == o.state
    decreases |edits|
  {
    if |edits| > 0 {
      EditsNeverDirty(Set(o, edits[0].0, edits[0].1), edits[1..]);
    }
  }

  function ApplyEdits(o: Tracked<Character>, edits: seq<(Field, Scalar)>): Tracked<Character>
    decreases |edits|
  {
    if |edits| == 0 then o else ApplyEdits(Set(o, edits[0].0, edits[0].1), edits[1..])
  }

  /** PHP's `==` between two Character objects: every property compared loosely. */
  predicate LooseSame(a: Character, b: Character) {
    LooseEq(a.id, b.id) && LooseEq(a.userId, b.userId) && LooseEq(a.shortname, b.shortname)
    && LooseEq(a.name, b.name) && LooseEq(a.avatar, b.avatar) && a.isDefault == b.isDefault
  }
}

=== FILE: command_handler.dfy ===
/**
 * The pure parts of CommandHandler (src/RPCharacterBot/Common/CommandHandler.php):
 * the readable permission list, the permission check, the derivation of command
 * names from class names, character look-up by shortcut, and the splitting of
 * a message into argument words.
 */
module CommandHandlers {
  import opened Wrappers
  import opened PhpText
  import opened Values
  import Characters

  /** One permission name made readable: split on '_', each word capitalised, joined by spaces, quoted. */
  function ReadablePermission(name: string): (r: string)
    ensures |r| >= 2 && r[0] == '"' && r[|r| - 1] == '"'
    ensures r[1..|r| - 1] == Join(CapitalisedWords(Split(name, '_')), " ")
  {
    "\"" + Join(CapitalisedWords(Split(name, '_')), " ") + "\""
  }

  /** ucfirst(strtolower(w)) on each word. */
  function CapitalisedWords(words: seq<string>): (r: seq<string>)
    ensures |r| == |words|
    ensures forall i :: 0 <= i < |words| ==> r[i] == UcFirst(Lower(words[i]))
  {
    seq(|words|, i requires 0 <= i < |words| => UcFirst(Lower(words[i])))
  }

  /** "A", "A and B", or "A, B, ... and Z". */
  function JoinReadable(items: seq<string>): string
    requires |items| > 0
  {
    if |items| == 1 then items[0]
    else Join(items[..|items| - 1], ", ") + " and " + items[|items| - 1]
  }

  /**
   * createPermissionListString: the readable names, the first one alone, each
   * following one behind ", " except the last, which follows " and ". The
   * callers only pass non-empty lists (indexing the first of an empty list
   * would fail).
   */
  method PermissionListString(permissionList: seq<string>) returns (res: string)
    requires |permissionList| > 0
    ensures res == JoinReadable(Readables(permissionList))
  {
    res := ListItems(Readables(permissionList));
  }

  /** The loop of createPermissionListString over the already readable names. */
  method ListItems(items: seq<string>) returns (res: string)
    requires |items| > 0
    ensures res == JoinReadable(items)
  {
    var n := |items|;
    res := items[0];
    assert items[..1] == [items[0]];
    var i := 1;
    while i < n
      invariant 1 <= i <= n
      invariant i < n ==> res == Join(items[..i], ", ")
      invariant i == n ==> res == JoinReadable(items)
    {
      if i < n - 1 {
        res := res + ", ";
        assert items[..i + 1] == items[..i] + [items[i]];
        JoinSnoc(items[..i], items[i], ", ");
      } else {
        res := res + " and ";
      }
      res := res + items[i];
      i := i + 1;
    }
  }

  function Readables(names: seq<string>): (r: seq<string>)
    ensures |r| == |names|
    ensures forall i :: 0 <= i < |names| ==> r[i] == ReadablePermission(names[i])
  {
    seq(|names|, i requires 0 <= i < |names| => ReadablePermission(names[i]))
  }

  /** in_array without the strict flag, on strings. */
  predicate InList(name: string, list: seq<string>) {
    exists j :: 0 <= j < |list| && LooseEq(Text(name), Text(list[j]))
  }

  /**
   * The permission check: walks the library's permission table and fails at
   * the first entry that is required and not granted. Required names the table
   * does not have impose nothing.
   */
  method PermissionsMatch(table: seq<(string, int)>, required: seq<string>, has: int -> bool) returns (matched: bool)
    ensures matched <==> forall k :: 0 <= k < |table| && InList(table[k].0, required) ==> has(table[k].1)
  {
    matched := true;
    var k := 0;
    while k < |table|
      invariant 0 <= k <= |table|
      invariant matched
      invariant forall j :: 0 <= j < k && InList(table[j].0, required) ==> has(table[j].1)
    {
      if InList(table[k].0, required) {
        if !has(table[k].1) {
          matched := false;
          return;
        }
      }
      k := k + 1;
    }
  }

  /** A required name absent from the table never makes the check fail. */
  lemma UnknownPermissionIgnored(table: seq<(string, int)>, required: seq<string>, extra: string)
    requires forall k :: 0 <= k < |table| ==> !LooseEq(Text(table[k].0), Text(extra))
    ensures forall k :: 0 <= k < |table| ==> (InList(table[k].0, required + [extra]) <==> InList(table[k].0, required))
  {
    forall k | 0 <= k < |table|
      ensures InList(table[k].0, required + [extra]) <==> InList(table[k].0, required)
    {
      var list := required + [extra];
      if InList(table[k].0, list) {
        var j :| 0 <= j < |list| && LooseEq(Text(table[k].0), Text(list[j]));
        assert j < |required| && list[j] == required[j];
      }
      if InList(table[k].0, required) {
        var j :| 0 <= j < |required| && LooseEq(Text(table[k].0), Text(required[j]));
        assert list[j] == required[j];
      }
    }
  }

  const CommandSuffix: string := "Command"

  /** The class name after the last namespace separator. */
  function ShortClassName(fqcn: string): string {
    var parts := Split(fqcn, '\\');
    parts[|parts| - 1]
  }

  /** A class named XxxCommand registers as the lower-cased "xxx"; other classes register nothing. */
  function CommandNameOf(fqcn: string): (r: Option<string>)
    ensures r.Some? <==> |ShortClassName(fqcn)| >= 7 && ShortClassName(fqcn)[|ShortClassName(fqcn)| - 7..] == CommandSuffix
    ensures r.Some? ==> r.value == Lower(ShortClassName(fqcn)[..|ShortClassName(fqcn)| - 7])
    ensures r.Some? ==> ShortClassName(fqcn) == ShortClassName(fqcn)[..|ShortClassName(fqcn)| - 7] + CommandSuffix
  {
    var className := ShortClassName(fqcn);
    if |className| >= 7 && className[|className| - 7..] == CommandSuffix then
      assert className == className[..|className| - 7] + className[|className| - 7..];
      Some(Lower(className[..|className| - 7]))
    else None
  }

  /** The command table built from the discovered classes; a later class wins a name clash. */
  function Registered(classes: seq<string>): map<string, string>
    decreases |classes|
  {
    if |classes| == 0 then map[]
    else
      var last := classes[|classes| - 1];
      var m := Registered(classes[..|classes| - 1]);
      match CommandNameOf(last)
      case Some(name) => m[name := last]
      case None => m
  }

  /** A name is registered exactly when some discovered class derives it. */
  lemma {:induction false} RegisteredNames(classes: seq<string>, name: string)
    ensures name in Registered(classes) <==> exists i :: 0 <= i < |classes| && CommandNameOf(classes[i]) == Some(name)
    decreases |classes|
  {
    if |classes| > 0 {
      var init := classes[..|classes| - 1];
      RegisteredNames(init, name);
      if exists i :: 0 <= i < |init| && CommandNameOf(init[i]) == Some(name) {
        var i :| 0 <= i < |init| && CommandNameOf(init[i]) == Some(name);
        assert classes[i] == init[i];
      }
      if exists i :: 0 <= i < |classes| && CommandNameOf(classes[i]) == Some(name) {
        var i :| 0 <= i < |classes| && CommandNameOf(classes[i]) == Some(name);
        if i < |classes| - 1 {
          assert init[i] == classes[i];
        }
      }
    }
  }

  /** The class registered under a name is one of the discovered classes and derives that name. */
  lemma {:induction false} RegisteredClass(classes: seq<string>, name: string)
    requires name in Registered(classes)
    ensures Registered(classes)[name] in classes
    ensures CommandNameOf(Registered(classes)[name]) == Some(name)
    decreases |classes|
  {
    var init := classes[..|classes| - 1];
    var last := classes[|classes| - 1];
    if CommandNameOf(last) != Some(name) {
      RegisteredClass(init, name);
    }
  }

  /** searchCommand: the class registered under the lower-cased command, if any. */
  function SearchCommand(classes: seq<string>, command: string): (r: Option<string>)
    ensures r.Some? ==> CommandNameOf(r.value) == Some(Lower(command)) && r.value in classes
    ensures r.None? <==> forall i :: 0 <= i < |classes| ==> CommandNameOf(classes[i]) != Some(Lower(command))
  {
    var key := Lower(command);
    RegisteredNames(classes, key);
    if key in Registered(classes) then
      RegisteredClass(classes, key);
      Some(Registered(classes)[key])
    else None
  }

  /** Command look-up ignores the case of what was typed. */
  lemma SearchIgnoresCase(classes: seq<string>, command: string)
    ensures SearchCommand(classes, command) == SearchCommand(classes, Lower(command))
  {
    LowerIdempotent(command);
  }

  /**
   * getCharacterByShortcut: the position of the first character whose shortname
   * is `==` to the shortcut, or none.
   */
  function GetCharacterByShortcut(characters: seq<Characters.Character>, shortcut: string): (r: Option<nat>)
    ensures r.Some? ==> r.value < |characters| && LooseEq(characters[r.value].shortname, Text(shortcut))
    ensures r.Some? ==> forall j :: 0 <= j < r.value ==> !LooseEq(characters[j].shortname, Text(shortcut))
    ensures r.None? <==> forall j :: 0 <= j < |characters| ==> !LooseEq(characters[j].shortname, Text(shortcut))
    decreases |characters|
  {
    if |characters| == 0 then None
    else if LooseEq(characters[0].shortname, Text(shortcut)) then Some(0)
    else
      match GetCharacterByShortcut(characters[1..], shortcut)
      case Some(i) => Some(i + 1)
      case None => None
  }

  /** Because the comparison is PHP's `==`, a digit shortcut finds a character whose shortname has leading zeros. */
  lemma ShortcutMatchIsLoose()
    ensures GetCharacterByShortcut([Characters.Blank.(shortname := Text("07"))], "7") == Some(0)
  {
    assert DigitsValue("07") == DigitsValue("0") * 10 + DigitValue('7');
    assert DigitsValue("7") == DigitValue('7');
  }

  /**
   * getMessageWords: the content split on single spaces without its first
   * piece (the command); nothing when there is no space at all.
   */
  function GetMessageWords(content: string): (words: seq<string>)
    ensures |words| > 0 <==> ' ' in content
    ensures forall i :: 0 <= i < |words| ==> ' ' !in words[i]
  {
    var parts := Split(content, ' ');
    SplitCount(content, ' ');
    if |parts| <= 1 then [] else parts[1..]
  }

  /** The command, a space, and the words joined by spaces give back the content. */
  lemma WordsRejoin(content: string)
    requires ' ' in content
    ensures content == Split(content, ' ')[0] + " " + Join(GetMessageWords(content), " ")
  {
    var parts := Split(content, ' ');
    SplitThenJoin(content, ' ');
    SplitCount(content, ' ');
    assert parts == [parts[0]] + parts[1..];
    JoinCons(parts[0], parts[1..], " ");
  }
}

=== FILE: db_query.dfy ===
/**
 * DBQuery: an immutable pair of statement and parameter list
 * (src/RPCharacterBot/Common/DBQuery.php).
 *
 * The SQL text is represented by its structure -- table, column lists and the
 * number of `?` placeholders -- so that a statement whose placeholders and
 * parameters disagree, or which names the wrong table, is visible as data.
 */
module Db {
  import opened Values

  datatype Statement =
    | Select(table: string, whereColumns: seq<string>)
    | Insert(table: string, columns: seq<string>, placeholders: nat)
    | Update(table: string, setColumns: seq<string>, whereColumns: seq<string>)
    | Delete(table: string, whereColumns: seq<string>)
  {
    /** The table the statement reads or writes. */
    function Table(): string {
      match this
      case Select(t, _) => t
      case Insert(t, _, _) => t
      case Update(t, _, _) => t
      case Delete(t, _) => t
    }

    /** The number of `?` placeholders in the statement text. */
    function Placeholders(): nat {
      match this
      case Select(_, w) => |w|
      case Insert(_, _, p) => p
      case Update(_, s, w) => |s| + |w|
      case Delete(_, w) => |w|
    }

    /**
     * The column each placeholder stands for, in placeholder order: the WHERE
     * columns of a SELECT or DELETE, the column list of an INSERT, and the SET
     * columns followed by the WHERE columns of an UPDATE.
     */
    function Columns(): seq<string> {
      match this
      case Select(_, w) => w
      case Insert(_, c, _) => c
      case Update(_, s, w) => s + w
      case Delete(_, w) => w
    }
  }

  /** Immutable: a datatype value has no setters, so both fields stay as constructed. */
  datatype DBQuery = DBQuery(sql: Statement, parameters: seq<Scalar>) {

    /**
     * The statement can run: as many placeholders as named columns, and one
     * parameter per placeholder.
     */
    predicate WellFormed() {
      sql.Placeholders() == |sql.Columns()| == |parameters|
    }

    /**
     * Every parameter that has a column position holds the value `view` gives for
     * that column: the parameters are in the order the columns are named.
     */
    predicate Binds(view: string -> Scalar) {
      forall i :: 0 <= i < |parameters| && i < |sql.Columns()| ==> parameters[i] == view(sql.Columns()[i])
    }
  }

  /** A DBQuery built from a statement alone: the parameter list defaults to empty. */
  function NewQuery(sql: Statement): (q: DBQuery)
    ensures q.sql == sql && q.parameters == []
    ensures q.WellFormed() <==> sql.Placeholders() == 0 && |sql.Columns()| == 0
    ensures forall view: string -> Scalar :: q.Binds(view)
  {
    DBQuery(sql, [])
  }
}

=== FILE: dm_command.dfy ===
/**
 * DMCommand::sanitiseName (src/RPCharacterBot/Commands/DMCommand.php): cleans a
 * character name and checks it against Discord's naming rules.
 */
module NameRules {
  import opened Wrappers
  import opened PhpText

  /**
   * `\s` under the `u` flag (Unicode separators, horizontal and vertical
   * space): the ASCII white space characters, the Unicode space separators,
   * line and paragraph separators, NEL and the Mongolian vowel separator.
   */
  predicate IsWhitespace(c: char) {
    c == ' ' || c == '\t' || c == '\n' || c == '\U{B}' || c == '\U{C}' || c == '\r'
    || c == '\U{85}' || c == '\U{A0}' || c == '\U{1680}' || c == '\U{180E}' || ('\U{2000}' <= c <= '\U{200A}')
    || c == '\U{2028}' || c == '\U{2029}' || c == '\U{202F}' || c == '\U{205F}' || c == '\U{3000}'
  }

  /** `[^\S ]`: white space other than the plain space. */
  predicate IsDroppedSpace(c: char) { IsWhitespace(c) && c != ' ' }

  /** preg_replace of `[^\S ]` by nothing. */
  function DropSpaces(s: string): (r: string)
    ensures |r| <= |s|
    ensures forall i :: 0 <= i < |r| ==> !IsDroppedSpace(r[i]) && r[i] in s
    decreases |s|
  {
    if |s| == 0 then [] else (if IsDroppedSpace(s[0]) then [] else [s[0]]) + DropSpaces(s[1..])
  }

  lemma {:induction false} DropSpacesKeepsClean(s: string)
    requires forall i :: 0 <= i < |s| ==> !IsDroppedSpace(s[i])
    ensures DropSpaces(s) == s
    decreases |s|
  {
    if |s| > 0 {
      DropSpacesKeepsClean(s[1..]);
      assert [s[0]] + s[1..] == s;
    }
  }

  /** trim() leaves a contiguous piece of its input. */
  lemma TrimIsSlice(s: string)
    ensures exists i, j :: 0 <= i <= j <= |s| && Trim(s) == s[i..j]
  {
    var right := TrimRight(s);
    var r := Trim(s);
    assert right == s[..|right|];
    assert r == right[|right| - |r|..];
    assert r == s[|right| - |r|..|right|];
  }

  /** The name as written back: non-space white space removed, then trimmed. */
  function Clean(name: string): (r: string)
    ensures forall i :: 0 <= i < |r| ==> !IsDroppedSpace(r[i])
    ensures |r| > 0 ==> r[0] != ' ' && r[|r| - 1] != ' '
  {
    var d := DropSpaces(name);
    TrimIsSlice(d);
    Trim(d)
  }

  /** Cleaning an already cleaned name changes nothing. */
  lemma CleanIdempotent(name: string)
    ensures Clean(Clean(name)) == Clean(name)
  {
    var c := Clean(name);
    DropSpacesKeepsClean(c);
    TrimIdempotent(DropSpaces(name));
  }

  /** The names reserved by Discord, compared without regard to ASCII case. */
  predicate IsReserved(name: string) {
    var n := Lower(name);
    n == "clyde" || n == "everyone" || n == "discordtag" || n == "here"
  }

  /** The message returned for every rejected name. */
  const Rejection: string :=
    "The character name violates the Discord naming guidelines. Character names may be:" + EOL
    + "-Names must be at least two characters long, they mustn't be longer than 32." + EOL
    + "-Names cannot contain @, #, : or \\`\\`\\`" + EOL
    + "-The following nasmes are not allowed: discordtag, everyone, here, clyde."

  /** The rule violations the pattern and the length check detect. */
  predicate Violates(name: string) {
    || |name| > 32 || |name| < 2
    || IsReserved(name)
    || '@' in name || '#' in name || ':' in name
    || Contains(name, "```")
    || Contains(name, "   ")
  }

  /**
   * sanitiseName: the cleaned name, and the rejection message exactly when the
   * cleaned name breaks a rule.
   */
  function SanitiseName(fullName: string): (r: (string, Option<string>))
    ensures r.0 == Clean(fullName)
    ensures r.1.None? <==> !Violates(r.0)
    ensures r.1.Some? ==> r.1.value == Rejection
    ensures r.1.None? ==> 2 <= |r.0| <= 32 && '@' !in r.0 && '#' !in r.0 && ':' !in r.0
  {
    var name := Clean(fullName);
    (name, if Violates(name) then Some(Rejection) else None)
  }

  /** An accepted name is accepted again, unchanged, when sanitised a second time. */
  lemma AcceptedIsStable(fullName: string)
    requires SanitiseName(fullName).1.None?
    ensures SanitiseName(SanitiseName(fullName).0) == (SanitiseName(fullName).0, None)
  {
    CleanIdempotent(fullName);
  }
}

=== FILE: dm_commands.dfy ===
/**
 * The direct-message commands that manage a user's characters
 * (src/RPCharacterBot/Commands/DM/): list, new, n(ick), delete, ooc and
 * default. Each is a function of the message text and the objects the command
 * reads, returning what it replies and the objects it changes.
 */
module DmCommands {
  import opened Wrappers
  import opened PhpText
  import opened Values
  import opened Lifecycle
  import Characters
  import Users
  import NameRules
  import MessageInfos
  import opened CommandHandlers

  /** The fields of the user's characters. */
  function Plain(characters: seq<Tracked<Characters.Character>>): (r: seq<Characters.Character>)
    ensures |r| == |characters|
    ensures forall i :: 0 <= i < |characters| ==> r[i] == characters[i].value
  {
    seq(|characters|, i requires 0 <= i < |characters| => characters[i].value)
  }

  /** A scalar as PHP turns it into text. */
  function AsText(v: Scalar): string {
    match v
    case Null => ""
    case Text(s) => s
    case Num(n) => if n >= 0 then NatToString(n) else "-" + NatToString(-n)
  }

  // ---------------------------------------------------------------------------
  // list

  /** "You have no characters.", "You have one character:" or "You have n characters:". */
  function ListHeader(n: nat): string {
    "You have " + (if n == 0 then "no characters." else if n == 1 then "one character:" else NatToString(n) + " characters:")
  }

  const TableHead: string := "```Shortcut         - Name" + EOL + "========================================"

  /** One table line: the shortname padded to 16, " - ", the name. */
  function ListLine(c: Characters.Character): string {
    EOL + StrPad(AsText(c.shortname), 16) + " - " + AsText(c.name)
  }

  /** The table lines of the characters, in list order. */
  function Rows(characters: seq<Characters.Character>): (r: seq<string>)
    ensures |r| == |characters|
    ensures forall i :: 0 <= i < |characters| ==> r[i] == ListLine(characters[i])
  {
    seq(|characters|, i requires 0 <= i < |characters| => ListLine(characters[i]))
  }

  /** The lines one after the other. */
  function Concat(parts: seq<string>): string
    decreases |parts|
  {
    if |parts| == 0 then "" else Concat(parts[..|parts| - 1]) + parts[|parts| - 1]
  }

  lemma {:induction false} ConcatAppend(a: seq<string>, b: seq<string>)
    ensures Concat(a + b) == Concat(a) + Concat(b)
    decreases |b|
  {
    if |b| > 0 {
      assert (a + b)[..|a + b| - 1] == a + b[..|b| - 1];
      ConcatAppend(a, b[..|b| - 1]);
    } else {
      assert a + b == a;
    }
  }

  /** One more part appends that part to the text so far. */
  lemma ConcatStep(parts: seq<string>, i: nat)
    requires i < |parts|
    ensures Concat(parts[..i + 1]) == Concat(parts[..i]) + parts[i]
  {
    assert parts[..i + 1][..i] == parts[..i];
  }

  /** The table of two lists one after the other is the table of the first followed by that of the second. */
  lemma TableAppend(a: seq<Characters.Character>, b: seq<Characters.Character>)
    ensures Concat(Rows(a + b)) == Concat(Rows(a)) + Concat(Rows(b))
  {
    var whole, left, right := Rows(a + b), Rows(a), Rows(b);
    assert |whole| == |left + right|;
    forall i | 0 <= i < |whole|
      ensures whole[i] == (left + right)[i]
    {
      if i < |a| {
        assert (a + b)[i] == a[i];
      } else {
        assert (a + b)[i] == b[i - |a|];
      }
    }
    assert whole == left + right;
    ConcatAppend(left, right);
  }

  /** A line starts with a line break and the shortname, padded to at least 16 bytes before the " - ". */
  lemma LineShape(c: Characters.Character)
    ensures var pad := StrPad(AsText(c.shortname), 16);
      ListLine(c) == EOL + pad + " - " + AsText(c.name)
      && pad[..|AsText(c.shortname)|] == AsText(c.shortname)
      && ByteLength(pad) >= 16
  {
    StrPadShape(AsText(c.shortname), 16);
  }

  /** The loop of ListCommand: one line per character appended to the text so far. */
  method AppendRows(head: string, characters: seq<Characters.Character>) returns (text: string)
    ensures text == head + Concat(Rows(characters))
  {
    var lines := "";
    ghost var rows := Rows(characters);
    var i := 0;
    while i < |characters|
      invariant 0 <= i <= |characters|
      invariant lines == Concat(rows[..i])
    {
      var line := ListLine(characters[i]);
      assert line == rows[i];
      ConcatStep(rows, i);
      lines := lines + line;
      i := i + 1;
    }
    assert rows[..i] == rows;
    text := head + lines;
  }

  /** ListCommand: the header, and for a non-empty list the table head, the lines and the closing fence. */
  method ListCommand(characters: seq<Characters.Character>) returns (text: string)
    ensures |characters| == 0 ==> text == "You have no characters."
    ensures |characters| > 0 ==> text == ListHeader(|characters|) + EOL + TableHead + Concat(Rows(characters)) + "```"
  {
    text := "You have ";
    var charCount := |characters|;
    if charCount == 0 {
      text := text + "no characters.";
    } else if charCount == 1 {
      text := text + "one character:";
    } else {
      text := text + NatToString(charCount) + " characters:";
    }
    assert text == ListHeader(charCount);
    if charCount > 0 {
      text := text + EOL + TableHead;
      text := AppendRows(text, characters);
      text := text + "```";
    }
  }

  // ---------------------------------------------------------------------------
  // new

  predicate IsShortcutChar(c: char) {
    'a' <= c <= 'z' || 'A' <= c <= 'Z' || '0' <= c <= '9' || c == '_' || c == '-'
  }

  predicate ShortcutBody(s: string) {
    1 <= |s| <= 16 && forall i :: 0 <= i < |s| ==> IsShortcutChar(s[i])
  }

  /** The shortcut pattern: 1 to 16 letters, digits, `_` or `-`; its end anchor also accepts one final line feed. */
  predicate ValidShortcut(s: string) {
    ShortcutBody(s) || (|s| > 0 && s[|s| - 1] == '\n' && ShortcutBody(s[..|s| - 1]))
  }

  datatype NewOutcome =
    | NewUsage
    | BadShortcut
    | ShortcutTaken(shortcut: string)
    | NewNameRejected(message: string)
    /** The call to Character::createNewCharacter, a method no class defines: PHP throws an Error. */
    | UndefinedMethod
    | Create(shortcut: string, name: string)

  /**
   * NewCommand as written: two words needed; the lower-cased shortcut must
   * match the pattern and be unused; the remaining words, joined by spaces and
   * sanitised, must pass the name rules. When every check passes the command
   * calls a static method that does not exist, so it fails before replying.
   */
  function NewCommand(content: string, characters: seq<Characters.Character>): (r: NewOutcome)
    ensures !r.Create?
    ensures |GetMessageWords(content)| < 2 <==> r == NewUsage
    ensures r == BadShortcut ==> !ValidShortcut(Lower(GetMessageWords(content)[0]))
    ensures r.ShortcutTaken? ==> r.shortcut == Lower(GetMessageWords(content)[0])
    ensures r.ShortcutTaken? ==> GetCharacterByShortcut(characters, r.shortcut).Some?
    ensures r.NewNameRejected? ==> r.message == NameRules.Rejection
    ensures var words := GetMessageWords(content); r == UndefinedMethod ==>
      |words| >= 2 && ValidShortcut(Lower(words[0])) && GetCharacterByShortcut(characters, Lower(words[0])).None?
      && !NameRules.Violates(NameRules.Clean(Join(words[1..], " ")))
    ensures var words := GetMessageWords(content); |words| >= 2 ==>
      (r == BadShortcut <==> !ValidShortcut(Lower(words[0])))
    ensures var words := GetMessageWords(content); |words| >= 2 && ValidShortcut(Lower(words[0])) ==>
      (r.ShortcutTaken? <==> GetCharacterByShortcut(characters, Lower(words[0])).Some?)
    ensures var words := GetMessageWords(content);
      |words| >= 2 && ValidShortcut(Lower(words[0])) && GetCharacterByShortcut(characters, Lower(words[0])).None? ==>
        var name := Join(words[1..], " ");
        (r.NewNameRejected? <==> NameRules.Violates(NameRules.Clean(name)))
        && (r.NewNameRejected? ==> Some(r.message) == NameRules.SanitiseName(name).1)
        && (!NameRules.Violates(NameRules.Clean(name)) ==> r == UndefinedMethod)
  {
    var words := GetMessageWords(content);
    if |words| < 2 then NewUsage
    else
      var shortcut := Lower(words[0]);
      if !ValidShortcut(shortcut) then BadShortcut
      else if GetCharacterByShortcut(characters, shortcut).Some? then ShortcutTaken(shortcut)
      else
        var (_, error) := NameRules.SanitiseName(Join(words[1..], " "));
        if error.Some? then NewNameRejected(error.value) else UndefinedMethod
  }

  /** The words of the sample request. */
  lemma SampleWords()
    ensures GetMessageWords("!new bob Bob") == ["bob", "Bob"]
  {
    assert "!new bob Bob" == Join(["!new", "bob", "Bob"], [' ']);
    JoinThenSplit(["!new", "bob", "Bob"], ' ');
  }

  /** The sample shortcut is lower case already and matches the pattern. */
  lemma SampleShortcut()
    ensures Lower("bob") == "bob" && ValidShortcut("bob")
  {
    forall i | 0 <= i < |"bob"|
      ensures IsShortcutChar("bob"[i]) && LowerChar("bob"[i]) == "bob"[i]
    {
      assert "bob"[i] == 'b' || "bob"[i] == 'o';
    }
  }

  /** The sample name is clean already. */
  lemma SampleNameClean()
    ensures NameRules.Clean("Bob") == "Bob"
  {
    forall i | 0 <= i < |"Bob"|
      ensures !NameRules.IsDroppedSpace("Bob"[i])
    {
      assert "Bob"[i] == 'B' || "Bob"[i] == 'o' || "Bob"[i] == 'b';
    }
    NameRules.DropSpacesKeepsClean("Bob");
    TrimKeepsTrimmed("Bob");
  }

  /** The sample name breaks no rule. */
  lemma SampleNameAllowed()
    ensures !NameRules.Violates("Bob")
  {
    assert Lower("Bob") == "bob";
    assert !OccursAt("Bob", "```", 0) by {
      assert "Bob"[0..3] == "Bob";
      assert "```"[0] == '`' && "Bob"[0] == 'B';
    }
    assert !OccursAt("Bob", "   ", 0) by { assert "Bob"[0] != ' '; }
  }

  /**
   * The evidently intended command: the same checks, and when they all pass a
   * request to create the character with the lower-cased shortcut and the
   * cleaned name. Every other reply is the one the command gives as written.
   */
  function NewCommandCorrected(content: string, characters: seq<Characters.Character>): (r: NewOutcome)
    ensures r != UndefinedMethod
    ensures !r.Create? ==> r == NewCommand(content, characters)
    ensures var words := GetMessageWords(content);
      r.Create? <==> |words| >= 2 && ValidShortcut(Lower(words[0]))
                     && GetCharacterByShortcut(characters, Lower(words[0])).None?
                     && !NameRules.Violates(NameRules.Clean(Join(words[1..], " ")))
    ensures var words := GetMessageWords(content); r.Create? ==>
      |words| >= 2 && r.shortcut == Lower(words[0]) && r.name == NameRules.Clean(Join(words[1..], " "))
  {
    var r := NewCommand(content, characters);
    if r == UndefinedMethod then
      var words := GetMessageWords(content);
      Create(Lower(words[0]), NameRules.Clean(Join(words[1..], " ")))
    else r
  }

  /**
   * A well-formed request for a free shortcut and an acceptable name ends in
   * the undefined method as written; the corrected command creates the character.
   */
  lemma NewCommandFails()
    ensures NewCommand("!new bob Bob", []) == UndefinedMethod
    ensures NewCommandCorrected("!new bob Bob", []) == Create("bob", "Bob")
  {
    SampleWords();
    SampleShortcut();
    SampleNameClean();
    SampleNameAllowed();
    var words := GetMessageWords("!new bob Bob");
    assert Join(words[1..], " ") == "Bob" by {
      assert words[1..] == ["Bob"];
    }
  }

  /** Once the created character is in the list, the same command is refused for its shortcut. */
  lemma NewIsOnce(content: string, characters: seq<Characters.Character>)
    requires NewCommandCorrected(content, characters).Create?
    ensures var r := NewCommandCorrected(content, characters);
      NewCommandCorrected(content, characters + [Characters.Blank.(shortname := Text(r.shortcut), name := Text(r.name))])
        == ShortcutTaken(r.shortcut)
  {
    var r := NewCommandCorrected(content, characters);
    var more := characters + [Characters.Blank.(shortname := Text(r.shortcut), name := Text(r.name))];
    assert more[|characters|].shortname == Text(r.shortcut);
  }

  // ---------------------------------------------------------------------------
  // n(ick)

  datatype NickOutcome = NickUsage | NickUnknown(shortcut: string) | NickRejected(message: string) | Renamed(index: nat, name: string)

  /** The list with the i-th character's name replaced through its quiet setter. */
  function Rename(characters: seq<Tracked<Characters.Character>>, i: nat, name: string)
    : (r: seq<Tracked<Characters.Character>>)
    requires i < |characters|
    ensures |r| == |characters|
    ensures r[i].value == characters[i].value.(name := Text(name)) && r[i].state == characters[i].state
    ensures forall j :: 0 <= j < |characters| && j != i ==> r[j] == characters[j]
  {
    characters[i := Characters.Set(characters[i], Characters.Name, Text(name))]
  }

  /**
   * NickCommand: renames the character with the shortcut to the sanitised
   * remaining words. The name setter does not mark the character dirty.
   */
  function NickCommand(content: string, characters: seq<Tracked<Characters.Character>>)
    : (r: (NickOutcome, seq<Tracked<Characters.Character>>))
    ensures |GetMessageWords(content)| < 2 <==> r.0 == NickUsage
    ensures !r.0.Renamed? ==> r.1 == characters
    ensures r.0.NickUnknown? ==> GetCharacterByShortcut(Plain(characters), Lower(GetMessageWords(content)[0])).None?
    ensures r.0.NickRejected? ==> r.0.message == NameRules.Rejection
    ensures r.0.Renamed? ==> r.0.index < |characters| && |r.1| == |characters|
    ensures r.0.Renamed? ==> (r.1[r.0.index].value == characters[r.0.index].value.(name := Text(r.0.name))
      && r.1[r.0.index].state == characters[r.0.index].state)
    ensures r.0.Renamed? ==> forall j :: 0 <= j < |characters| && j != r.0.index ==> r.1[j] == characters[j]
    ensures r.0.Renamed? ==> r.0.name == NameRules.Clean(Join(GetMessageWords(content)[1..], " "))
    ensures r.0.Renamed? ==> !NameRules.Violates(r.0.name)
    ensures var words := GetMessageWords(content); |words| >= 2 ==>
      var found := GetCharacterByShortcut(Plain(characters), Lower(words[0]));
      var name := Join(words[1..], " ");
      (r.0.NickUnknown? <==> found.None?)
      && (r.0.NickUnknown? ==> r.0.shortcut == Lower(words[0]))
      && (found.Some? ==> (r.0.NickRejected? <==> NameRules.Violates(NameRules.Clean(name))))
      && (r.0.NickRejected? ==> Some(r.0.message) == NameRules.SanitiseName(name).1)
      && (r.0.Renamed? ==> found == Some(r.0.index))
  {
    var words := GetMessageWords(content);
    if |words| < 2 then (NickUsage, characters)
    else
      var shortcut := Lower(words[0]);
      match GetCharacterByShortcut(Plain(characters), shortcut)
      case None => (NickUnknown(shortcut), characters)
      case Some(i) =>
        var (fullName, error) := NameRules.SanitiseName(Join(words[1..], " "));
        if error.Some? then (NickRejected(error.value), characters)
        else (Renamed(i, fullName), Rename(characters, i, fullName))
  }

  // ---------------------------------------------------------------------------
  // delete

  datatype DeleteOutcome = DeleteUsage | DeleteUnknown(shortcut: string) | DeletedReply(index: nat, name: string)

  /** DeleteCommand: marks the character with the shortcut DELETED and names it in the reply. */
  function DeleteCommand(content: string, characters: seq<Tracked<Characters.Character>>)
    : (r: (DeleteOutcome, seq<Tracked<Characters.Character>>))
    ensures |GetMessageWords(content)| == 0 <==> r.0 == DeleteUsage
    ensures !r.0.DeletedReply? ==> r.1 == characters
    ensures r.0.DeleteUnknown? ==> GetCharacterByShortcut(Plain(characters), Lower(GetMessageWords(content)[0])).None?
    ensures r.0.DeletedReply? ==> r.0.index < |characters| && r.1 == characters[r.0.index := MarkDeleted(characters[r.0.index])]
    ensures r.0.DeletedReply? ==> r.0.name == AsText(characters[r.0.index].value.name)
    ensures r.0.DeletedReply? ==> LooseEq(characters[r.0.index].value.shortname, Text(Lower(GetMessageWords(content)[0])))
  {
    var words := GetMessageWords(content);
    if |words| < 1 then (DeleteUsage, characters)
    else
      var shortcut := Lower(words[0]);
      match GetCharacterByShortcut(Plain(characters), shortcut)
      case None => (DeleteUnknown(shortcut), characters)
      case Some(i) => (DeletedReply(i, AsText(characters[i].value.name)), characters[i := MarkDeleted(characters[i])])
  }

  // ---------------------------------------------------------------------------
  // ooc

  datatype OocOutcome = OocUsage | SpacesRejected | TagTooLong | TagSet(tag: string)

  /** OocCommand: one or two words; the first, at most 5 characters long, becomes the user's OOC prefix. */
  function OocCommand(content: string, user: Tracked<Users.User>): (r: (OocOutcome, Tracked<Users.User>))
    ensures |GetMessageWords(content)| == 0 <==> r.0 == OocUsage
    ensures |GetMessageWords(content)| > 2 <==> r.0 == SpacesRejected
    ensures !r.0.TagSet? ==> r.1 == user
    ensures r.0.TagSet? <==> 0 < |GetMessageWords(content)| <= 2 && |GetMessageWords(content)[0]| <= 5
    ensures r.0.TagSet? ==> r.0.tag == GetMessageWords(content)[0] && r.1 == Users.SetOocPrefix(user, Text(r.0.tag))
  {
    var words := GetMessageWords(content);
    if |words| < 1 then (OocUsage, user)
    else if |words| > 2 then (SpacesRejected, user)
    else
      var tag := words[0];
      if |tag| > 5 then (TagTooLong, user)
      else (TagSet(tag), Users.SetOocPrefix(user, Text(tag)))
  }

  // ---------------------------------------------------------------------------
  // default

  datatype DefaultOutcome = DefaultUsage | DefaultUnknown(shortcut: string) | AlreadyDefault(name: string) | NowDefault(name: string)

  /** The character a default command names, or the reply that refuses it. */
  datatype Target = Found(index: nat) | Refused(reply: DefaultOutcome)

  /** The shared argument checks of DefaultCommand: the index of the named character. */
  function DefaultTarget(content: string, characters: seq<Tracked<Characters.Character>>): (r: Target)
    ensures r.Found? ==> r.index < |characters| && |GetMessageWords(content)| > 0
    ensures r.Found? ==> LooseEq(characters[r.index].value.shortname, Text(Lower(GetMessageWords(content)[0])))
    ensures r.Refused? ==> r.reply == DefaultUsage || r.reply.DefaultUnknown?
    ensures r == Refused(DefaultUsage) <==> |GetMessageWords(content)| == 0
  {
    var words := GetMessageWords(content);
    if |words| < 1 then Refused(DefaultUsage)
    else
      var shortcut := Lower(words[0]);
      match GetCharacterByShortcut(Plain(characters), shortcut)
      case None => Refused(DefaultUnknown(shortcut))
      case Some(i) => Found(i)
  }

  /**
   * DefaultCommand as written: the comparison after the search loop uses the
   * loop variable. When some character is flagged, the loop stopped on it and
   * the comparison holds, so nothing changes and the reply names that flagged
   * character; otherwise the loop ended on the last character, the named
   * character is flagged, and the reply names the last character.
   */
  function DefaultCommand(content: string, characters: seq<Tracked<Characters.Character>>)
    : (r: (DefaultOutcome, seq<Tracked<Characters.Character>>))
    ensures DefaultTarget(content, characters).Refused? ==> r == (DefaultTarget(content, characters).reply, characters)
    ensures DefaultTarget(content, characters).Found? && MessageInfos.FirstDefault(Plain(characters)).Some? ==>
      r.1 == characters
      && r.0 == AlreadyDefault(AsText(characters[MessageInfos.FirstDefault(Plain(characters)).value].value.name))
    ensures DefaultTarget(content, characters).Found? && MessageInfos.FirstDefault(Plain(characters)).None? ==>
      var i := DefaultTarget(content, characters).index;
      r.1 == characters[i := Characters.SetDefault(characters[i], true)]
      && r.0 == NowDefault(AsText(characters[|characters| - 1].value.name))
  {
    match DefaultTarget(content, characters)
    case Refused(e) => (e, characters)
    case Found(i) =>
      match MessageInfos.FirstDefault(Plain(characters))
      case Some(d) => (AlreadyDefault(AsText(characters[d].value.name)), characters)
      case None =>
        (NowDefault(AsText(characters[|characters| - 1].value.name)), characters[i := Characters.SetDefault(characters[i], true)])
  }

  /** As written, once any character is flagged the default can never be moved to another one. */
  lemma DefaultNeverMoves(content: string, characters: seq<Tracked<Characters.Character>>, d: nat)
    requires d < |characters| && characters[d].value.isDefault
    ensures forall j :: 0 <= j < |characters| ==>
      DefaultCommand(content, characters).1[j].value.isDefault == characters[j].value.isDefault
  {
    assert Plain(characters)[d].isDefault;
  }

  /** At most one character is flagged default. */
  predicate AtMostOneDefault(cs: seq<Characters.Character>) {
    forall i, j :: 0 <= i < |cs| && 0 <= j < |cs| && cs[i].isDefault && cs[j].isDefault ==> i == j
  }

  /**
   * DefaultCommand as evidently intended: the named character is compared with
   * the current default; if it differs, the current default loses its flag and
   * the named character gets it, and the reply names the named character.
   */
  function DefaultCommandCorrected(content: string, characters: seq<Tracked<Characters.Character>>)
    : (r: (DefaultOutcome, seq<Tracked<Characters.Character>>))
    ensures DefaultTarget(content, characters).Refused? ==> r == (DefaultTarget(content, characters).reply, characters)
    ensures |r.1| == |characters|
    ensures forall j :: 0 <= j < |characters| ==> r.1[j].state == characters[j].state
    ensures DefaultTarget(content, characters).Found? ==>
      (r.0.AlreadyDefault? || r.0.NowDefault?) && r.0.name == AsText(characters[DefaultTarget(content, characters).index].value.name)
      && r.1[DefaultTarget(content, characters).index].value.isDefault
  {
    match DefaultTarget(content, characters)
    case Refused(e) => (e, characters)
    case Found(i) =>
      var name := AsText(characters[i].value.name);
      match MessageInfos.FirstDefault(Plain(characters))
      case Some(d) =>
        if d == i then (AlreadyDefault(name), characters)
        else
          var unset := characters[d := Characters.SetDefault(characters[d], false)];
          (NowDefault(name), unset[i := Characters.SetDefault(unset[i], true)])
      case None => (NowDefault(name), characters[i := Characters.SetDefault(characters[i], true)])
  }

  /** With the correction, and at most one default before, the named character is afterwards the only default. */
  lemma CorrectedDefaultIsUnique(content: string, characters: seq<Tracked<Characters.Character>>)
    requires DefaultTarget(content, characters).Found?
    requires AtMostOneDefault(Plain(characters))
    ensures forall j :: 0 <= j < |characters| ==>
      (DefaultCommandCorrected(content, characters).1[j].value.isDefault <==> j == DefaultTarget(content, characters).index)
  {
    var i := DefaultTarget(content, characters).index;
    var r := DefaultCommandCorrected(content, characters);
    var d := MessageInfos.FirstDefault(Plain(characters));
    if d.Some? {
      assert Plain(characters)[d.value].isDefault;
    }
  }
}

=== FILE: entities.dfy ===
/**
 * The seven entity classes seen through BaseModel's abstract interface
 * (src/RPCharacterBot/Common/BaseModel.php): per-class cache configuration,
 * hydration, creation and the statement builders, dispatched on the class.
 */
module Entities {
  import opened Values
  import opened Db
  import opened Lifecycle
  import Characters
  import Guilds
  import Channels
  import Users
  import PairUsers

  datatype EntityClass =
    | CharacterClass
    | GuildClass
    | ChannelClass
    | UserClass
    | PairClass(scope: PairUsers.Scope)

  datatype EntityData =
    | CharacterData(character: Characters.Character)
    | GuildData(guild: Guilds.Guild)
    | ChannelData(channel: Channels.Channel)
    | UserData(user: Users.User)
    | PairData(pair: PairUsers.PairUser)

  /** A cached object: its lifecycle state and its fields. */
  type Entity = Tracked<EntityData>

  /** The class of an object (get_class). */
  function ClassOf(d: EntityData): EntityClass {
    match d
    case CharacterData(_) => CharacterClass
    case GuildData(_) => GuildClass
    case ChannelData(_) => ChannelClass
    case UserData(_) => UserClass
    case PairData(p) => PairClass(p.scope)
  }

  /** The class's CACHE_CONFIG name. */
  function ConfigName(cls: EntityClass): string {
    match cls
    case CharacterClass => Characters.ConfigName
    case GuildClass => Guilds.ConfigName
    case ChannelClass => Channels.ConfigName
    case UserClass => Users.ConfigName
    case PairClass(s) => PairUsers.ConfigName(s)
  }

  /** The class's CACHE_PRIORITY. */
  function Priority(cls: EntityClass): int {
    match cls
    case CharacterClass => Characters.Priority
    case GuildClass => Guilds.Priority
    case ChannelClass => Channels.Priority
    case UserClass => Users.Priority
    case PairClass(_) => PairUsers.Priority
  }

  /** Every class has its own configuration name, so no two classes share a cache size setting. */
  lemma ConfigNamesDistinct(a: EntityClass, b: EntityClass)
    ensures ConfigName(a) == ConfigName(b) <==> a == b
  {
  }

  /** The value an object stores in a column of its table. */
  function Column(d: EntityData, col: string): Scalar {
    match d
    case CharacterData(c) => Characters.Column(c, col)
    case GuildData(g) => Guilds.Column(g, col)
    case ChannelData(c) => Channels.Column(c, col)
    case UserData(u) => Users.Column(u, col)
    case PairData(p) => PairUsers.Column(p, col)
  }

  /** getFetchQuery of the class. */
  function FetchQuery(cls: EntityClass, q: Query): (r: DBQuery)
    ensures r.sql.Select? && r.WellFormed() && r.Binds(col => QueryGet(q, col))
  {
    match cls
    case CharacterClass => Characters.FetchQuery(q)
    case GuildClass => Guilds.FetchQuery(q)
    case ChannelClass => Channels.FetchQuery(q)
    case UserClass => Users.FetchQuery(q)
    case PairClass(s) => PairUsers.FetchQuery(s, q)
  }

  /** A new object of the class, filled from a database row. */
  function FromDbResult(cls: EntityClass, row: Row): (d: EntityData)
    ensures ClassOf(d) == cls
  {
    match cls
    case CharacterClass => CharacterData(Characters.FromDbResult(row))
    case GuildClass => GuildData(Guilds.FromDbResult(row))
    case ChannelClass => ChannelData(Channels.FromDbResult(row))
    case UserClass => UserData(Users.FromDbResult(row))
    case PairClass(s) => PairData(PairUsers.FromDbResult(s, row))
  }

  /** A new object of the class, filled from the fetch query's key values. */
  function CreateNewFromQuery(cls: EntityClass, q: Query): (d: EntityData)
    ensures ClassOf(d) == cls
  {
    match cls
    case CharacterClass => CharacterData(Characters.CreateNewFromQuery(q))
    case GuildClass => GuildData(Guilds.CreateNewFromQuery(q))
    case ChannelClass => ChannelData(Channels.CreateNewFromQuery(q))
    case UserClass => UserData(Users.CreateNewFromQuery(q))
    case PairClass(s) => PairData(PairUsers.CreateNewFromQuery(s, q))
  }

  function InsertStatement(d: EntityData): (r: DBQuery)
    ensures r.sql.Insert? && r.Binds(col => Column(d, col))
  {
    match d
    case CharacterData(c) => Characters.InsertStatement(c)
    case GuildData(g) => Guilds.InsertStatement(g)
    case ChannelData(c) => Channels.InsertStatement(c)
    case UserData(u) => Users.InsertStatement(u)
    case PairData(p) => PairUsers.InsertStatement(p)
  }

  function UpdateStatement(d: EntityData): (r: DBQuery)
    ensures r.sql.Update?
  {
    match d
    case CharacterData(c) => Characters.UpdateStatement(c)
    case GuildData(g) => Guilds.UpdateStatement(g)
    case ChannelData(c) => Channels.UpdateStatement(c)
    case UserData(u) => Users.UpdateStatement(u)
    case PairData(p) => PairUsers.UpdateStatement(p)
  }

  function DeleteStatement(d: EntityData): (r: DBQuery)
    ensures r.sql.Delete? && r.WellFormed() && r.Binds(col => Column(d, col))
  {
    match d
    case CharacterData(c) => Characters.DeleteStatement(c)
    case GuildData(g) => Guilds.DeleteStatement(g)
    case ChannelData(c) => Channels.DeleteStatement(c)
    case UserData(u) => Users.DeleteStatement(u)
    case PairData(p) => PairUsers.DeleteStatement(p)
  }

  /**
   * Which classes' statements can run as written: the delete always; the
   * insert and update exactly for the classes whose builders agree with
   * their SQL.
   */
  lemma StatementsWellFormed(d: EntityData)
    ensures DeleteStatement(d).WellFormed()
    ensures InsertStatement(d).WellFormed() <==> !(d.PairData? && d.pair.scope != PairUsers.ThreadScope)
    ensures UpdateStatement(d).WellFormed() <==> !d.CharacterData?
  {
  }

  /** setObjectIdAfterInsert: only Character overrides the no-op hook. */
  function SetObjectIdAfterInsert(d: EntityData, insertId: Scalar): (r: EntityData)
    ensures ClassOf(r) == ClassOf(d)
    ensures d.CharacterData? ==> Column(r, "id") == insertId
    ensures forall col :: col != "id" ==> Column(r, col) == Column(d, col)
    ensures !d.CharacterData? ==> r == d
  {
    match d
    case CharacterData(c) => CharacterData(Characters.SetObjectIdAfterInsert(c, insertId))
    case _ => d
  }

  /**
   * PHP's non-strict `==` between two objects: same class, and every property
   * (including the lifecycle state) loosely equal.
   */
  predicate LooseSame(a: Entity, b: Entity) {
    a.state == b.state &&
    match (a.value, b.value)
    case (CharacterData(x), CharacterData(y)) => Characters.LooseSame(x, y)
    case (GuildData(x), GuildData(y)) => Guilds.LooseSame(x, y)
    case (ChannelData(x), ChannelData(y)) => Channels.LooseSame(x, y)
    case (UserData(x), UserData(y)) => Users.LooseSame(x, y)
    case (PairData(x), PairData(y)) => PairUsers.LooseSame(x, y)
    case _ => false
  }

  /** An object is loosely equal to itself. */
  lemma LooseSameReflexive(a: Entity)
    ensures LooseSame(a, a)
  {
    match a.value
    case CharacterData(x) =>
      LooseEqIsEquivalenceLike(x.id, x.id);
      LooseEqIsEquivalenceLike(x.userId, x.userId);
      LooseEqIsEquivalenceLike(x.shortname, x.shortname);
      LooseEqIsEquivalenceLike(x.name, x.name);
      LooseEqIsEquivalenceLike(x.avatar, x.avatar);
    case GuildData(x) =>
      LooseEqIsEquivalenceLike(x.id, x.id);
      LooseEqIsEquivalenceLike(x.rpCharacterSetting, x.rpCharacterSetting);
      LooseEqIsEquivalenceLike(x.mainPrefix, x.mainPrefix);
      LooseEqIsEquivalenceLike(x.quickPrefix, x.quickPrefix);
    case ChannelData(x) =>
      LooseEqIsEquivalenceLike(x.id, x.id);
      LooseEqIsEquivalenceLike(x.webhookId, x.webhookId);
    case UserData(x) =>
      LooseEqIsEquivalenceLike(x.id, x.id);
      LooseEqIsEquivalenceLike(x.oocPrefix, x.oocPrefix);
    case PairData(x) =>
      LooseEqIsEquivalenceLike(x.scopeId, x.scopeId);
      LooseEqIsEquivalenceLike(x.userId, x.userId);
      LooseEqIsEquivalenceLike(x.characterId, x.characterId);
      LooseEqIsEquivalenceLike(x.formerCharacterId, x.formerCharacterId);
  }
}

=== FILE: guild_commands.dfy ===
/**
 * The guild-administration commands that change a guild's settings
 * (src/RPCharacterBot/Commands/Guild/): charsetting, the main prefix set
 * through a ping, and sprefix.
 */
module GuildCommands {
  import opened Wrappers
  import opened PhpText
  import opened Values
  import opened Lifecycle
  import Guilds
  import opened CommandHandlers

  // ---------------------------------------------------------------------------
  // charsetting

  datatype SettingOutcome =
    | SettingUsage
    | UndefinedConstant
    | AlreadyPer(settingName: string)
    | ChangedTo(settingName: string)

  /** The words the command accepts, after ASCII lower-casing. */
  predicate IsSettingWord(w: string) {
    w == "server" || w == "channel" || w == "guild" || w == "thread"
  }

  /** The shared first checks: the lower-cased first word, when it is one of the four accepted words. */
  function SettingWord(content: string): (r: Option<string>)
    ensures r.Some? <==> |GetMessageWords(content)| > 0 && IsSettingWord(Lower(GetMessageWords(content)[0]))
    ensures r.Some? ==> r.value == Lower(GetMessageWords(content)[0])
  {
    var words := GetMessageWords(content);
    if |words| < 1 then None
    else
      var firstWord := Lower(words[0]);
      if IsSettingWord(firstWord) then Some(firstWord) else None
  }

  /**
   * CharsettingCommand as written. The Guild model defines only the CHANNEL and
   * GUILD setting constants; reading the missing THREAD constant is an error.
   * "thread" reads it in the first switch, and a CHANNEL setting reads it in
   * the second switch's cases before reaching its own, so only "server" and
   * "guild" get past the mapping.
   */
  function Charsetting(content: string, guild: Tracked<Guilds.Guild>): (r: (SettingOutcome, Tracked<Guilds.Guild>))
    ensures SettingWord(content).None? <==> r.0 == SettingUsage
    ensures !r.0.ChangedTo? ==> r.1 == guild
    ensures r.0 == UndefinedConstant <==> SettingWord(content) == Some("channel") || SettingWord(content) == Some("thread")
    ensures r.0.AlreadyPer? <==>
      (SettingWord(content) == Some("server") || SettingWord(content) == Some("guild"))
      && LooseEq(guild.value.rpCharacterSetting, Num(Guilds.SettingGuild))
    ensures r.0.ChangedTo? ==> r.0.settingName == "server" && r.1 == Guilds.Set(guild, Guilds.Setting, Num(Guilds.SettingGuild))
  {
    match SettingWord(content)
    case None => (SettingUsage, guild)
    case Some(firstWord) =>
      if firstWord == "channel" || firstWord == "thread" then (UndefinedConstant, guild)
      else if LooseEq(guild.value.rpCharacterSetting, Num(Guilds.SettingGuild)) then (AlreadyPer("server"), guild)
      else (ChangedTo("server"), Guilds.Set(guild, Guilds.Setting, Num(Guilds.SettingGuild)))
  }

  lemma LowerChannel()
    ensures Lower("channel") == "channel"
  {
    var w := "channel";
    forall i | 0 <= i < |w|
      ensures !IsUpper(w[i])
    {
    }
    LowerKeeps(w);
  }

  lemma ChannelCommandWords()
    ensures GetMessageWords("!charsetting channel") == ["channel"]
  {
    var content := "!charsetting channel";
    assert content == "!charsetting" + [' '] + "channel";
    SplitPlain("channel", ' ');
    SplitAfterPiece("!charsetting", ' ', "channel");
  }

  /** As written, a guild on per-server characters can never be switched back to per-channel ones. */
  lemma ChannelSettingUnreachable(guild: Tracked<Guilds.Guild>)
    ensures Charsetting("!charsetting channel", guild) == (UndefinedConstant, guild)
  {
    ChannelCommandWords();
    LowerChannel();
    assert SettingWord("!charsetting channel") == Some("channel");
  }

  /** RPCHAR_SETTING_THREAD, a value distinct from the two constants the Guild model declares. */
  const SettingThread: int := 3

  /** The setting and the name the reply uses, for an accepted word. */
  function SettingFor(w: string): (int, string) {
    if w == "server" || w == "guild" then (Guilds.SettingGuild, "server")
    else if w == "channel" then (Guilds.SettingChannel, "channel")
    else (SettingThread, "thread (with channel fallback)")
  }

  /**
   * CharsettingCommand as evidently intended, with the THREAD constant defined:
   * the setting is changed through the setter exactly when it differs from the
   * current one.
   */
  function CharsettingCorrected(content: string, guild: Tracked<Guilds.Guild>)
    : (r: (SettingOutcome, Tracked<Guilds.Guild>))
    ensures SettingWord(content).None? <==> r.0 == SettingUsage
    ensures r.0 != UndefinedConstant
    ensures !r.0.ChangedTo? ==> r.1 == guild
    ensures SettingWord(content).Some? ==>
      var (setting, name) := SettingFor(SettingWord(content).value);
      r.0.settingName == name
      && (r.0.ChangedTo? <==> !LooseEq(guild.value.rpCharacterSetting, Num(setting)))
      && (r.0.ChangedTo? ==> r.1 == Guilds.Set(guild, Guilds.Setting, Num(setting)))
  {
    match SettingWord(content)
    case None => (SettingUsage, guild)
    case Some(firstWord) =>
      var (newSetting, newSettingName) := SettingFor(firstWord);
      if LooseEq(guild.value.rpCharacterSetting, Num(newSetting)) then (AlreadyPer(newSettingName), guild)
      else (ChangedTo(newSettingName), Guilds.Set(guild, Guilds.Setting, Num(newSetting)))
  }

  /** The three accepted settings are reachable from any guild, and repeating the command changes nothing more. */
  lemma CorrectedSettingSticks(content: string, guild: Tracked<Guilds.Guild>)
    requires SettingWord(content).Some?
    ensures var r := CharsettingCorrected(content, guild);
      r.1.value.rpCharacterSetting == Num(SettingFor(SettingWord(content).value).0)
      || r.1 == guild
    ensures var r := CharsettingCorrected(content, guild);
      CharsettingCorrected(content, r.1) == (AlreadyPer(SettingFor(SettingWord(content).value).1), r.1)
  {
    var r := CharsettingCorrected(content, guild);
    var setting := SettingFor(SettingWord(content).value).0;
    if r.0.ChangedTo? {
      assert Guilds.Column(r.1.value, "rpcharsetting") == Num(setting);
    }
    assert LooseEq(r.1.value.rpCharacterSetting, Num(setting));
  }

  // ---------------------------------------------------------------------------
  // prefix (by ping)

  datatype PrefixOutcome = PrefixUsage | BadLength | BadCharacters | PrefixSet(prefix: string)

  predicate IsMainPrefixChar(c: char) {
    'a' <= c <= 'z' || c == '_' || c == '!' || c == '%' || c == '.' || c == ',' || c == '-' || c == '+' || c == '~'
  }

  predicate AllMainPrefixChars(s: string) {
    |s| > 0 && forall i :: 0 <= i < |s| ==> IsMainPrefixChar(s[i])
  }

  /** The main prefix pattern: one or more of a-z and `_ ! % . , - + ~`; its end anchor also accepts one final line feed. */
  predicate MatchesMainPrefix(s: string) {
    AllMainPrefixChars(s) || (|s| > 0 && s[|s| - 1] == '\n' && AllMainPrefixChars(s[..|s| - 1]))
  }

  /** PrefixPingCommand: the lower-cased first word, 1 to 6 characters of the allowed set, becomes the main prefix. */
  function PrefixPing(content: string, guild: Tracked<Guilds.Guild>): (r: (PrefixOutcome, Tracked<Guilds.Guild>))
    ensures |GetMessageWords(content)| == 0 <==> r.0 == PrefixUsage
    ensures !r.0.PrefixSet? ==> r.1 == guild
    ensures r.0 == BadLength <==> |GetMessageWords(content)| > 0 && !(1 <= |GetMessageWords(content)[0]| <= 6)
    ensures r.0.PrefixSet? <==> (|GetMessageWords(content)| > 0 && 1 <= |GetMessageWords(content)[0]| <= 6
      && MatchesMainPrefix(Lower(GetMessageWords(content)[0])))
    ensures r.0.PrefixSet? ==> r.0.prefix == Lower(GetMessageWords(content)[0])
    ensures r.0.PrefixSet? ==> r.1 == Guilds.Set(guild, Guilds.MainPrefix, Text(r.0.prefix))
  {
    var words := GetMessageWords(content);
    if |words| < 1 then (PrefixUsage, guild)
    else
      var guildPrefix := Lower(words[0]);
      if |guildPrefix| < 1 || |guildPrefix| > 6 then (BadLength, guild)
      else if !MatchesMainPrefix(guildPrefix) then (BadCharacters, guild)
      else (PrefixSet(guildPrefix), Guilds.Set(guild, Guilds.MainPrefix, Text(guildPrefix)))
  }

  /** Every accepted main prefix is a non-empty run of allowed characters, possibly ending in one line feed. */
  lemma MainPrefixShape(content: string, guild: Tracked<Guilds.Guild>)
    requires PrefixPing(content, guild).0.PrefixSet?
    ensures var p := PrefixPing(content, guild).0.prefix;
      1 <= |p| <= 6 && Lower(p) == p
      && forall i :: 0 <= i < |p| ==> IsMainPrefixChar(p[i]) || (i == |p| - 1 && p[i] == '\n')
  {
    var p := PrefixPing(content, guild).0.prefix;
    LowerIdempotent(GetMessageWords(content)[0]);
  }

  // ---------------------------------------------------------------------------
  // sprefix

  datatype QuickPrefixOutcome = QuickPrefixUsage | BadPattern | QuickPrefixSet(prefix: string)

  predicate IsQuickPrefixChar(c: char) {
    c == '.' || c == ',' || c == '-' || c == '_' || c == ';' || c == ':' || c == '#' || c == '*' || c == '+'
    || c == '/' || c == '\\' || c == '$' || c == '%' || c == '&' || c == '?'
  }

  /** One to four copies of a single allowed character. */
  predicate Repeats(s: string) {
    1 <= |s| <= 4 && IsQuickPrefixChar(s[0]) && forall i :: 0 <= i < |s| ==> s[i] == s[0]
  }

  /** The quick prefix pattern: one allowed character, repeated up to three more times; its end anchor also accepts one final line feed. */
  predicate MatchesQuickPrefix(s: string) {
    Repeats(s) || (|s| > 0 && s[|s| - 1] == '\n' && Repeats(s[..|s| - 1]))
  }

  /** SprefixCommand: the lower-cased first word, when it matches the pattern, becomes the quick prefix. */
  function Sprefix(content: string, guild: Tracked<Guilds.Guild>): (r: (QuickPrefixOutcome, Tracked<Guilds.Guild>))
    ensures |GetMessageWords(content)| == 0 <==> r.0 == QuickPrefixUsage
    ensures !r.0.QuickPrefixSet? ==> r.1 == guild
    ensures r.0.QuickPrefixSet? <==> |GetMessageWords(content)| > 0 && MatchesQuickPrefix(Lower(GetMessageWords(content)[0]))
    ensures r.0.QuickPrefixSet? ==> r.0.prefix == Lower(GetMessageWords(content)[0])
    ensures r.0.QuickPrefixSet? ==> r.1 == Guilds.Set(guild, Guilds.QuickPrefix, Text(r.0.prefix))
  {
    var words := GetMessageWords(content);
    if |words| < 1 then (QuickPrefixUsage, guild)
    else
      var newPrefix := Lower(words[0]);
      if !MatchesQuickPrefix(newPrefix) then (BadPattern, guild)
      else (QuickPrefixSet(newPrefix), Guilds.Set(guild, Guilds.QuickPrefix, Text(newPrefix)))
  }

  /** Every run of one to four copies of an allowed character is accepted as the quick prefix. */
  lemma QuickPrefixAccepted(c: char, n: nat, guild: Tracked<Guilds.Guild>)
    requires IsQuickPrefixChar(c) && 1 <= n <= 4
    ensures var content := "!sprefix " + seq(n, _ => c);
      Sprefix(content, guild) == (QuickPrefixSet(seq(n, _ => c)), Guilds.Set(guild, Guilds.QuickPrefix, Text(seq(n, _ => c))))
  {
    var run := seq(n, _ => c);
    var content := "!sprefix " + run;
    assert ' ' !in run;
    assert content == "!sprefix" + [' '] + run;
    assert Split(content, ' ') == ["!sprefix", run] by {
      SplitPlain(run, ' ');
      SplitAfterPiece("!sprefix", ' ', run);
    }
    LowerKeeps(run);
  }
}

=== FILE: guilds.dfy ===
/**
 * A Discord server's settings (src/RPCharacterBot/Model/Guild.php): whether the
 * default character is chosen per channel or per guild, and the two command
 * prefixes.
 */
module Guilds {
  import opened Values
  import opened Db
  import opened Lifecycle

  const ConfigName: string := "guilds"
  const Priority: int := 1
  const Table: string := "guilds"

  /** RPCHAR_SETTING_CHANNEL and RPCHAR_SETTING_GUILD. */
  const SettingChannel: int := 1
  const SettingGuild: int := 2

  datatype Guild = Guild(id: Scalar, rpCharacterSetting: Scalar, mainPrefix: Scalar, quickPrefix: Scalar)

  const Columns: seq<string> := ["id", "rpcharsetting", "main_prefix", "quick_prefix"]

  /** A newly constructed object: only the setting has a declared default, CHANNEL. */
  const Blank: Guild := Guild(Null, Num(SettingChannel), Null, Null)

  function Column(g: Guild, col: string): Scalar {
    if col == "id" then g.id
    else if col == "rpcharsetting" then g.rpCharacterSetting
    else if col == "main_prefix" then g.mainPrefix
    else if col == "quick_prefix" then g.quickPrefix
    else Null
  }

  function ToRow(g: Guild): Row {
    map col | col in Columns :: Column(g, col)
  }

  /** fromDbResult copies the four columns. */
  function FromDbResult(row: Row): (g: Guild)
    ensures forall col :: col in Columns ==> Column(g, col) == RowGet(row, col)
  {
    Guild(RowGet(row, "id"), RowGet(row, "rpcharsetting"), RowGet(row, "main_prefix"), RowGet(row, "quick_prefix"))
  }

  lemma RowRoundTrip(g: Guild)
    ensures FromDbResult(ToRow(g)) == g
  {
    var row := ToRow(g);
    assert RowGet(row, "id") == g.id;
    assert RowGet(row, "rpcharsetting") == g.rpCharacterSetting;
    assert RowGet(row, "main_prefix") == g.mainPrefix;
    assert RowGet(row, "quick_prefix") == g.quickPrefix;
  }

  /** A new guild takes its id from the query, uses per-channel characters and has no prefixes. */
  function CreateNewFromQuery(q: Query): (g: Guild)
    ensures Column(g, "id") == QueryGet(q, "id")
    ensures g.rpCharacterSetting == Num(SettingChannel)
    ensures g.mainPrefix == Null && g.quickPrefix == Null
  {
    Blank.(id := QueryGet(q, "id"), rpCharacterSetting := Num(SettingChannel))
  }

  function FetchQuery(q: Query): (r: DBQuery)
    ensures r.sql.Select? && r.sql.Table() == Table && r.sql.Columns() == ["id"]
    ensures r.WellFormed() && r.Binds(col => QueryGet(q, col))
  {
    DBQuery(Select(Table, ["id"]), [QueryGet(q, "id")])
  }

  function InsertStatement(g: Guild): (r: DBQuery)
    ensures r.sql.Insert? && r.sql.Table() == Table && r.sql.Columns() == Columns
    ensures r.WellFormed() && r.Binds(col => Column(g, col))
  {
    DBQuery(Insert(Table, ["id", "rpcharsetting", "main_prefix", "quick_prefix"], 4),
      [g.id, g.rpCharacterSetting, g.mainPrefix, g.quickPrefix])
  }

  function DeleteStatement(g: Guild): (r: DBQuery)
    ensures r.sql.Delete? && r.sql.Table() == Table && r.sql.Columns() == ["id"]
    ensures r.WellFormed() && r.Binds(col => Column(g, col))
  {
    DBQuery(Delete(Table, ["id"]), [g.id])
  }

  function UpdateStatement(g: Guild): (r: DBQuery)
    ensures r.sql.Update? && r.sql.Table() == Table && r.sql.whereColumns == ["id"]
    ensures forall col :: col in Columns && col != "id" ==> col in r.sql.setColumns
    ensures r.WellFormed() && r.Binds(col => Column(g, col))
  {
    DBQuery(Update(Table, ["rpcharsetting", "main_prefix", "quick_prefix"], ["id"]),
      [g.rpCharacterSetting, g.mainPrefix, g.quickPrefix, g.id])
  }

  /**
   * A guild created from a query is stored, and later deleted, under the key the
   * query selects it by.
   */
  lemma NewGuildKeyedByItsQuery(q: Query)
    ensures InsertStatement(CreateNewFromQuery(q)).parameters[0] == FetchQuery(q).parameters[0]
    ensures DeleteStatement(CreateNewFromQuery(q)).parameters == FetchQuery(q).parameters
  {
  }

  datatype Field = Setting | MainPrefix | QuickPrefix

  function FieldColumn(f: Field): string {
    match f
    case Setting => "rpcharsetting"
    case MainPrefix => "main_prefix"
    case QuickPrefix => "quick_prefix"
  }

  /**
   * setRpCharacterSetting / setMainPrefix / setQuickPrefix: assign the field, then
   * mark the guild UPDATED if it was CURRENT.
   */
  function Set(o: Tracked<Guild>, f: Field, v: Scalar): (r: Tracked<Guild>)
    ensures Column(r.value, FieldColumn(f)) == v
    ensures forall col :: col != FieldColumn(f) ==> Column(r.value, col) == Column(o.value, col)
    ensures o.state == Current ==> r.state == Updated
    ensures o.state != Current ==> r.state == o.state
  {
    match f
    case Setting => SetDirty(o, o.value.(rpCharacterSetting := v))
    case MainPrefix => SetDirty(o, o.value.(mainPrefix := v))
    case QuickPrefix => SetDirty(o, o.value.(quickPrefix := v))
  }

  predicate LooseSame(a: Guild, b: Guild) {
    LooseEq(a.id, b.id) && LooseEq(a.rpCharacterSetting, b.rpCharacterSetting)
    && LooseEq(a.mainPrefix, b.mainPrefix) && LooseEq(a.quickPrefix, b.quickPrefix)
  }
}

=== FILE: lifecycle.dfy ===
/**
 * The lifecycle latch every cached entity carries
 * (src/RPCharacterBot/Common/BaseModel.php: constants, constructor,
 * setUpdateState, delete).
 */
module Lifecycle {

  datatype DbState = Current | New | Updated | Deleted

  /** The integer constants DB_STATE_CURRENT .. DB_STATE_DELETED. */
  function Code(s: DbState): (c: int)
    ensures 0 <= c <= 3
  {
    match s
    case Current => 0
    case New => 1
    case Updated => 2
    case Deleted => 3
  }

  /** Distinct states have distinct codes, so the integer constants identify the state. */
  lemma CodeInjective(a: DbState, b: DbState)
    ensures Code(a) == Code(b) <==> a == b
  {
  }

  /** An entity object: its lifecycle state and its fields. */
  datatype Tracked<T> = Tracked(state: DbState, value: T)

  /** The constructor: every object starts out CURRENT. */
  function Construct<T>(value: T): (o: Tracked<T>)
    ensures o.state == Current && o.value == value
  {
    Tracked(Current, value)
  }

  /** setUpdateState: the new state takes effect only from CURRENT. */
  function SetUpdateState(s: DbState, newState: DbState): (r: DbState)
    ensures s == Current ==> r == newState
    ensures s != Current ==> r == s
  {
    if s == Current then newState else s
  }

  /** delete(): unconditional, from any state. */
  function MarkDeleted<T>(o: Tracked<T>): (r: Tracked<T>)
    ensures r.state == Deleted && r.value == o.value
  {
    Tracked(Deleted, o.value)
  }

  /** A dirty-marking setter: assign the field, then latch UPDATED if CURRENT. */
  function SetDirty<T>(o: Tracked<T>, value: T): (r: Tracked<T>)
    ensures r.value == value
    ensures r.state == SetUpdateState(o.state, Updated)
  {
    Tracked(SetUpdateState(o.state, Updated), value)
  }

  /** A setter that does not touch the state (Character's and Channel's webhook setters). */
  function SetQuiet<T>(o: Tracked<T>, value: T): (r: Tracked<T>)
    ensures r.value == value && r.state == o.state
  {
    Tracked(o.state, value)
  }

  /**
   * The latch only moves away from CURRENT: after any sequence of dirty-marking
   * updates a NEW, UPDATED or DELETED state is unchanged, and a CURRENT one
   * becomes the first requested state other than CURRENT (if any).
   */
  function ApplyAll(s: DbState, requests: seq<DbState>): DbState
    decreases |requests|
  {
    if |requests| == 0 then s else ApplyAll(SetUpdateState(s, requests[0]), requests[1..])
  }

  lemma {:induction false} LatchIsOneWay(s: DbState, requests: seq<DbState>)
    requires s != Current
    ensures ApplyAll(s, requests) == s
    decreases |requests|
  {
    if |requests| > 0 {
      LatchIsOneWay(s, requests[1..]);
    }
  }

  lemma {:induction false} LatchTakesFirstChange(requests: seq<DbState>, i: nat)
    requires i < |requests| && requests[i] != Current
    requires forall j :: 0 <= j < i ==> requests[j] == Current
    ensures ApplyAll(Current, requests) == requests[i]
    decreases |requests|
  {
    if i == 0 {
      LatchIsOneWay(requests[0], requests[1..]);
    } else {
      LatchTakesFirstChange(requests[1..], i - 1);
    }
  }
}

=== FILE: message_cache.dfy ===
/**
 * MessageCache (src/RPCharacterBot/Common/MessageCache.php): the list of texts
 * recently sent through webhooks, used to recognise the webhook messages when
 * Discord echoes them back, and the per-user, per-channel record of the last
 * such message. The clock is a parameter `now`; the fuzzy text comparison is an
 * oracle `similar` that says whether two texts are more than 90 % alike.
 */
module MessageCaches {
  import opened Wrappers
  import opened PhpText
  import opened Values
  import opened PhpArrays

  /** Seconds a recognised message stays in the main cache. */
  const MaxCacheAge: int := 600
  /** Seconds a submitted text stays in the webhook list. */
  const WebhookCacheAge: int := 60

  /** One text sent through a webhook. */
  datatype Submission = Submission(time: int, userId: string, channelId: string, username: string, message: string)

  /** The parts of a Discord message the cache looks at. */
  datatype Message = Message(
    createdTimestamp: int,
    authorIsBot: bool,
    discriminator: int,
    username: string,
    content: string,
    channelId: string)

  datatype MessageCache = MessageCache(
    cachedData: map<string, map<string, Message>>,
    lastCacheClearance: int,
    webhookSubmissions: Arr<Submission>,
    webhookCacheClearance: int)

  /** No user is kept with an empty channel map; the submission list is numbered 0..n-1. */
  predicate Valid(c: MessageCache) {
    Dense(c.webhookSubmissions)
    && forall u :: u in c.cachedData ==> |c.cachedData[u]| > 0
  }

  /** The singleton as first created. */
  function Initial(now: int): (c: MessageCache)
    ensures Valid(c)
    ensures c.cachedData == map[] && Elements(c.webhookSubmissions) == []
    ensures c.lastCacheClearance == now && c.webhookCacheClearance == now
  {
    MessageCache(map[], now, Empty(), now)
  }

  // ---------------------------------------------------------------------------
  // The webhook list

  /** A submission older than the webhook age. */
  function Expired(now: int): Submission -> bool {
    (s: Submission) => now - s.time > WebhookCacheAge
  }

  function Recent(now: int): Submission -> bool {
    (s: Submission) => now - s.time <= WebhookCacheAge
  }

  /**
   * cleanWebhookCache: at most every 60/5 seconds, drops the submissions older
   * than 60 seconds and renumbers the rest.
   */
  function CleanWebhookCache(c: MessageCache, now: int): (r: MessageCache)
    requires Valid(c)
    ensures Valid(r)
    ensures r.cachedData == c.cachedData && r.lastCacheClearance == c.lastCacheClearance
    ensures now - c.webhookCacheClearance < WebhookCacheAge / 5 ==> r == c
    ensures now - c.webhookCacheClearance >= WebhookCacheAge / 5 ==> r.webhookCacheClearance == now
    ensures now - c.webhookCacheClearance >= WebhookCacheAge / 5 ==>
      Elements(r.webhookSubmissions) == Filter(Elements(c.webhookSubmissions), Recent(now))
  {
    if now - c.webhookCacheClearance < WebhookCacheAge / 5 then c
    else
      var subs := c.webhookSubmissions;
      var idsToDelete := Positions(Elements(subs), Expired(now));
      DenseUnsetPositions(subs, Expired(now), Recent(now));
      if |idsToDelete| > 0 then
        c.(webhookCacheClearance := now, webhookSubmissions := ArrayValues(UnsetAll(subs, idsToDelete)))
      else
        FilterAllKept(Elements(subs), Recent(now));
        c.(webhookCacheClearance := now)
  }

  /** After a clean-up that ran, a submission survives exactly when it was there and is recent. */
  lemma CleanKeepsExactlyRecent(c: MessageCache, now: int, s: Submission)
    requires Valid(c)
    requires now - c.webhookCacheClearance >= WebhookCacheAge / 5
    ensures s in Elements(CleanWebhookCache(c, now).webhookSubmissions)
        <==> s in Elements(c.webhookSubmissions) && now - s.time <= WebhookCacheAge
  {
    FilterMembers(Elements(c.webhookSubmissions), Recent(now), s);
  }

  /** submitToWebHook: appends one entry (with the text trimmed), then cleans the webhook list. */
  function SubmitToWebHook(c: MessageCache, now: int, userId: string, channelId: string, username: string, message: string): (r: MessageCache)
    requires Valid(c)
    ensures Valid(r)
    ensures r.cachedData == c.cachedData
    ensures |Elements(r.webhookSubmissions)| > 0
    ensures Elements(r.webhookSubmissions)[|Elements(r.webhookSubmissions)| - 1]
      == Submission(now, userId, channelId, username, Trim(message))
    ensures now - c.webhookCacheClearance < WebhookCacheAge / 5 ==>
      Elements(r.webhookSubmissions) == Elements(c.webhookSubmissions) + [Submission(now, userId, channelId, username, Trim(message))]
  {
    var entry := Submission(now, userId, channelId, username, Trim(message));
    var pushed := c.(webhookSubmissions := Push(c.webhookSubmissions, entry));
    FilterSnoc(Elements(c.webhookSubmissions), entry, Recent(now));
    CleanWebhookCache(pushed, now)
  }

  // ---------------------------------------------------------------------------
  // The main cache

  /** The message stored for a user in a channel, if any. */
  function Lookup(d: map<string, map<string, Message>>, userId: string, channelId: string): Option<Message> {
    if userId in d && channelId in d[userId] then Some(d[userId][channelId]) else None
  }

  predicate Stale(now: int, m: Message) { now - m.createdTimestamp > MaxCacheAge }

  /** A user's channels without the stale messages. */
  function PruneChannels(channels: map<string, Message>, now: int): (r: map<string, Message>)
    ensures forall ch :: ch in r <==> ch in channels && !Stale(now, channels[ch])
    ensures forall ch :: ch in r ==> r[ch] == channels[ch]
  {
    map ch | ch in channels && !Stale(now, channels[ch]) :: channels[ch]
  }

  /** The users whose channel map is not empty. */
  function DropEmptyUsers(d: map<string, map<string, Message>>): (r: map<string, map<string, Message>>)
    ensures forall u :: u in r ==> |r[u]| > 0
    ensures forall u, ch :: Lookup(r, u, ch) == Lookup(d, u, ch)
  {
    map u | u in d && |d[u]| > 0 :: d[u]
  }

  /**
   * cleanMainCache: at most every 600/5 seconds, removes the messages older than
   * 600 seconds, then the users left without any channel.
   */
  function CleanMainCache(c: MessageCache, now: int): (r: MessageCache)
    requires Valid(c)
    ensures Valid(r)
    ensures r.webhookSubmissions == c.webhookSubmissions && r.webhookCacheClearance == c.webhookCacheClearance
    ensures now - c.lastCacheClearance < MaxCacheAge / 5 ==> r == c
    ensures now - c.lastCacheClearance >= MaxCacheAge / 5 ==> r.lastCacheClearance == now
    ensures now - c.lastCacheClearance >= MaxCacheAge / 5 ==> forall u, ch ::
      Lookup(r.cachedData, u, ch) == Unless(Lookup(c.cachedData, u, ch), now)
  {
    if now - c.lastCacheClearance < MaxCacheAge / 5 then c
    else
      var pruned := map u | u in c.cachedData :: PruneChannels(c.cachedData[u], now);
      c.(lastCacheClearance := now, cachedData := DropEmptyUsers(pruned))
  }

  /** A stored message unless it is stale. */
  function Unless(m: Option<Message>, now: int): Option<Message> {
    if m.Some? && Stale(now, m.value) then None else m
  }

  // ---------------------------------------------------------------------------
  // Recognising webhook messages

  /** The message looks like the echo of a submission: same channel, same author name, similar text. */
  predicate IsEcho(s: Submission, msg: Message, similar: (string, string) -> bool) {
    LooseEq(Text(s.channelId), Text(msg.channelId))
    && LooseEq(Text(s.username), Text(msg.username))
    && similar(msg.content, s.message)
  }

  /** The position of the first submission the message echoes. */
  function FindSubmission(subs: seq<Submission>, msg: Message, similar: (string, string) -> bool): (r: Option<nat>)
    ensures r.Some? ==> r.value < |subs| && IsEcho(subs[r.value], msg, similar)
    ensures r.Some? ==> forall j :: 0 <= j < r.value ==> !IsEcho(subs[j], msg, similar)
    ensures r.None? <==> forall j :: 0 <= j < |subs| ==> !IsEcho(subs[j], msg, similar)
    decreases |subs|
  {
    if |subs| == 0 then None
    else if IsEcho(subs[0], msg, similar) then Some(0)
    else
      match FindSubmission(subs[1..], msg, similar)
      case Some(i) => Some(i + 1)
      case None => None
  }

  /**
   * Records the message for the user. As written, a user who has no entry for
   * this channel loses all other channels (the whole channel map is replaced);
   * when the channel is already recorded, or with `keepOthers`, the other
   * channels are kept.
   */
  function Store(d: map<string, map<string, Message>>, userId: string, msg: Message, keepOthers: bool): (r: map<string, map<string, Message>>)
    ensures Lookup(r, userId, msg.channelId) == Some(msg)
    ensures forall u, ch :: u != userId ==> Lookup(r, u, ch) == Lookup(d, u, ch)
    ensures keepOthers || (userId in d && msg.channelId in d[userId]) ==>
      forall ch :: ch != msg.channelId ==> Lookup(r, userId, ch) == Lookup(d, userId, ch)
    ensures !keepOthers && !(userId in d && msg.channelId in d[userId]) ==> r[userId] == map[msg.channelId := msg]
    ensures |r[userId]| > 0
  {
    var kept := if userId in d && (keepOthers || msg.channelId in d[userId]) then d[userId] else map[];
    d[userId := kept[msg.channelId := msg]]
  }

  /** The shared body of identifyBotMessage and its corrected form. */
  function IdentifyWith(c: MessageCache, now: int, msg: Message, similar: (string, string) -> bool, keepOthers: bool): (r: (bool, MessageCache))
    requires Valid(c)
    ensures Valid(r.1)
    ensures !msg.authorIsBot || msg.discriminator != 0 ==> r == (false, c)
    ensures r.0 <==> msg.authorIsBot && msg.discriminator == 0
                     && FindSubmission(Elements(c.webhookSubmissions), msg, similar).Some?
    ensures !r.0 ==> r.1 == c
    ensures r.1.webhookSubmissions == c.webhookSubmissions
    ensures r.0 ==> forall u, ch :: u != EchoUser(c, msg, similar) ==>
      Lookup(r.1.cachedData, u, ch) == (if now - c.lastCacheClearance < MaxCacheAge / 5 then Lookup(c.cachedData, u, ch)
                                        else Unless(Lookup(c.cachedData, u, ch), now))
  {
    if !msg.authorIsBot || msg.discriminator != 0 then (false, c)
    else
      var subs := Elements(c.webhookSubmissions);
      match FindSubmission(subs, msg, similar)
      case None => (false, c)
      case Some(i) =>
        var stored := c.(cachedData := Store(c.cachedData, subs[i].userId, msg, keepOthers));
        (true, CleanMainCache(stored, now))
  }

  /** The user a recognised message is filed under: the one who submitted the echoed text. */
  function EchoUser(c: MessageCache, msg: Message, similar: (string, string) -> bool): string
    requires FindSubmission(Elements(c.webhookSubmissions), msg, similar).Some?
  {
    Elements(c.webhookSubmissions)[FindSubmission(Elements(c.webhookSubmissions), msg, similar).value].userId
  }

  /**
   * identifyBotMessage: only a bot author with discriminator 0 can match; a
   * match files the message under the submitting user and channel, then runs
   * the main clean-up.
   */
  function IdentifyBotMessage(c: MessageCache, now: int, msg: Message, similar: (string, string) -> bool): (r: (bool, MessageCache))
    requires Valid(c)
    ensures Valid(r.1)
    ensures r.0 <==> msg.authorIsBot && msg.discriminator == 0
                     && exists j :: 0 <= j < |Elements(c.webhookSubmissions)| && IsEcho(Elements(c.webhookSubmissions)[j], msg, similar)
    ensures !r.0 ==> r.1 == c
    ensures r.0 && !Stale(now, msg) ==>
      Lookup(r.1.cachedData, EchoUser(c, msg, similar), msg.channelId) == Some(msg)
    ensures r.1.webhookSubmissions == c.webhookSubmissions
    ensures r.0 ==> forall u, ch :: u != EchoUser(c, msg, similar) ==>
      Lookup(r.1.cachedData, u, ch) == (if now - c.lastCacheClearance < MaxCacheAge / 5 then Lookup(c.cachedData, u, ch)
                                        else Unless(Lookup(c.cachedData, u, ch), now))
  {
    IdentifyWith(c, now, msg, similar, false)
  }

  /**
   * The as-written identifyBotMessage forgets the user's other channels when the
   * recognised message is in a channel not yet recorded for them.
   */
  lemma IdentifyForgetsOtherChannels(c: MessageCache, now: int, msg: Message, similar: (string, string) -> bool, other: string)
    requires Valid(c)
    requires IdentifyBotMessage(c, now, msg, similar).0
    requires now - c.lastCacheClearance < MaxCacheAge / 5
    requires Lookup(c.cachedData, EchoUser(c, msg, similar), other).Some?
    requires Lookup(c.cachedData, EchoUser(c, msg, similar), msg.channelId).None?
    ensures Lookup(IdentifyBotMessage(c, now, msg, similar).1.cachedData, EchoUser(c, msg, similar), other) == None
  {
  }

  /** identifyBotMessage with the user's other channels kept. */
  function IdentifyBotMessageCorrected(c: MessageCache, now: int, msg: Message, similar: (string, string) -> bool): (r: (bool, MessageCache))
    requires Valid(c)
    ensures Valid(r.1)
    ensures r.0 == IdentifyBotMessage(c, now, msg, similar).0
    ensures r.0 && !Stale(now, msg) ==>
      Lookup(r.1.cachedData, EchoUser(c, msg, similar), msg.channelId) == Some(msg)
  {
    IdentifyWith(c, now, msg, similar, true)
  }

  /** With the correction, every other (user, channel) entry is only ever aged out, never lost. */
  lemma CorrectedKeepsOtherEntries(c: MessageCache, now: int, msg: Message, similar: (string, string) -> bool, u: string, ch: string)
    requires Valid(c)
    requires IdentifyBotMessageCorrected(c, now, msg, similar).0
    requires u != EchoUser(c, msg, similar) || ch != msg.channelId
    ensures now - c.lastCacheClearance < MaxCacheAge / 5 ==>
      Lookup(IdentifyBotMessageCorrected(c, now, msg, similar).1.cachedData, u, ch) == Lookup(c.cachedData, u, ch)
    ensures now - c.lastCacheClearance >= MaxCacheAge / 5 ==>
      Lookup(IdentifyBotMessageCorrected(c, now, msg, similar).1.cachedData, u, ch) == Unless(Lookup(c.cachedData, u, ch), now)
  {
    var subs := Elements(c.webhookSubmissions);
    var i := FindSubmission(subs, msg, similar).value;
    var d := Store(c.cachedData, subs[i].userId, msg, true);
    assert Lookup(d, u, ch) == Lookup(c.cachedData, u, ch);
    var stored := c.(cachedData := d);
    assert IdentifyBotMessageCorrected(c, now, msg, similar).1 == CleanMainCache(stored, now);
  }

  // ---------------------------------------------------------------------------
  // Reading and removing

  /** findLastUserMessage: the stored message, after a webhook clean-up. */
  function FindLastUserMessage(c: MessageCache, now: int, userId: string, channelId: string): (r: (Option<Message>, MessageCache))
    requires Valid(c)
    ensures Valid(r.1) && r.1.cachedData == c.cachedData
    ensures r.0.Some? <==> userId in c.cachedData && channelId in c.cachedData[userId]
    ensures r.0.Some? ==> r.0.value == c.cachedData[userId][channelId]
  {
    (Lookup(c.cachedData, userId, channelId), CleanWebhookCache(c, now))
  }

  /** A recognised, still recent message is what the next look-up for its user and channel finds. */
  lemma FindAfterIdentify(c: MessageCache, now: int, msg: Message, similar: (string, string) -> bool, later: int)
    requires Valid(c)
    requires IdentifyBotMessage(c, now, msg, similar).0
    requires !Stale(now, msg)
    ensures FindLastUserMessage(IdentifyBotMessage(c, now, msg, similar).1, later, EchoUser(c, msg, similar), msg.channelId).0 == Some(msg)
  {
  }

  /** removeFromCache: forgets one (user, channel) entry and a user left with none. */
  function RemoveFromCache(c: MessageCache, now: int, userId: string, channelId: string): (r: MessageCache)
    requires Valid(c)
    ensures Valid(r)
    ensures r.webhookSubmissions == CleanWebhookCache(c, now).webhookSubmissions
    ensures Lookup(r.cachedData, userId, channelId) == None
    ensures forall u, ch :: (u != userId || ch != channelId) ==> Lookup(r.cachedData, u, ch) == Lookup(c.cachedData, u, ch)
    ensures Lookup(c.cachedData, userId, channelId).None? ==> r.cachedData == c.cachedData
  {
    var cleaned := CleanWebhookCache(c, now);
    var d := cleaned.cachedData;
    if userId !in d || channelId !in d[userId] then cleaned
    else
      var rest := d[userId] - {channelId};
      if |rest| == 0 then cleaned.(cachedData := d - {userId})
      else cleaned.(cachedData := d[userId := rest])
  }
}

=== FILE: message_container.dfy ===
/**
 * MessageContainer (src/RPCharacterBot/Common/MultiMessage/MessageContainer.php):
 * splits a message posted in an RP channel into blocks, each handled by the
 * default handler or by the command its first line names.
 */
module MessageContainers {
  import opened Wrappers
  import opened PhpText
  import BotHelpers
  import CommandHandlers

  /** The handler of a block: the default handler or a command class found by its name. */
  datatype Handler = DefaultHandler | CommandClass(fqcn: string)

  datatype Block = Block(handler: Handler, content: string)

  /**
   * The command a line starts with: its first space-separated word is the
   * quick prefix followed by a name some discovered class is registered under.
   */
  function LineCommand(line: string, quickPrefix: string, classes: seq<string>): (r: Option<string>)
    ensures r.Some? ==> r.value in classes
    ensures var word := Split(line, ' ')[0];
      r.Some? <==> (|quickPrefix| < |word| && word[..|quickPrefix|] == quickPrefix
                    && exists i :: 0 <= i < |classes| && CommandHandlers.CommandNameOf(classes[i]) == Some(Lower(word[|quickPrefix|..])))
    ensures var word := Split(line, ' ')[0];
      r.Some? ==> CommandHandlers.CommandNameOf(r.value) == Some(Lower(word[|quickPrefix|..]))
  {
    match BotHelpers.ExtractCommandName(Split(line, ' ')[0], quickPrefix)
    case None => None
    case Some(name) => CommandHandlers.SearchCommand(classes, name)
  }

  /**
   * The reference grouping: the first line opens the default block; every later
   * line opens a new block when it starts with a command and otherwise joins
   * the current block.
   */
  function Groups(lines: seq<string>, quickPrefix: string, classes: seq<string>): (g: seq<(Handler, seq<string>)>)
    requires |lines| > 0
    ensures |g| > 0 && g[0].0 == DefaultHandler
    ensures forall k :: 0 <= k < |g| ==> |g[k].1| > 0
    decreases |lines|
  {
    if |lines| == 1 then [(DefaultHandler, lines)]
    else
      var g := Groups(lines[..|lines| - 1], quickPrefix, classes);
      var line := lines[|lines| - 1];
      match LineCommand(line, quickPrefix, classes)
      case Some(cls) => g + [(CommandClass(cls), [line])]
      case None => g[..|g| - 1] + [(g[|g| - 1].0, g[|g| - 1].1 + [line])]
  }

  /** All groups' lines, one after the other. */
  function Flatten(g: seq<(Handler, seq<string>)>): seq<string>
    decreases |g|
  {
    if |g| == 0 then [] else Flatten(g[..|g| - 1]) + g[|g| - 1].1
  }

  /** A group appended at the end contributes its lines at the end. */
  lemma FlattenSnoc(g: seq<(Handler, seq<string>)>, x: (Handler, seq<string>))
    ensures Flatten(g + [x]) == Flatten(g) + x.1
  {
    assert (g + [x])[..|g|] == g;
  }

  /** A line added to the last group comes after all the lines so far. */
  lemma FlattenExtendLast(g: seq<(Handler, seq<string>)>, line: string)
    requires |g| > 0
    ensures Flatten(g[..|g| - 1] + [(g[|g| - 1].0, g[|g| - 1].1 + [line])]) == Flatten(g) + [line]
  {
    var init, last := g[..|g| - 1], g[|g| - 1];
    var extended := (last.0, last.1 + [line]);
    FlattenSnoc(init, extended);
    assert Flatten(init + [extended]) == Flatten(init) + (last.1 + [line]);
    assert Flatten(g) == Flatten(init) + last.1;
    assert Flatten(init) + (last.1 + [line]) == (Flatten(init) + last.1) + [line];
  }

  /** Every line lands in exactly one block, in order. */
  lemma {:induction false} GroupsPartitionLines(lines: seq<string>, quickPrefix: string, classes: seq<string>)
    requires |lines| > 0
    ensures Flatten(Groups(lines, quickPrefix, classes)) == lines
    decreases |lines|
  {
    if |lines| == 1 {
      FlattenSnoc([], (DefaultHandler, lines));
    } else {
      var init := lines[..|lines| - 1];
      var line := lines[|lines| - 1];
      var g := Groups(init, quickPrefix, classes);
      GroupsPartitionLines(init, quickPrefix, classes);
      match LineCommand(line, quickPrefix, classes)
      case Some(cls) =>
        FlattenSnoc(g, (CommandClass(cls), [line]));
      case None =>
        FlattenExtendLast(g, line);
      assert init + [line] == lines;
    }
  }

  /** A block after the first one starts exactly at a command line, and its handler is that command. */
  lemma {:induction false} LaterGroupsStartWithCommands(lines: seq<string>, quickPrefix: string, classes: seq<string>, k: nat)
    requires |lines| > 0
    requires 0 < k < |Groups(lines, quickPrefix, classes)|
    ensures Groups(lines, quickPrefix, classes)[k].0.CommandClass?
      && LineCommand(Groups(lines, quickPrefix, classes)[k].1[0], quickPrefix, classes)
         == Some(Groups(lines, quickPrefix, classes)[k].0.fqcn)
    ensures forall j :: 0 < j < |Groups(lines, quickPrefix, classes)[k].1| ==>
            LineCommand(Groups(lines, quickPrefix, classes)[k].1[j], quickPrefix, classes).None?
    decreases |lines|
  {
    var g := Groups(lines, quickPrefix, classes);
    var init := lines[..|lines| - 1];
    var line := lines[|lines| - 1];
    var gi := Groups(init, quickPrefix, classes);
    match LineCommand(line, quickPrefix, classes)
    case Some(cls) =>
      if k < |gi| {
        LaterGroupsStartWithCommands(init, quickPrefix, classes, k);
        assert g[k] == gi[k];
      }
    case None =>
      LaterGroupsStartWithCommands(init, quickPrefix, classes, k);
      if k < |gi| - 1 {
        assert g[k] == gi[k];
      } else {
        assert g[k] == (gi[k].0, gi[k].1 + [line]);
      }
  }

  /** A command line after the first opens a new group. */
  lemma GroupsStepCommand(lines: seq<string>, i: nat, quickPrefix: string, classes: seq<string>, cls: string)
    requires 0 < i < |lines|
    requires LineCommand(lines[i], quickPrefix, classes) == Some(cls)
    ensures Groups(lines[..i + 1], quickPrefix, classes)
         == Groups(lines[..i], quickPrefix, classes) + [(CommandClass(cls), [lines[i]])]
  {
    assert lines[..i + 1][..i] == lines[..i];
  }

  /** Any other line after the first joins the last group. */
  lemma GroupsStepPlain(lines: seq<string>, i: nat, quickPrefix: string, classes: seq<string>)
    requires 0 < i < |lines|
    requires LineCommand(lines[i], quickPrefix, classes).None?
    ensures var g := Groups(lines[..i], quickPrefix, classes);
      Groups(lines[..i + 1], quickPrefix, classes) == g[..|g| - 1] + [(g[|g| - 1].0, g[|g| - 1].1 + [lines[i]])]
  {
    assert lines[..i + 1][..i] == lines[..i];
  }

  /** The blocks before trimming: each group's lines joined by EOL. */
  predicate RawMatches(done: seq<Block>, handler: Handler, current: string, g: seq<(Handler, seq<string>)>) {
    |done| + 1 == |g|
    && (forall k :: 0 <= k < |done| ==> done[k] == Block(g[k].0, Join(g[k].1, EOL)))
    && handler == g[|g| - 1].0 && current == Join(g[|g| - 1].1, EOL)
  }

  /** A plain line extends the open block by a line break and the line. */
  lemma RawStepPlain(done: seq<Block>, handler: Handler, current: string, g: seq<(Handler, seq<string>)>, line: string)
    requires RawMatches(done, handler, current, g) && |g[|g| - 1].1| > 0
    ensures RawMatches(done, handler, current + EOL + line, g[..|g| - 1] + [(g[|g| - 1].0, g[|g| - 1].1 + [line])])
  {
    JoinSnoc(g[|g| - 1].1, line, EOL);
    var g2 := g[..|g| - 1] + [(g[|g| - 1].0, g[|g| - 1].1 + [line])];
    assert forall k :: 0 <= k < |done| ==> g2[k] == g[k];
  }

  /** A command line closes the open block and opens one holding that line. */
  lemma RawStepCommand(done: seq<Block>, handler: Handler, current: string, g: seq<(Handler, seq<string>)>, line: string, h: Handler)
    requires RawMatches(done, handler, current, g)
    ensures RawMatches(done + [Block(handler, current)], h, line, g + [(h, [line])])
  {
    var d2 := done + [Block(handler, current)];
    var g2 := g + [(h, [line])];
    assert forall k :: 0 <= k < |done| ==> d2[k] == done[k] && g2[k] == g[k];
  }

  /**
   * parseMessage: walks the lines, opening a new block at a command line only
   * when the current block already has content, then trims every block.
   */
  method ParseMessage(content: Option<string>, quickPrefix: string, classes: seq<string>) returns (blocks: seq<Block>)
    ensures |blocks| >= 1 && blocks[0].handler == DefaultHandler
    ensures blocks == GroupBlocks(Groups(SplitLines(if content.Some? then content.value else ""), quickPrefix, classes))
  {
    var messageText := if content.Some? then content.value else "";
    var lines := SplitLines(messageText);
    var done, handler, current := ParseLines(lines, quickPrefix, classes);
    blocks := TrimAll(done + [Block(handler, current)]);
    FinishedBlocks(done, handler, current, Groups(lines, quickPrefix, classes));
  }

  /** The loop of parseMessage: the closed blocks, and the handler and content of the open one. */
  method ParseLines(lines: seq<string>, quickPrefix: string, classes: seq<string>)
    returns (done: seq<Block>, handler: Handler, current: string)
    requires |lines| > 0
    ensures RawMatches(done, handler, current, Groups(lines, quickPrefix, classes))
  {
    done := [];
    handler := DefaultHandler;
    var content: Option<string> := None;
    ghost var g: seq<(Handler, seq<string>)> := [];
    var i := 0;
    while i < |lines|
      invariant 0 <= i <= |lines|
      invariant i == 0 ==> done == [] && handler == DefaultHandler && content.None?
      invariant i > 0 ==> content.Some? && g == Groups(lines[..i], quickPrefix, classes)
      invariant i > 0 ==> RawMatches(done, handler, content.value, g)
    {
      var line := lines[i];
      var command := LineCommand(line, quickPrefix, classes);
      if i == 0 {
        assert lines[..1] == [line];
        content := Some(line);
        g := [(DefaultHandler, [line])];
      } else if command.Some? {
        GroupsStepCommand(lines, i, quickPrefix, classes, command.value);
        RawStepCommand(done, handler, content.value, g, line, CommandClass(command.value));
        done := done + [Block(handler, content.value)];
        handler := CommandClass(command.value);
        content := Some(line);
        g := g + [(CommandClass(command.value), [line])];
      } else {
        GroupsStepPlain(lines, i, quickPrefix, classes);
        RawStepPlain(done, handler, content.value, g, line);
        content := Some(content.value + EOL + line);
        g := g[..|g| - 1] + [(g[|g| - 1].0, g[|g| - 1].1 + [line])];
      }
      i := i + 1;
    }
    assert lines[..i] == lines;
    current := content.value;
  }

  /** Closing the open block and trimming yields the blocks of the grouping. */
  lemma FinishedBlocks(done: seq<Block>, handler: Handler, current: string, g: seq<(Handler, seq<string>)>)
    requires RawMatches(done, handler, current, g)
    ensures TrimAll(done + [Block(handler, current)]) == GroupBlocks(g)
  {
    var raw := done + [Block(handler, current)];
    var a := TrimAll(raw);
    var b := GroupBlocks(g);
    forall k | 0 <= k < |g|
      ensures a[k] == b[k]
    {
      var block := Block(g[k].0, Join(g[k].1, EOL));
      if k < |done| {
        assert raw[k] == done[k] == block;
      } else {
        assert k == |g| - 1;
        assert raw[k] == Block(handler, current);
      }
      assert a[k] == Block(block.handler, Trim(block.content));
    }
    assert |a| == |b|;
  }

  /** Every block's content trimmed. */
  function TrimAll(raw: seq<Block>): (r: seq<Block>)
    ensures |r| == |raw|
    ensures forall k :: 0 <= k < |raw| ==> r[k] == Block(raw[k].handler, Trim(raw[k].content))
  {
    seq(|raw|, k requires 0 <= k < |raw| => Block(raw[k].handler, Trim(raw[k].content)))
  }

  /** The blocks a grouping stands for: each group's lines joined by EOL and trimmed. */
  function GroupBlocks(g: seq<(Handler, seq<string>)>): (r: seq<Block>)
    ensures |r| == |g|
    ensures forall k :: 0 <= k < |g| ==> r[k] == Block(g[k].0, Trim(Join(g[k].1, EOL)))
  {
    seq(|g|, k requires 0 <= k < |g| => Block(g[k].0, Trim(Join(g[k].1, EOL))))
  }

  /** A block's handler may share a message with others only if it is stackable. */
  predicate Stackable(h: Handler, stackable: set<string>) {
    h.DefaultHandler? || h.fqcn in stackable
  }

  /** isValid: no blocks is invalid, one block is valid, several are valid when all handlers stack. */
  function IsValid(blocks: seq<Block>, stackable: set<string>): (r: bool)
    ensures |blocks| == 0 ==> !r
    ensures |blocks| == 1 ==> r
    ensures |blocks| > 1 ==> (r <==> forall k :: 0 <= k < |blocks| ==> Stackable(blocks[k].handler, stackable))
  {
    if |blocks| == 0 then false
    else if |blocks| == 1 then true
    else forall k :: 0 <= k < |blocks| ==> Stackable(blocks[k].handler, stackable)
  }

  /** A message none of whose later lines starts with a command forms one default block, which is valid. */
  lemma {:induction false} NoCommandsOneBlock(lines: seq<string>, quickPrefix: string, classes: seq<string>)
    requires |lines| > 0
    requires forall i :: 0 < i < |lines| ==> LineCommand(lines[i], quickPrefix, classes).None?
    ensures Groups(lines, quickPrefix, classes) == [(DefaultHandler, lines)]
    decreases |lines|
  {
    if |lines| > 1 {
      var init := lines[..|lines| - 1];
      NoCommandsOneBlock(init, quickPrefix, classes);
      assert init + [lines[|lines| - 1]] == lines;
    }
  }
}

=== FILE: message_info.dfy ===
/**
 * MessageInfo (src/RPCharacterBot/Common/MessageInfo.php): the context a
 * message is handled in. The asynchronous chain of fetches is modelled as one
 * pure resolution over the objects those fetches return, which are inputs here.
 */
module MessageInfos {
  import opened Wrappers
  import opened Values
  import opened Lifecycle
  import Characters
  import Guilds
  import Channels
  import Users
  import PairUsers

  /** The bot configuration: key to value. */
  type Config = map<string, string>

  /** Bot::getConfig: the configured value, or the given default when the key is absent. */
  function GetConfig(config: Config, key: string, default: string): string {
    if key in config then config[key] else default
  }

  /** The null-coalescing fallback to the configuration: only null falls back. */
  function OrConfig(value: Scalar, config: Config, key: string, default: string): (r: Scalar)
    ensures value != Null ==> r == value
    ensures value == Null && key in config ==> r == Text(config[key])
    ensures value == Null && key !in config ==> r == Text(default)
  {
    if value != Null then value else Text(GetConfig(config, key, default))
  }

  // ---------------------------------------------------------------------------
  // Default character

  /** fetchDefaultCharacter: the first character flagged default, else the first one, else none. */
  function DefaultCharacter(characters: seq<Characters.Character>): (r: Option<nat>)
    ensures r.None? <==> |characters| == 0
    ensures r.Some? ==> r.value < |characters|
    ensures r.Some? && characters[r.value].isDefault ==> forall j :: 0 <= j < r.value ==> !characters[j].isDefault
    ensures r.Some? && !characters[r.value].isDefault ==> r.value == 0 && forall j :: 0 <= j < |characters| ==> !characters[j].isDefault
  {
    if |characters| == 0 then None
    else
      match FirstDefault(characters)
      case Some(i) => Some(i)
      case None => Some(0)
  }

  function FirstDefault(characters: seq<Characters.Character>): (r: Option<nat>)
    ensures r.Some? ==> r.value < |characters| && characters[r.value].isDefault
    ensures r.Some? ==> forall j :: 0 <= j < r.value ==> !characters[j].isDefault
    ensures r.None? <==> forall j :: 0 <= j < |characters| ==> !characters[j].isDefault
    decreases |characters|
  {
    if |characters| == 0 then None
    else if characters[0].isDefault then Some(0)
    else
      match FirstDefault(characters[1..])
      case Some(i) => Some(i + 1)
      case None => None
  }

  /** A flagged character anywhere in the list is preferred to an unflagged first one. */
  lemma DefaultPrefersFlagged(characters: seq<Characters.Character>, k: nat)
    requires k < |characters| && characters[k].isDefault
    ensures DefaultCharacter(characters).Some?
    ensures characters[DefaultCharacter(characters).value].isDefault
    ensures DefaultCharacter(characters).value <= k
  {
  }

  // ---------------------------------------------------------------------------
  // Channel and webhook

  /** The first character whose id is `==` to the given id. */
  function FindById(characters: seq<Characters.Character>, id: Scalar): (r: Option<nat>)
    ensures r.Some? ==> r.value < |characters| && LooseEq(characters[r.value].id, id)
    ensures r.Some? ==> forall j :: 0 <= j < r.value ==> !LooseEq(characters[j].id, id)
    ensures r.None? <==> forall j :: 0 <= j < |characters| ==> !LooseEq(characters[j].id, id)
    decreases |characters|
  {
    if |characters| == 0 then None
    else if LooseEq(characters[0].id, id) then Some(0)
    else
      match FindById(characters[1..], id)
      case Some(i) => Some(i + 1)
      case None => None
  }

  /** The position of the last webhook whose id is `==` to the stored webhook id (the loop does not stop at a match). */
  function LastMatchingWebhook(webhookIds: seq<string>, stored: Scalar): (r: Option<nat>)
    ensures r.Some? ==> r.value < |webhookIds| && LooseEq(Text(webhookIds[r.value]), stored)
    ensures r.Some? ==> forall j :: r.value < j < |webhookIds| ==> !LooseEq(Text(webhookIds[j]), stored)
    ensures r.None? <==> forall j :: 0 <= j < |webhookIds| ==> !LooseEq(Text(webhookIds[j]), stored)
    decreases |webhookIds|
  {
    if |webhookIds| == 0 then None
    else if LooseEq(Text(webhookIds[|webhookIds| - 1]), stored) then Some(|webhookIds| - 1)
    else LastMatchingWebhook(webhookIds[..|webhookIds| - 1], stored)
  }

  /** What fetchChannelData and fetchChannelWebhookData decide about the channel. */
  datatype ChannelOutcome = ChannelOutcome(
    webhook: Option<string>,
    channel: Option<Tracked<Channels.Channel>>,
    isRPChannel: bool,
    deleted: Option<Tracked<Channels.Channel>>)

  /**
   * A channel known with a resolved webhook is an RP channel. A channel whose
   * webhook object is missing is an RP channel only if it is a text channel
   * that still has a webhook with the stored id (which is then attached);
   * if the text channel has no such webhook, the channel record is deleted.
   */
  function ResolveChannel(channel: Option<Tracked<Channels.Channel>>, isTextChannel: bool, webhookIds: seq<string>): (r: ChannelOutcome)
    ensures r.isRPChannel <==> r.channel.Some?
    ensures r.isRPChannel <==> r.webhook.Some?
    ensures r.isRPChannel <==>
      (channel.Some? && (channel.value.value.webhook.Some?
                         || (isTextChannel && LastMatchingWebhook(webhookIds, channel.value.value.webhookId).Some?)))
    ensures channel.None? ==> r == ChannelOutcome(None, None, false, None)
    ensures r.deleted.Some? <==> (channel.Some? && channel.value.value.webhook.None? && isTextChannel
                                  && LastMatchingWebhook(webhookIds, channel.value.value.webhookId).None?)
    ensures r.deleted.Some? ==> r.deleted.value.state == Deleted && !r.isRPChannel
    ensures r.isRPChannel ==> r.channel.value.value.webhook == r.webhook
    ensures r.isRPChannel ==> Channels.Column(r.channel.value.value, "id") == Channels.Column(channel.value.value, "id")
    ensures channel.Some? && channel.value.value.webhook.Some? ==>
      r == ChannelOutcome(channel.value.value.webhook, channel, true, None)
    ensures channel.Some? && channel.value.value.webhook.None? && !isTextChannel ==>
      r == ChannelOutcome(None, None, false, None)
    ensures channel.Some? && channel.value.value.webhook.None? && isTextChannel
            && LastMatchingWebhook(webhookIds, channel.value.value.webhookId).Some? ==>
      var hook := webhookIds[LastMatchingWebhook(webhookIds, channel.value.value.webhookId).value];
      r == ChannelOutcome(Some(hook), Some(Channels.SetWebhook(channel.value, hook)), true, None)
  {
    match channel
    case None => ChannelOutcome(None, None, false, None)
    case Some(ch) =>
      if ch.value.webhook.Some? then ChannelOutcome(ch.value.webhook, Some(ch), true, None)
      else if !isTextChannel then ChannelOutcome(None, None, false, None)
      else
        match LastMatchingWebhook(webhookIds, ch.value.webhookId)
        case None => ChannelOutcome(None, None, false, Some(MarkDeleted(ch)))
        case Some(i) =>
          var attached := Channels.SetWebhook(ch, webhookIds[i]);
          ChannelOutcome(Some(webhookIds[i]), Some(attached), true, None)
  }

  // ---------------------------------------------------------------------------
  // Per-guild or per-channel selection

  /** Which per-user settings the guild's setting selects: GUILD uses the guild, anything else the channel. */
  function SettingsScope(rpCharacterSetting: Scalar, channelKnown: bool): (r: Option<PairUsers.Scope>)
    ensures LooseEq(rpCharacterSetting, Num(Guilds.SettingGuild)) ==> r == Some(PairUsers.GuildScope)
    ensures !LooseEq(rpCharacterSetting, Num(Guilds.SettingGuild)) ==> r == (if channelKnown then Some(PairUsers.ChannelScope) else None)
  {
    if LooseEq(rpCharacterSetting, Num(Guilds.SettingGuild)) then Some(PairUsers.GuildScope)
    else if channelKnown then Some(PairUsers.ChannelScope)
    else None
  }

  /**
   * fetchSelectedCharacter: with no current character the stored id is cleared;
   * a stored id other than the current character's selects the first character
   * with that id, or, if there is none, is reset to the current character's id.
   */
  function SelectCharacter(characters: seq<Characters.Character>, current: Option<nat>, settings: Tracked<PairUsers.PairUser>)
    : (r: (Option<nat>, Tracked<PairUsers.PairUser>))
    requires current.Some? ==> current.value < |characters|
    ensures current.None? ==> r.0.None? && r.1 == PairUsers.Set(settings, PairUsers.DefaultCharacter, Null)
    ensures r.0.Some? ==> r.0.value < |characters|
    ensures current.Some? && LooseEq(settings.value.characterId, characters[current.value].id) ==> r == (current, settings)
    ensures current.Some? && FindById(characters, settings.value.characterId).None? ==>
      r == (current, PairUsers.Set(settings, PairUsers.DefaultCharacter, characters[current.value].id))
    ensures current.Some? && !LooseEq(settings.value.characterId, characters[current.value].id)
            && FindById(characters, settings.value.characterId).Some? ==>
      r == (FindById(characters, settings.value.characterId), settings)
  {
    match current
    case None => (None, PairUsers.Set(settings, PairUsers.DefaultCharacter, Null))
    case Some(cur) =>
      var selected := settings.value.characterId;
      if !LooseEq(selected, characters[cur].id) then
        match FindById(characters, selected)
        case None => (current, PairUsers.Set(settings, PairUsers.DefaultCharacter, characters[cur].id))
        case Some(i) => (Some(i), settings)
      else (current, settings)
  }

  /** After selection the stored id agrees (by `==`) with the selected character's id, or is null when there is none. */
  lemma SelectionAgrees(characters: seq<Characters.Character>, current: Option<nat>, settings: Tracked<PairUsers.PairUser>)
    requires current.Some? ==> current.value < |characters|
    ensures SelectCharacter(characters, current, settings).0.None? ==> SelectCharacter(characters, current, settings).1.value.characterId == Null
    ensures SelectCharacter(characters, current, settings).0.Some? ==>
      LooseEq(SelectCharacter(characters, current, settings).1.value.characterId,
              characters[SelectCharacter(characters, current, settings).0.value].id)
  {
    var r := SelectCharacter(characters, current, settings);
    if current.Some? && r.0.Some? {
      LooseEqIsEquivalenceLike(r.1.value.characterId, characters[r.0.value].id);
      LooseEqIsEquivalenceLike(characters[r.0.value].id, characters[r.0.value].id);
    }
  }

  /** Handling the next message with the settings the previous one left selects the same character and changes nothing more. */
  lemma SelectionIsStable(characters: seq<Characters.Character>, settings: Tracked<PairUsers.PairUser>)
    requires |characters| > 0
    ensures var first := SelectCharacter(characters, DefaultCharacter(characters), settings);
      SelectCharacter(characters, DefaultCharacter(characters), first.1).0 == first.0
  {
    var cur := DefaultCharacter(characters);
    var first := SelectCharacter(characters, cur, settings);
    var stored := first.1.value.characterId;
    if !LooseEq(settings.value.characterId, characters[cur.value].id) {
      match FindById(characters, settings.value.characterId)
      case None =>
        LooseEqIsEquivalenceLike(characters[cur.value].id, characters[cur.value].id);
      case Some(i) =>
        assert first.1 == settings;
    }
  }

  // ---------------------------------------------------------------------------
  // The whole resolution

  /** The objects the fetches deliver for one message. */
  datatype World = World(
    isDM: bool,
    guild: Guilds.Guild,
    channel: Option<Tracked<Channels.Channel>>,
    isTextChannel: bool,
    webhookIds: seq<string>,
    user: Users.User,
    characters: seq<Characters.Character>,
    guildUser: Tracked<PairUsers.PairUser>,
    channelUser: Tracked<PairUsers.PairUser>,
    config: Config)

  /** The resolved message context. */
  datatype Info = Info(
    isDM: bool,
    isRPChannel: bool,
    mainPrefix: Scalar,
    quickPrefix: Scalar,
    webhook: Option<string>,
    channel: Option<Tracked<Channels.Channel>>,
    deletedChannel: Option<Tracked<Channels.Channel>>,
    oocSequence: Scalar,
    currentCharacter: Option<nat>,
    settings: Option<Tracked<PairUsers.PairUser>>)

  /** parseMessage: guild, channel, user, characters, then the per-guild or per-channel selection. */
  function ParseMessage(w: World): (r: Info)
    ensures r.currentCharacter.Some? ==> r.currentCharacter.value < |w.characters|
    ensures r.currentCharacter.None? <==> |w.characters| == 0
    ensures r.oocSequence == OrConfig(w.user.oocPrefix, w.config, "oocPrefix", "//")
    ensures w.isDM ==> !r.isRPChannel && r.settings.None? && r.channel.None? && r.deletedChannel.None?
    ensures w.isDM ==> r.mainPrefix == Null && r.quickPrefix == Null && r.currentCharacter == DefaultCharacter(w.characters)
    ensures !w.isDM ==> r.mainPrefix == OrConfig(w.guild.mainPrefix, w.config, "mainCommandPrefix", "rp!")
    ensures !w.isDM ==> r.quickPrefix == OrConfig(w.guild.quickPrefix, w.config, "quickCommandPrefix", "..")
    ensures r.isRPChannel ==> r.webhook.Some? && r.channel.Some?
    ensures r.deletedChannel.Some? ==> !r.isRPChannel
    ensures r.settings.None? ==> r.currentCharacter == DefaultCharacter(w.characters)
    ensures r.settings.Some? && r.currentCharacter.Some? ==>
      LooseEq(r.settings.value.value.characterId, w.characters[r.currentCharacter.value].id)
    ensures !w.isDM ==> var ch := ResolveChannel(w.channel, w.isTextChannel, w.webhookIds);
      r.isRPChannel == ch.isRPChannel && r.webhook == ch.webhook && r.channel == ch.channel && r.deletedChannel == ch.deleted
    ensures !w.isDM ==> var ch := ResolveChannel(w.channel, w.isTextChannel, w.webhookIds);
      match SettingsScope(w.guild.rpCharacterSetting, ch.channel.Some?)
      case None => r.settings.None?
      case Some(scope) =>
        var selected := SelectCharacter(w.characters, DefaultCharacter(w.characters),
                                        if scope == PairUsers.GuildScope then w.guildUser else w.channelUser);
        r.currentCharacter == selected.0 && r.settings == Some(selected.1)
  {
    var ooc := OrConfig(w.user.oocPrefix, w.config, "oocPrefix", "//");
    var current := DefaultCharacter(w.characters);
    if w.isDM then
      Info(true, false, Null, Null, None, None, None, ooc, current, None)
    else
      var main := OrConfig(w.guild.mainPrefix, w.config, "mainCommandPrefix", "rp!");
      var quick := OrConfig(w.guild.quickPrefix, w.config, "quickCommandPrefix", "..");
      var ch := ResolveChannel(w.channel, w.isTextChannel, w.webhookIds);
      match SettingsScope(w.guild.rpCharacterSetting, ch.channel.Some?)
      case None => Info(false, ch.isRPChannel, main, quick, ch.webhook, ch.channel, ch.deleted, ooc, current, None)
      case Some(scope) =>
        var settings := if scope == PairUsers.GuildScope then w.guildUser else w.channelUser;
        var selected := SelectCharacter(w.characters, current, settings);
        SelectionAgrees(w.characters, current, settings);
        Info(false, ch.isRPChannel, main, quick, ch.webhook, ch.channel, ch.deleted, ooc, selected.0, Some(selected.1))
  }

  /** In a guild whose setting is GUILD, the guild's settings are used even outside any known channel. */
  lemma GuildSettingAlwaysSelects(w: World)
    requires !w.isDM && LooseEq(w.guild.rpCharacterSetting, Num(Guilds.SettingGuild))
    ensures ParseMessage(w).settings.Some?
    ensures ParseMessage(w).settings.value.value.scope == w.guildUser.value.scope
  {
  }

  /** With any other setting and no channel record, nothing is selected and no settings are touched. */
  lemma UnknownChannelSelectsNothing(w: World)
    requires !w.isDM && !LooseEq(w.guild.rpCharacterSetting, Num(Guilds.SettingGuild))
    requires w.channel.None?
    ensures ParseMessage(w).settings.None? && !ParseMessage(w).isRPChannel
    ensures ParseMessage(w).currentCharacter == DefaultCharacter(w.characters)
  {
  }
}

=== FILE: model_cache.dfy ===
/**
 * The per-class cache (src/RPCharacterBot/Common/Cache/ModelCache.php): an
 * ordered PHP array of query-keyed groups, promoted to the front on a hit,
 * bounded by a size whose overflow forces a write-back, swept for dirty
 * objects, and invalidated by object identity or by partial query key.
 *
 * The query string of a group is represented by the query itself: two queries
 * serialise to the same JSON text exactly when they are the same ordered list
 * of key/value pairs.
 */
module ModelCaches {
  import opened Wrappers
  import opened Values
  import opened Lifecycle
  import opened Entities
  import opened PhpArrays
  import opened CacheGroups
  import opened UpdateModels

  datatype ModelCache = ModelCache(cacheSize: int, cachePriority: int, groups: Arr<CacheGroup>)

  /** The groups in iteration order. */
  function Groups(mc: ModelCache): seq<CacheGroup> { Elements(mc.groups) }

  /** The constructor: size and priority as given, no groups. */
  function NewCache(cacheSize: int, cachePriority: int): (mc: ModelCache)
    ensures mc.cacheSize == cacheSize && mc.cachePriority == cachePriority
    ensures Dense(mc.groups) && Groups(mc) == []
  {
    ModelCache(cacheSize, cachePriority, Empty())
  }

  /** The position of the first group answering `key`, or the group count when there is none. */
  function FindGroup(gs: seq<CacheGroup>, key: Query): (i: nat)
    ensures i <= |gs|
    ensures i < |gs| ==> gs[i].queryString == key
    ensures forall j :: 0 <= j < i ==> gs[j].queryString != key
    decreases |gs|
  {
    if |gs| == 0 then 0 else if gs[0].queryString == key then 0 else 1 + FindGroup(gs[1..], key)
  }

  /**
   * getCacheGroupForQuery: the first group with an identical key. On a hit the
   * slot at the group's POSITION is unset and the group is put in front, which
   * renumbers the array.
   */
  function GetCacheGroupForQuery(mc: ModelCache, key: Query): (r: (ModelCache, Option<CacheGroup>))
    ensures r.0.cacheSize == mc.cacheSize && r.0.cachePriority == mc.cachePriority
    ensures r.1.None? <==> forall j :: 0 <= j < |Groups(mc)| ==> Groups(mc)[j].queryString != key
    ensures r.1.None? ==> r.0 == mc
    ensures r.1.Some? ==> r.1.value.queryString == key && r.1.value in Groups(mc)
    ensures r.1.Some? ==> Dense(r.0.groups) && |Groups(r.0)| > 0 && Groups(r.0)[0] == r.1.value
  {
    var gs := Groups(mc);
    var i := FindGroup(gs, key);
    if i == |gs| then (mc, None)
    else (mc.(groups := Unshift(Unset(mc.groups, i), gs[i])), Some(gs[i]))
  }

  /**
   * In a list-shaped array a hit moves the group to the front and keeps the
   * relative order of all the others; the count is unchanged.
   */
  lemma PromoteKeepsOthersInOrder(mc: ModelCache, key: Query)
    requires Dense(mc.groups)
    requires FindGroup(Groups(mc), key) < |Groups(mc)|
    ensures var i := FindGroup(Groups(mc), key);
      Groups(GetCacheGroupForQuery(mc, key).0) == [Groups(mc)[i]] + Groups(mc)[..i] + Groups(mc)[i + 1..]
  {
    var i := FindGroup(Groups(mc), key);
    DenseUnset(mc.groups, i);
  }

  /** getDbState() == DB_STATE_DELETED. */
  predicate IsDeleted(heap: Heap, h: Handle) {
    h in heap && heap[h].state == Deleted
  }

  /** The objects not marked DELETED, in order. */
  function Live(heap: Heap, s: seq<Handle>): (r: seq<Handle>)
    ensures |r| <= |s|
    ensures forall x :: x in r <==> x in s && !IsDeleted(heap, x)
    decreases |s|
  {
    if |s| == 0 then [] else (if IsDeleted(heap, s[0]) then [] else [s[0]]) + Live(heap, s[1..])
  }

  /** With nothing marked DELETED, every object of the group is returned, in order. */
  lemma {:induction false} LiveOfLiveIsAll(heap: Heap, s: seq<Handle>)
    requires forall i :: 0 <= i < |s| ==> !IsDeleted(heap, s[i])
    ensures Live(heap, s) == s
    decreases |s|
  {
    if |s| > 0 {
      LiveOfLiveIsAll(heap, s[1..]);
      assert [s[0]] + s[1..] == s;
    }
  }

  /** The filter keeps order: it distributes over concatenation. */
  lemma {:induction false} LiveAppend(heap: Heap, a: seq<Handle>, b: seq<Handle>)
    ensures Live(heap, a + b) == Live(heap, a) + Live(heap, b)
    decreases |a|
  {
    if |a| > 0 {
      assert (a + b)[1..] == a[1..] + b;
      LiveAppend(heap, a[1..], b);
      var head := if IsDeleted(heap, a[0]) then [] else [a[0]];
      assert Live(heap, a + b) == head + Live(heap, a[1..] + b);
      assert Live(heap, a) == head + Live(heap, a[1..]);
    } else {
      assert a + b == b;
    }
  }

  /**
   * getObjectsByQuery: null when no group has the key or when every object in
   * it is marked DELETED; otherwise the non-deleted objects of the group.
   */
  function GetObjectsByQuery(mc: ModelCache, heap: Heap, key: Query): (r: (ModelCache, Option<seq<Handle>>))
    ensures r.0 == GetCacheGroupForQuery(mc, key).0
    ensures (forall j :: 0 <= j < |Groups(mc)| ==> Groups(mc)[j].queryString != key) ==> r.1.None?
    ensures r.1.Some? ==> |r.1.value| > 0
    ensures r.1.Some? ==> forall k :: 0 <= k < |r.1.value| ==> !IsDeleted(heap, r.1.value[k])
    ensures r.1.Some? ==>
      exists g :: g in Groups(mc) && g.queryString == key && forall x :: x in r.1.value <==> x in g.cachedObjects && !IsDeleted(heap, x)
    ensures FindGroup(Groups(mc), key) == |Groups(mc)| ==> r.1.None?
    ensures var i := FindGroup(Groups(mc), key); i < |Groups(mc)| ==>
      r.1 == (var live := Live(heap, Groups(mc)[i].cachedObjects); if |live| > 0 then Some(live) else None)
  {
    var (mc', found) := GetCacheGroupForQuery(mc, key);
    if found.None? then (mc', None)
    else
      var live := Live(heap, found.value.cachedObjects);
      (mc', if |live| > 0 then Some(live) else None)
  }

  /** The answer of getObjectsByQuery in one piece: the first keyed group's live objects, or null. */
  lemma ObjectsAnswer(mc: ModelCache, heap: Heap, key: Query)
    ensures var i := FindGroup(Groups(mc), key);
      GetObjectsByQuery(mc, heap, key).1
        == (if i < |Groups(mc)| && |Live(heap, Groups(mc)[i].cachedObjects)| > 0
            then Some(Live(heap, Groups(mc)[i].cachedObjects)) else None)
  {
  }

  /** The result of addModelsToCache: the cache, the objects whose write-back was forced, and whether it threw. */
  datatype AddOutcome = AddOutcome(cache: ModelCache, forceSaved: seq<Handle>, crashed: bool)

  /**
   * The body of addModelsToCache. On a hit the models are merged into the group
   * now in front. On a miss a new group is appended; if the count then exceeds
   * the size, the group under KEY cacheSize is unset and its objects are saved,
   * and with `renumber` the array is then renumbered. When no group has that
   * key, PHP reads null and the call on it throws.
   */
  function AddWith(mc: ModelCache, heap: Heap, key: Query, models: seq<Handle>, renumber: bool): AddOutcome {
    if |models| == 0 then AddOutcome(mc, [], false)
    else
      var (promoted, found) := GetCacheGroupForQuery(mc, key);
      if found.Some? then
        var merged := AddObjects(found.value, heap, models);
        AddOutcome(promoted.(groups := FromValues([merged] + Groups(promoted)[1..])), [], false)
      else
        var appended := Push(mc.groups, CacheGroup(key, models));
        if Count(appended) > mc.cacheSize then
          match Get(appended, mc.cacheSize)
          case Some(dropped) =>
            var left := Unset(appended, mc.cacheSize);
            AddOutcome(mc.(groups := if renumber then ArrayValues(left) else left), dropped.cachedObjects, false)
          case None => AddOutcome(mc.(groups := appended), [], true)
        else AddOutcome(mc.(groups := appended), [], false)
  }

  /** addModelsToCache as written: the array is not renumbered after the overflow group is unset. */
  function AddModelsToCache(mc: ModelCache, heap: Heap, key: Query, models: seq<Handle>): (r: AddOutcome)
    ensures r.cache.cacheSize == mc.cacheSize && r.cache.cachePriority == mc.cachePriority
    ensures |models| == 0 ==> r == AddOutcome(mc, [], false)
    ensures r.crashed ==> |r.forceSaved| == 0 && Count(r.cache.groups) == Count(mc.groups) + 1
  {
    AddWith(mc, heap, key, models, false)
  }

  /** Under an existing key the group is promoted and merged into; the count is unchanged. */
  lemma AddUnderExistingKey(mc: ModelCache, heap: Heap, key: Query, models: seq<Handle>)
    requires Dense(mc.groups) && |models| > 0
    requires FindGroup(Groups(mc), key) < |Groups(mc)|
    ensures var i := FindGroup(Groups(mc), key);
      var r := AddModelsToCache(mc, heap, key, models);
      !r.crashed && r.forceSaved == [] && Dense(r.cache.groups)
      && Groups(r.cache) == [AddObjects(Groups(mc)[i], heap, models)] + Groups(mc)[..i] + Groups(mc)[i + 1..]
  {
    var gs := Groups(mc);
    var i := FindGroup(gs, key);
    PromoteKeepsOthersInOrder(mc, key);
    var (promoted, found) := GetCacheGroupForQuery(mc, key);
    var rest := gs[..i] + gs[i + 1..];
    assert Groups(promoted) == [gs[i]] + rest;
    assert found == Some(gs[i]) && Groups(promoted)[1..] == rest;
  }

  /** With list-shaped groups and a size of at least zero, adding never throws. */
  lemma DenseAddNeverThrows(mc: ModelCache, heap: Heap, key: Query, models: seq<Handle>)
    ensures Dense(mc.groups) && 0 <= mc.cacheSize ==> !AddModelsToCache(mc, heap, key, models).crashed
  {
    if Dense(mc.groups) {
      var appended := Push(mc.groups, CacheGroup(key, models));
      assert Dense(appended);
    }
  }

  /** Below capacity a new key is appended at the back. */
  lemma AddNewKeyBelowCapacity(mc: ModelCache, heap: Heap, key: Query, models: seq<Handle>)
    requires Dense(mc.groups) && |models| > 0 && |Groups(mc)| < mc.cacheSize
    requires FindGroup(Groups(mc), key) == |Groups(mc)|
    ensures var r := AddModelsToCache(mc, heap, key, models);
      !r.crashed && r.forceSaved == [] && Dense(r.cache.groups)
      && Groups(r.cache) == Groups(mc) + [CacheGroup(key, models)]
  {
  }

  /**
   * At capacity a new key is appended and at once dropped again, since it is the
   * group under key cacheSize: its models are force-saved and the groups are as
   * before. The array's next key, however, is now one past the count.
   */
  lemma AddNewKeyAtCapacity(mc: ModelCache, heap: Heap, key: Query, models: seq<Handle>)
    requires Dense(mc.groups) && |models| > 0 && |Groups(mc)| == mc.cacheSize
    requires FindGroup(Groups(mc), key) == |Groups(mc)|
    ensures var r := AddModelsToCache(mc, heap, key, models);
      !r.crashed && r.forceSaved == models
      && Groups(r.cache) == Groups(mc)
      && r.cache.groups.nextFree == mc.cacheSize + 1 && !Dense(r.cache.groups)
  {
    var appended := Push(mc.groups, CacheGroup(key, models));
    assert Dense(appended);
    DenseUnset(appended, mc.cacheSize);
    assert Elements(appended)[..mc.cacheSize] == Groups(mc);
  }

  /**
   * The consequence: two misses in a row on a full cache. The first drops its
   * own group; the second appends under key cacheSize + 1, finds no group under
   * key cacheSize and throws, leaving cacheSize + 1 groups behind.
   */
  lemma SecondOverflowThrows(mc: ModelCache, heap: Heap, key1: Query, models1: seq<Handle>, key2: Query, models2: seq<Handle>)
    requires Dense(mc.groups) && |Groups(mc)| == mc.cacheSize
    requires |models1| > 0 && |models2| > 0
    requires FindGroup(Groups(mc), key1) == |Groups(mc)| && FindGroup(Groups(mc), key2) == |Groups(mc)|
    ensures var first := AddModelsToCache(mc, heap, key1, models1);
      var second := AddModelsToCache(first.cache, heap, key2, models2);
      !first.crashed && second.crashed && Count(second.cache.groups) == mc.cacheSize + 1
  {
    AddNewKeyAtCapacity(mc, heap, key1, models1);
    var first := AddModelsToCache(mc, heap, key1, models1);
    DenseUnset(Push(mc.groups, CacheGroup(key1, models1)), mc.cacheSize);
    var gs := first.cache.groups;
    assert FindGroup(Groups(first.cache), key2) == |Groups(first.cache)|;
    var appended := Push(gs, CacheGroup(key2, models2));
    assert forall i :: 0 <= i < |gs.slots| ==> gs.slots[i].0 == i;
    assert appended.slots[|gs.slots|].0 == mc.cacheSize + 1;
    assert Get(appended, mc.cacheSize).None?;
  }

  /**
   * The evidently intended addModelsToCache: the same, but the array is
   * renumbered after the overflow group is unset, so the next append lands
   * under key cacheSize again.
   */
  function AddModelsToCacheReindexed(mc: ModelCache, heap: Heap, key: Query, models: seq<Handle>): (r: AddOutcome)
    ensures r.cache.cacheSize == mc.cacheSize && r.cache.cachePriority == mc.cachePriority
    ensures |models| == 0 ==> r == AddOutcome(mc, [], false)
    ensures var w := AddModelsToCache(mc, heap, key, models);
      r.forceSaved == w.forceSaved && r.crashed == w.crashed && Groups(r.cache) == Groups(w.cache)
  {
    AddWith(mc, heap, key, models, true)
  }

  /** The cache is a list of at most cacheSize groups. */
  predicate Bounded(mc: ModelCache) {
    Dense(mc.groups) && 0 <= mc.cacheSize && |Groups(mc)| <= mc.cacheSize
  }

  /**
   * With renumbering, every add keeps the bound and never throws; a miss on a
   * full cache saves exactly the models it was given and leaves the groups as
   * they were.
   */
  lemma ReindexedKeepsBound(mc: ModelCache, heap: Heap, key: Query, models: seq<Handle>)
    requires Bounded(mc)
    ensures var r := AddModelsToCacheReindexed(mc, heap, key, models);
      !r.crashed && Bounded(r.cache)
    ensures var r := AddModelsToCacheReindexed(mc, heap, key, models);
      |models| > 0 && FindGroup(Groups(mc), key) == |Groups(mc)| == mc.cacheSize
      ==> r.forceSaved == models && Groups(r.cache) == Groups(mc)
  {
    if |models| > 0 {
      if FindGroup(Groups(mc), key) < |Groups(mc)| {
        AddUnderExistingKey(mc, heap, key, models);
      } else if |Groups(mc)| < mc.cacheSize {
        AddNewKeyBelowCapacity(mc, heap, key, models);
      } else {
        var appended := Push(mc.groups, CacheGroup(key, models));
        DenseUnset(appended, mc.cacheSize);
        assert Elements(appended)[..mc.cacheSize] == Groups(mc);
      }
    }
  }

  /** The collected entries for one group's objects: one per non-CURRENT object, in order. */
  function PendingIn(heap: Heap, objects: seq<Handle>, priority: int): (r: seq<UpdateModel>)
    ensures forall u :: u in r ==> u.priority == priority && u.model in objects
    decreases |objects|
  {
    if |objects| == 0 then []
    else
      var last := objects[|objects| - 1];
      PendingIn(heap, objects[..|objects| - 1], priority)
      + (if last in heap && heap[last].state != Current then [UpdateModel(last, priority)] else [])
  }

  /** The collected entries for a list of groups, group by group. */
  function PendingAll(heap: Heap, gs: seq<CacheGroup>, priority: int): (r: seq<UpdateModel>)
    ensures forall u :: u in r ==> u.priority == priority
    decreases |gs|
  {
    if |gs| == 0 then []
    else PendingAll(heap, gs[..|gs| - 1], priority) + PendingIn(heap, gs[|gs| - 1].cachedObjects, priority)
  }

  /** An object gets an entry exactly when it is held by some group and is not CURRENT. */
  lemma {:induction false} PendingInMembers(heap: Heap, objects: seq<Handle>, priority: int, h: Handle)
    ensures UpdateModel(h, priority) in PendingIn(heap, objects, priority)
        <==> h in objects && h in heap && heap[h].state != Current
    decreases |objects|
  {
    if |objects| > 0 {
      var init := objects[..|objects| - 1];
      PendingInMembers(heap, init, priority, h);
      assert objects == init + [objects[|objects| - 1]];
    }
  }

  lemma {:induction false} PendingAllMembers(heap: Heap, gs: seq<CacheGroup>, priority: int, h: Handle)
    ensures UpdateModel(h, priority) in PendingAll(heap, gs, priority)
        <==> exists i :: 0 <= i < |gs| && h in gs[i].cachedObjects && h in heap && heap[h].state != Current
    decreases |gs|
  {
    if |gs| > 0 {
      var init := gs[..|gs| - 1];
      PendingAllMembers(heap, init, priority, h);
      PendingInMembers(heap, gs[|gs| - 1].cachedObjects, priority, h);
      if exists i :: 0 <= i < |gs| && h in gs[i].cachedObjects && h in heap && heap[h].state != Current {
        var i :| 0 <= i < |gs| && h in gs[i].cachedObjects && h in heap && heap[h].state != Current;
        if i < |gs| - 1 {
          assert init[i] == gs[i];
        }
      }
      if exists i :: 0 <= i < |init| && h in init[i].cachedObjects && h in heap && heap[h].state != Current {
        var i :| 0 <= i < |init| && h in init[i].cachedObjects && h in heap && heap[h].state != Current;
        assert gs[i] == init[i];
      }
    }
  }

  /** The inner loop of collectRequiredUpdates: one group's objects. */
  method CollectFromGroup(heap: Heap, objects: seq<Handle>, priority: int, queued: seq<UpdateModel>) returns (out: seq<UpdateModel>)
    ensures out == queued + PendingIn(heap, objects, priority)
  {
    out := queued;
    var j := 0;
    while j < |objects|
      invariant 0 <= j <= |objects|
      invariant out == queued + PendingIn(heap, objects[..j], priority)
    {
      var h := objects[j];
      assert objects[..j + 1][..j] == objects[..j];
      if h in heap && heap[h].state != Current {
        out := out + [UpdateModel(h, priority)];
      }
      j := j + 1;
    }
    assert objects[..j] == objects;
  }

  /** One more group adds that group's pending entries at the end. */
  lemma PendingAllStep(heap: Heap, gs: seq<CacheGroup>, i: nat, priority: int)
    requires i < |gs|
    ensures PendingAll(heap, gs[..i + 1], priority) == PendingAll(heap, gs[..i], priority) + PendingIn(heap, gs[i].cachedObjects, priority)
  {
    assert gs[..i + 1][..i] == gs[..i];
  }

  /**
   * collectRequiredUpdates: appends to the queue, group by group and object by
   * object, one entry with the cache's priority for every object that is not
   * CURRENT; the entries already queued stay in front.
   */
  method CollectRequiredUpdates(mc: ModelCache, heap: Heap, queued: seq<UpdateModel>) returns (out: seq<UpdateModel>)
    ensures out == queued + PendingAll(heap, Groups(mc), mc.cachePriority)
  {
    var gs := Groups(mc);
    out := queued;
    var i := 0;
    while i < |gs|
      invariant 0 <= i <= |gs|
      invariant out == queued + PendingAll(heap, gs[..i], mc.cachePriority)
    {
      ghost var done := PendingAll(heap, gs[..i], mc.cachePriority);
      ghost var next := PendingIn(heap, gs[i].cachedObjects, mc.cachePriority);
      PendingAllStep(heap, gs, i, mc.cachePriority);
      out := CollectFromGroup(heap, gs[i].cachedObjects, mc.cachePriority, out);
      assert out == queued + (done + next);
      i := i + 1;
    }
    assert gs[..i] == gs;
  }

  /** The group with the object removed (CacheGroup::delete applied to every group). */
  function StripAll(mc: ModelCache, h: Handle): Arr<CacheGroup> {
    MapValues(mc.groups, g => Delete(g, h).0)
  }

  predicate IsEmptyGroup(g: CacheGroup) { |g.cachedObjects| == 0 }

  predicate IsNonEmptyGroup(g: CacheGroup) { |g.cachedObjects| > 0 }

  /**
   * delete: the object is removed from every group; the groups left
   * empty are unset by their position and, if there were any, the array is
   * renumbered.
   */
  function DeleteObject(mc: ModelCache, h: Handle): (r: ModelCache)
    ensures r.cacheSize == mc.cacheSize && r.cachePriority == mc.cachePriority
    ensures forall g :: g in Groups(r) ==> h !in g.cachedObjects
  {
    var stripped := StripAll(mc, h);
    var empties := Positions(Elements(stripped), IsEmptyGroup);
    if |empties| == 0 then mc.(groups := stripped)
    else
      UnsetAllKeepsValues(stripped, empties);
      mc.(groups := ArrayValues(UnsetAll(stripped, empties)))
  }

  /**
   * In a list-shaped cache, delete leaves exactly the groups that still hold
   * something once the object is removed, in their order, as a list.
   */
  lemma DeleteKeepsNonEmptyGroups(mc: ModelCache, h: Handle)
    requires Dense(mc.groups)
    ensures Dense(DeleteObject(mc, h).groups)
    ensures Groups(DeleteObject(mc, h)) == Filter(Elements(StripAll(mc, h)), IsNonEmptyGroup)
  {
    var stripped := StripAll(mc, h);
    var empties := Positions(Elements(stripped), IsEmptyGroup);
    if |empties| == 0 {
      FilterAllKept(Elements(stripped), IsNonEmptyGroup);
    } else {
      DenseUnsetPositions(stripped, IsEmptyGroup, IsNonEmptyGroup);
    }
  }

  /**
   * A group matches a sub-query when its decoded key has every key of the
   * sub-query, with a loosely equal value.
   */
  predicate Matches(key: Query, sub: Query) {
    forall i :: 0 <= i < |sub| ==> QueryHas(key, sub[i].0) && LooseEq(QueryGet(key, sub[i].0), sub[i].1)
  }

  function MatchedBy(sub: Query): CacheGroup -> bool {
    (g: CacheGroup) => Matches(g.queryString, sub)
  }

  function UnmatchedBy(sub: Query): CacheGroup -> bool {
    (g: CacheGroup) => !Matches(g.queryString, sub)
  }

  /** uncache: the matching groups are unset by position and the array renumbered; nothing is saved. */
  function Uncache(mc: ModelCache, sub: Query): (r: ModelCache)
    ensures r.cacheSize == mc.cacheSize && r.cachePriority == mc.cachePriority
    ensures forall g :: g in Groups(r) ==> g in Groups(mc)
  {
    var matched := Positions(Groups(mc), MatchedBy(sub));
    if |matched| == 0 then mc
    else
      UnsetAllKeepsValues(mc.groups, matched);
      mc.(groups := ArrayValues(UnsetAll(mc.groups, matched)))
  }

  /** Uncache keeps exactly the unmatched groups of a list-shaped cache; stated for a cache of any shape. */
  lemma UncacheFiltersWhenDense(mc: ModelCache, sub: Query)
    ensures Dense(mc.groups) ==> Groups(Uncache(mc, sub)) == Filter(Groups(mc), UnmatchedBy(sub))
  {
    if Dense(mc.groups) {
      UncacheRemovesExactlyMatches(mc, sub);
    }
  }

  /** In a list-shaped cache, uncache leaves exactly the groups that do not match, in order, as a list. */
  lemma UncacheRemovesExactlyMatches(mc: ModelCache, sub: Query)
    requires Dense(mc.groups)
    ensures Dense(Uncache(mc, sub).groups)
    ensures Groups(Uncache(mc, sub)) == Filter(Groups(mc), UnmatchedBy(sub))
  {
    var matched := Positions(Groups(mc), MatchedBy(sub));
    if |matched| == 0 {
      FilterAllKept(Groups(mc), UnmatchedBy(sub));
    } else {
      DenseUnsetPositions(mc.groups, MatchedBy(sub), UnmatchedBy(sub));
    }
  }

  /** An empty sub-query matches every group, so it empties the cache. */
  lemma EmptySubQueryClearsAll(mc: ModelCache)
    requires Dense(mc.groups)
    ensures Groups(Uncache(mc, [])) == []
  {
    UncacheRemovesExactlyMatches(mc, []);
    FilterNoneKept(Groups(mc), UnmatchedBy([]));
  }
}

=== FILE: pair_users.dfy ===
/**
 * The per-scope character selection of a user: GuildUser, ChannelUser and
 * ThreadUser (src/RPCharacterBot/Model/GuildUser.php, ChannelUser.php,
 * ThreadUser.php). The three classes are identical apart from the scope column,
 * the table, and the number of placeholders in the insert.
 */
module PairUsers {
  import opened Values
  import opened Db
  import opened Lifecycle

  datatype Scope = GuildScope | ChannelScope | ThreadScope

  /** Every pair class caches with priority 3. */
  const Priority: int := 3

  function ConfigName(s: Scope): string {
    match s
    case GuildScope => "guild_users"
    case ChannelScope => "channel_users"
    case ThreadScope => "thread_users"
  }

  function Table(s: Scope): string { ConfigName(s) }

  function ScopeColumn(s: Scope): string {
    match s
    case GuildScope => "guild_id"
    case ChannelScope => "channel_id"
    case ThreadScope => "thread_id"
  }

  /** The `(?, ?, ?)` of the GuildUser and ChannelUser inserts, and ThreadUser's `(?, ?, ?, ?)`. */
  function InsertPlaceholders(s: Scope): nat {
    if s == ThreadScope then 4 else 3
  }

  datatype PairUser = PairUser(scope: Scope, scopeId: Scalar, userId: Scalar, characterId: Scalar, formerCharacterId: Scalar)

  function Columns(s: Scope): seq<string> {
    [ScopeColumn(s), "user_id", "character_id", "former_character_id"]
  }

  function Column(p: PairUser, col: string): Scalar {
    if col == ScopeColumn(p.scope) then p.scopeId
    else if col == "user_id" then p.userId
    else if col == "character_id" then p.characterId
    else if col == "former_character_id" then p.formerCharacterId
    else Null
  }

  function ToRow(p: PairUser): Row {
    map col | col in Columns(p.scope) :: Column(p, col)
  }

  function FromDbResult(s: Scope, row: Row): (p: PairUser)
    ensures p.scope == s
    ensures forall col :: col in Columns(s) ==> Column(p, col) == RowGet(row, col)
  {
    PairUser(s, RowGet(row, ScopeColumn(s)), RowGet(row, "user_id"), RowGet(row, "character_id"), RowGet(row, "former_character_id"))
  }

  lemma RowRoundTrip(p: PairUser)
    ensures FromDbResult(p.scope, ToRow(p)) == p
  {
    var row := ToRow(p);
    assert RowGet(row, ScopeColumn(p.scope)) == p.scopeId;
    assert RowGet(row, "user_id") == p.userId;
    assert RowGet(row, "character_id") == p.characterId;
    assert RowGet(row, "former_character_id") == p.formerCharacterId;
  }

  /** A new row takes the scope id and user id from the query; no character is selected yet. */
  function CreateNewFromQuery(s: Scope, q: Query): (p: PairUser)
    ensures p.scope == s
    ensures Column(p, ScopeColumn(s)) == QueryGet(q, ScopeColumn(s)) && Column(p, "user_id") == QueryGet(q, "user_id")
    ensures p.characterId == Null && p.formerCharacterId == Null
  {
    PairUser(s, QueryGet(q, ScopeColumn(s)), QueryGet(q, "user_id"), Null, Null)
  }

  /** The fetch filters on user_id first, then the scope column. */
  function FetchQuery(s: Scope, q: Query): (r: DBQuery)
    ensures r.sql.Select? && r.sql.Table() == Table(s) && r.sql.Columns() == ["user_id", ScopeColumn(s)]
    ensures r.WellFormed() && r.Binds(col => QueryGet(q, col))
  {
    DBQuery(Select(Table(s), ["user_id", ScopeColumn(s)]), [QueryGet(q, "user_id"), QueryGet(q, ScopeColumn(s))])
  }

  /**
   * The insert names the four columns and passes four values, but only the
   * ThreadUser statement has four placeholders.
   */
  function InsertStatement(p: PairUser): (r: DBQuery)
    ensures r.sql.Insert? && r.sql.Table() == Table(p.scope) && r.sql.Columns() == Columns(p.scope)
    ensures r.Binds(col => Column(p, col)) && |r.parameters| == 4
    ensures r.WellFormed() <==> p.scope == ThreadScope
  {
    DBQuery(Insert(Table(p.scope), Columns(p.scope), InsertPlaceholders(p.scope)),
      [p.scopeId, p.userId, p.characterId, p.formerCharacterId])
  }

  function UpdateStatement(p: PairUser): (r: DBQuery)
    ensures r.sql.Update? && r.sql.Table() == Table(p.scope)
    ensures r.sql.setColumns == ["character_id", "former_character_id"]
    ensures r.sql.whereColumns == [ScopeColumn(p.scope), "user_id"]
    ensures r.WellFormed() && r.Binds(col => Column(p, col))
  {
    DBQuery(Update(Table(p.scope), ["character_id", "former_character_id"], [ScopeColumn(p.scope), "user_id"]),
      [p.characterId, p.formerCharacterId, p.scopeId, p.userId])
  }

  function DeleteStatement(p: PairUser): (r: DBQuery)
    ensures r.sql.Delete? && r.sql.Table() == Table(p.scope) && r.sql.Columns() == [ScopeColumn(p.scope), "user_id"]
    ensures r.WellFormed() && r.Binds(col => Column(p, col))
  {
    DBQuery(Delete(Table(p.scope), [ScopeColumn(p.scope), "user_id"]), [p.scopeId, p.userId])
  }

  /**
   * A row created from a query is updated and deleted under the same key values
   * the query selects by, even though the fetch names them in the other order.
   */
  lemma NewRowKeyedByItsQuery(s: Scope, q: Query)
    ensures DeleteStatement(CreateNewFromQuery(s, q)).parameters
         == [FetchQuery(s, q).parameters[1], FetchQuery(s, q).parameters[0]]
    ensures UpdateStatement(CreateNewFromQuery(s, q)).parameters[2..]
         == DeleteStatement(CreateNewFromQuery(s, q)).parameters
  {
  }

  datatype Field = DefaultCharacter | FormerCharacter

  function FieldColumn(f: Field): string {
    match f
    case DefaultCharacter => "character_id"
    case FormerCharacter => "former_character_id"
  }

  /**
   * setDefaultCharacterId / setFormerCharacterId: mark UPDATED if CURRENT, then
   * assign the field.
   */
  function Set(o: Tracked<PairUser>, f: Field, v: Scalar): (r: Tracked<PairUser>)
    ensures Column(r.value, FieldColumn(f)) == v
    ensures forall col :: col != FieldColumn(f) ==> Column(r.value, col) == Column(o.value, col)
    ensures r.value.scope == o.value.scope
    ensures o.state == Current ==> r.state == Updated
    ensures o.state != Current ==> r.state == o.state
  {
    var marked := Tracked(SetUpdateState(o.state, Updated), o.value);
    match f
    case DefaultCharacter => Tracked(marked.state, marked.value.(characterId := v))
    case FormerCharacter => Tracked(marked.state, marked.value.(formerCharacterId := v))
  }

  /** The sub-query ThreadUser::uncacheByUserId invalidates with. */
  function UncacheByUserIdQuery(id: Scalar): (sub: Query)
    ensures QueryHas(sub, "user_id") && QueryGet(sub, "user_id") == id && |sub| == 1
  {
    var sub := [("user_id", id)];
    assert sub[0].0 == "user_id";
    sub
  }

  predicate LooseSame(a: PairUser, b: PairUser) {
    a.scope == b.scope && LooseEq(a.scopeId, b.scopeId) && LooseEq(a.userId, b.userId)
    && LooseEq(a.characterId, b.characterId) && LooseEq(a.formerCharacterId, b.formerCharacterId)
  }
}

=== FILE: php_array.dfy ===
/**
 * A PHP array with integer keys, as ModelCache uses one for its groups: the
 * slots in iteration order, each with its key, and the key the next keyless append
 * will use. `unset` removes a key without renumbering and without lowering the
 * next key; `array_unshift` and `array_values` renumber from 0.
 */
module PhpArrays {
  import opened Wrappers

  datatype Arr<T> = Arr(slots: seq<(int, T)>, nextFree: int)

  function Empty<T>(): (a: Arr<T>)
    ensures Dense(a) && Elements(a) == []
  {
    Arr([], 0)
  }

  /** count: the number of slots. */
  function Count<T>(a: Arr<T>): nat { |a.slots| }

  /** The values in iteration (foreach) order. */
  function Elements<T>(a: Arr<T>): (vs: seq<T>)
    ensures |vs| == |a.slots|
    ensures forall i :: 0 <= i < |a.slots| ==> vs[i] == a.slots[i].1
  {
    seq(|a.slots|, i requires 0 <= i < |a.slots| => a.slots[i].1)
  }

  /** Keys 0 .. n-1 in order, and the next append lands at n: a list in PHP's sense. */
  predicate Dense<T>(a: Arr<T>) {
    a.nextFree == |a.slots| && forall i :: 0 <= i < |a.slots| ==> a.slots[i].0 == i
  }

  /** The list holding `vs` at keys 0 .. |vs|-1. */
  function FromValues<T>(vs: seq<T>): (a: Arr<T>)
    ensures Dense(a) && Elements(a) == vs
  {
    Arr(seq(|vs|, i requires 0 <= i < |vs| => (i, vs[i])), |vs|)
  }

  /** A list is determined by its values. */
  lemma DenseIsFromValues<T>(a: Arr<T>)
    requires Dense(a)
    ensures a == FromValues(Elements(a))
  {
    var b := FromValues(Elements(a));
    assert |a.slots| == |b.slots|;
    forall i | 0 <= i < |a.slots| ensures a.slots[i] == b.slots[i] {
    }
  }

  /** Appending without a key: the value goes under the next key. */
  function Push<T>(a: Arr<T>, x: T): (r: Arr<T>)
    ensures Elements(r) == Elements(a) + [x]
    ensures Dense(a) ==> Dense(r)
  {
    Arr(a.slots + [(a.nextFree, x)], a.nextFree + 1)
  }

  /** Reading key k: the value under it, or None (PHP reads null) when k is absent. */
  function Get<T>(a: Arr<T>, k: int): (r: Option<T>)
    ensures r.Some? <==> exists i :: 0 <= i < |a.slots| && a.slots[i].0 == k
    ensures Dense(a) ==> r == (if 0 <= k < |a.slots| then Some(a.slots[k].1) else None)
  {
    var i := FirstKey(a.slots, k);
    if i < |a.slots| then Some(a.slots[i].1) else None
  }

  /** The position of the first entry with key k, or |s| if none. */
  function FirstKey<K(==), T>(s: seq<(K, T)>, k: K): (i: nat)
    ensures i <= |s|
    ensures i < |s| ==> s[i].0 == k
    ensures forall j :: 0 <= j < i ==> s[j].0 != k
    decreases |s|
  {
    if |s| == 0 then 0 else if s[0].0 == k then 0 else 1 + FirstKey(s[1..], k)
  }

  /** The slots without those under key k. */
  function RemoveKey<T>(s: seq<(int, T)>, k: int): (r: seq<(int, T)>)
    ensures |r| <= |s|
    decreases |s|
  {
    if |s| == 0 then [] else (if s[0].0 == k then [] else [s[0]]) + RemoveKey(s[1..], k)
  }

  /** unset of key k: keys are not renumbered and the next key stays where it was. */
  function Unset<T>(a: Arr<T>, k: int): (r: Arr<T>)
    ensures r.nextFree == a.nextFree
    ensures |r.slots| <= |a.slots|
  {
    Arr(RemoveKey(a.slots, k), a.nextFree)
  }

  /** array_unshift: x first, then the values, renumbered from 0. */
  function Unshift<T>(a: Arr<T>, x: T): (r: Arr<T>)
    ensures Dense(r) && Elements(r) == [x] + Elements(a)
  {
    FromValues([x] + Elements(a))
  }

  /** array_values: the values renumbered from 0. */
  function ArrayValues<T>(a: Arr<T>): (r: Arr<T>)
    ensures Dense(r) && Elements(r) == Elements(a)
  {
    FromValues(Elements(a))
  }

  /** Removing an absent key changes nothing. */
  lemma {:induction false} RemoveAbsentKey<T>(s: seq<(int, T)>, k: int)
    requires forall i :: 0 <= i < |s| ==> s[i].0 != k
    ensures RemoveKey(s, k) == s
    decreases |s|
  {
    if |s| > 0 {
      RemoveAbsentKey(s[1..], k);
      assert [s[0]] + s[1..] == s;
    }
  }

  /** In slots numbered base, base+1, ..., removing key base+j removes exactly position j. */
  lemma {:induction false} RemoveNumberedKey<T>(s: seq<(int, T)>, base: int, j: nat)
    requires forall i :: 0 <= i < |s| ==> s[i].0 == base + i
    requires j < |s|
    ensures RemoveKey(s, base + j) == s[..j] + s[j + 1..]
    decreases |s|
  {
    var t := s[1..];
    assert forall i :: 0 <= i < |t| ==> t[i].0 == (base + 1) + i;
    if j == 0 {
      RemoveAbsentKey(t, base);
      assert RemoveKey(s, base) == [] + RemoveKey(t, base);
      assert s[..0] + s[1..] == t;
    } else {
      assert s[0].0 != base + j;
      RemoveNumberedKey(t, base + 1, j - 1);
      assert RemoveKey(s, base + j) == [s[0]] + RemoveKey(t, base + j);
      assert t[..j - 1] == s[1..j] && t[j..] == s[j + 1..];
      assert [s[0]] + (s[1..j] + s[j + 1..]) == s[..j] + s[j + 1..];
    }
  }

  /** In a list, unsetting position k removes that value and keeps the others in order. */
  lemma DenseUnset<T>(a: Arr<T>, k: int)
    requires Dense(a) && 0 <= k < |a.slots|
    ensures Elements(Unset(a, k)) == Elements(a)[..k] + Elements(a)[k + 1..]
    ensures Unset(a, k).nextFree == |a.slots|
    ensures forall i :: 0 <= i < k ==> Unset(a, k).slots[i].0 == i
  {
    RemoveNumberedKey(a.slots, 0, k);
    var r := Unset(a, k);
    assert r.slots == a.slots[..k] + a.slots[k + 1..];
    assert |Elements(r)| == |Elements(a)[..k] + Elements(a)[k + 1..]|;
    forall i | 0 <= i < |Elements(r)| ensures Elements(r)[i] == (Elements(a)[..k] + Elements(a)[k + 1..])[i] {
      if i < k {
      } else {
        assert r.slots[i] == a.slots[i + 1];
      }
    }
  }

  /** In a list, unsetting a key outside 0 .. n-1 changes nothing. */
  lemma DenseUnsetAbsent<T>(a: Arr<T>, k: int)
    requires Dense(a) && !(0 <= k < |a.slots|)
    ensures Unset(a, k) == a
  {
    RemoveAbsentKey(a.slots, k);
  }

  /** Every value replaced by f(value), under the same keys (a foreach that mutates each object). */
  function MapValues<T>(a: Arr<T>, f: T -> T): (r: Arr<T>)
    ensures |r.slots| == |a.slots| && r.nextFree == a.nextFree
    ensures forall i :: 0 <= i < |a.slots| ==> r.slots[i] == (a.slots[i].0, f(a.slots[i].1))
    ensures Dense(a) ==> Dense(r)
  {
    Arr(seq(|a.slots|, i requires 0 <= i < |a.slots| => (a.slots[i].0, f(a.slots[i].1))), a.nextFree)
  }

  /** unset applied to each key of ks in turn. */
  function UnsetAll<T>(a: Arr<T>, ks: seq<int>): (r: Arr<T>)
    ensures r.nextFree == a.nextFree
    decreases |ks|
  {
    if |ks| == 0 then a else UnsetAll(Unset(a, ks[0]), ks[1..])
  }

  /** The slots whose key is not listed. */
  function DropKeys<T>(s: seq<(int, T)>, ks: seq<int>): seq<(int, T)>
    decreases |s|
  {
    if |s| == 0 then [] else (if s[0].0 in ks then [] else [s[0]]) + DropKeys(s[1..], ks)
  }

  lemma {:induction false} DropKeysAfterRemove<T>(s: seq<(int, T)>, k: int, ks: seq<int>)
    ensures DropKeys(RemoveKey(s, k), ks) == DropKeys(s, [k] + ks)
    decreases |s|
  {
    if |s| > 0 {
      DropKeysAfterRemove(s[1..], k, ks);
      var head: seq<(int, T)> := if s[0].0 == k then [] else [s[0]];
      assert RemoveKey(s, k) == head + RemoveKey(s[1..], k);
      DropKeysAppend(head, RemoveKey(s[1..], k), ks);
      if s[0].0 != k {
        assert DropKeys(head, ks) == (if s[0].0 in ks then [] else [s[0]]) + DropKeys([], ks);
      }
    }
  }

  lemma {:induction false} DropKeysAppend<T>(s: seq<(int, T)>, t: seq<(int, T)>, ks: seq<int>)
    ensures DropKeys(s + t, ks) == DropKeys(s, ks) + DropKeys(t, ks)
    decreases |s|
  {
    if |s| == 0 {
      assert s + t == t;
    } else {
      assert (s + t)[0] == s[0] && (s + t)[1..] == s[1..] + t;
      DropKeysAppend(s[1..], t, ks);
      var head: seq<(int, T)> := if s[0].0 in ks then [] else [s[0]];
      assert head + (DropKeys(s[1..], ks) + DropKeys(t, ks)) == (head + DropKeys(s[1..], ks)) + DropKeys(t, ks);
    }
  }

  /** Unsetting a list of keys one by one removes exactly the slots under those keys. */
  lemma {:induction false} UnsetAllIsDropKeys<T>(a: Arr<T>, ks: seq<int>)
    ensures UnsetAll(a, ks) == Arr(DropKeys(a.slots, ks), a.nextFree)
    decreases |ks|
  {
    if |ks| == 0 {
      DropNoKeys(a.slots);
    } else {
      UnsetAllIsDropKeys(Unset(a, ks[0]), ks[1..]);
      DropKeysAfterRemove(a.slots, ks[0], ks[1..]);
      assert [ks[0]] + ks[1..] == ks;
    }
  }

  lemma {:induction false} DropNoKeys<T>(s: seq<(int, T)>)
    ensures DropKeys(s, []) == s
    decreases |s|
  {
    if |s| > 0 {
      DropNoKeys(s[1..]);
      assert [s[0]] + s[1..] == s;
    }
  }

  /** The elements satisfying keep, in order. */
  function Filter<T>(s: seq<T>, keep: T -> bool): (r: seq<T>)
    ensures |r| <= |s|
    ensures forall i :: 0 <= i < |r| ==> keep(r[i])
    decreases |s|
  {
    if |s| == 0 then [] else (if keep(s[0]) then [s[0]] else []) + Filter(s[1..], keep)
  }

  /** The positions, in increasing order, of the elements satisfying p (the delete loop's list of positions to unset). */
  function Positions<T>(s: seq<T>, p: T -> bool): (r: seq<int>)
    ensures forall k :: k in r <==> 0 <= k < |s| && p(s[k])
    decreases |s|
  {
    if |s| == 0 then [] else Positions(s[..|s| - 1], p) + (if p(s[|s| - 1]) then [|s| - 1] else [])
  }

  /** Dropping keys from slots whose keys mark exactly the unwanted values filters the values. */
  lemma {:induction false} DropMarkedSlots<T>(s: seq<(int, T)>, ks: seq<int>, keep: T -> bool)
    requires forall i :: 0 <= i < |s| ==> (s[i].0 in ks <==> !keep(s[i].1))
    ensures SlotValues(DropKeys(s, ks)) == Filter(SlotValues(s), keep)
    decreases |s|
  {
    if |s| > 0 {
      DropMarkedSlots(s[1..], ks, keep);
      var head: seq<(int, T)> := if s[0].0 in ks then [] else [s[0]];
      SlotValuesAppend(head, DropKeys(s[1..], ks));
      assert SlotValues(s)[0] == s[0].1 && SlotValues(s)[1..] == SlotValues(s[1..]);
    }
  }

  function SlotValues<T>(s: seq<(int, T)>): (vs: seq<T>)
    ensures |vs| == |s| && forall i :: 0 <= i < |s| ==> vs[i] == s[i].1
  {
    seq(|s|, i requires 0 <= i < |s| => s[i].1)
  }

  lemma SlotValuesAppend<T>(s: seq<(int, T)>, t: seq<(int, T)>)
    ensures SlotValues(s + t) == SlotValues(s) + SlotValues(t)
  {
  }

  /**
   * In a list, unsetting the positions of the values satisfying p and then
   * renumbering (array_values) leaves the other values, in order.
   */
  lemma DenseUnsetPositions<T>(a: Arr<T>, p: T -> bool, keep: T -> bool)
    requires Dense(a)
    requires forall x :: keep(x) <==> !p(x)
    ensures Elements(ArrayValues(UnsetAll(a, Positions(Elements(a), p)))) == Filter(Elements(a), keep)
  {
    var ks := Positions(Elements(a), p);
    UnsetAllIsDropKeys(a, ks);
    DropMarkedSlots(a.slots, ks, keep);
    assert Elements(a) == SlotValues(a.slots);
    assert Elements(UnsetAll(a, ks)) == SlotValues(DropKeys(a.slots, ks));
  }

  /** Filtering keeps everything when every element is kept. */
  lemma {:induction false} FilterAllKept<T>(s: seq<T>, keep: T -> bool)
    requires forall i :: 0 <= i < |s| ==> keep(s[i])
    ensures Filter(s, keep) == s
    decreases |s|
  {
    if |s| > 0 {
      FilterAllKept(s[1..], keep);
      assert [s[0]] + s[1..] == s;
    }
  }

  /** An element is kept exactly when it was there and passes. */
  lemma {:induction false} FilterMembers<T>(s: seq<T>, keep: T -> bool, x: T)
    ensures x in Filter(s, keep) <==> x in s && keep(x)
    decreases |s|
  {
    if |s| > 0 {
      FilterMembers(s[1..], keep, x);
      assert s == [s[0]] + s[1..];
    }
  }

  /** Filtering a list with one more element at the end. */
  lemma {:induction false} FilterSnoc<T>(s: seq<T>, x: T, keep: T -> bool)
    ensures Filter(s + [x], keep) == Filter(s, keep) + (if keep(x) then [x] else [])
    decreases |s|
  {
    if |s| == 0 {
      assert [x][1..] == [];
    } else {
      assert (s + [x])[1..] == s[1..] + [x];
      FilterSnoc(s[1..], x, keep);
    }
  }

  /** Filtering keeps nothing when no element is kept. */
  lemma {:induction false} FilterNoneKept<T>(s: seq<T>, keep: T -> bool)
    requires forall i :: 0 <= i < |s| ==> !keep(s[i])
    ensures Filter(s, keep) == []
    decreases |s|
  {
    if |s| > 0 {
      FilterNoneKept(s[1..], keep);
    }
  }

  /** Unsetting keys only ever removes values. */
  lemma UnsetAllKeepsValues<T>(a: Arr<T>, ks: seq<int>)
    ensures forall x :: x in Elements(UnsetAll(a, ks)) ==> x in Elements(a)
  {
    UnsetAllIsDropKeys(a, ks);
    DropKeysSubset(a.slots, ks);
    forall x | x in Elements(UnsetAll(a, ks)) ensures x in Elements(a) {
      var b := UnsetAll(a, ks);
      var i :| 0 <= i < |b.slots| && Elements(b)[i] == x;
      assert b.slots[i] in a.slots;
      var j :| 0 <= j < |a.slots| && a.slots[j] == b.slots[i];
      assert Elements(a)[j] == x;
    }
  }

  lemma {:induction false} DropKeysSubset<T>(s: seq<(int, T)>, ks: seq<int>)
    ensures forall p :: p in DropKeys(s, ks) ==> p in s
    decreases |s|
  {
    if |s| > 0 {
      DropKeysSubset(s[1..], ks);
    }
  }
}

=== FILE: php_text.dfy ===
/**
 * The PHP string functions the bot relies on, stated over `string` (a sequence of
 * Unicode scalar values, which is what PHP's `mb_*` functions count):
 * `strtolower`/`ucfirst` (ASCII only), `trim`/`chop`, `explode`/`implode`,
 * `preg_split` on line breaks, `str_pad`, and decimal formatting and parsing.
 */
module PhpText {
  import opened Wrappers

  /** PHP_EOL on the platforms the bot runs on. */
  const EOL: string := "\n"

  predicate IsUpper(c: char) { 'A' <= c <= 'Z' }
  predicate IsLower(c: char) { 'a' <= c <= 'z' }
  predicate IsDigit(c: char) { '0' <= c <= '9' }

  /** strtolower on one character (ASCII letters only). */
  function LowerChar(c: char): char {
    if IsUpper(c) then (c as int + 32) as char else c
  }

  /** strtoupper on one character (ASCII letters only). */
  function UpperChar(c: char): char {
    if IsLower(c) then (c as int - 32) as char else c
  }

  /** strtolower / mb_strtolower restricted to ASCII letters. */
  function Lower(s: string): (r: string)
    ensures |r| == |s|
    ensures forall i :: 0 <= i < |s| ==> r[i] == LowerChar(s[i])
  {
    seq(|s|, i requires 0 <= i < |s| => LowerChar(s[i]))
  }

  /** ucfirst: the first character upper-cased, the rest untouched. */
  function UcFirst(s: string): (r: string)
    ensures |r| == |s|
    ensures |s| > 0 ==> r[0] == UpperChar(s[0]) && r[1..] == s[1..]
  {
    if |s| == 0 then s else [UpperChar(s[0])] + s[1..]
  }

  /** Lower-casing twice is lower-casing once. */
  lemma LowerIdempotent(s: string)
    ensures Lower(Lower(s)) == Lower(s)
  {
  }

  /** A string without upper-case letters is its own lower-case form. */
  lemma LowerKeeps(s: string)
    requires forall i :: 0 <= i < |s| ==> !IsUpper(s[i])
    ensures Lower(s) == s
  {
  }

  // ---------------------------------------------------------------------------
  // trim / chop

  /** The characters trim(), rtrim() and chop() strip by default: " \t\n\r\0\x0B". */
  predicate IsTrimChar(c: char) {
    c == ' ' || c == '\t' || c == '\n' || c == '\r' || c == '\0' || c == '\U{B}'
  }

  /** rtrim / chop: strip trim characters at the end. */
  function TrimRight(s: string): (r: string)
    ensures r <= s
    ensures |r| > 0 ==> !IsTrimChar(r[|r| - 1])
    ensures forall k :: |r| <= k < |s| ==> IsTrimChar(s[k])
    decreases |s|
  {
    if |s| > 0 && IsTrimChar(s[|s| - 1]) then TrimRight(s[..|s| - 1]) else s
  }

  /** ltrim: strip trim characters at the start. */
  function TrimLeft(s: string): (r: string)
    ensures |r| <= |s| && r == s[|s| - |r|..]
    ensures |r| > 0 ==> !IsTrimChar(r[0])
    ensures forall k :: 0 <= k < |s| - |r| ==> IsTrimChar(s[k])
    decreases |s|
  {
    if |s| > 0 && IsTrimChar(s[0]) then TrimLeft(s[1..]) else s
  }

  /** trim: strip trim characters at both ends. */
  function Trim(s: string): (r: string)
    ensures |r| <= |s|
    ensures |r| > 0 ==> !IsTrimChar(r[0]) && !IsTrimChar(r[|r| - 1])
  {
    TrimLeft(TrimRight(s))
  }

  /** A string that neither starts nor ends with a trim character is left alone by trim. */
  lemma TrimKeepsTrimmed(s: string)
    requires |s| > 0 ==> !IsTrimChar(s[0]) && !IsTrimChar(s[|s| - 1])
    ensures Trim(s) == s
  {
  }

  /** trim is idempotent. */
  lemma TrimIdempotent(s: string)
    ensures Trim(Trim(s)) == Trim(s)
  {
    TrimKeepsTrimmed(Trim(s));
  }

  // ---------------------------------------------------------------------------
  // explode / implode

  /** explode for a one-character separator: the pieces between separators, never none. */
  function Split(s: string, sep: char): (parts: seq<string>)
    ensures |parts| >= 1
    ensures forall i :: 0 <= i < |parts| ==> sep !in parts[i]
    decreases |s|
  {
    if |s| == 0 then [""]
    else
      var rest := Split(s[1..], sep);
      if s[0] == sep then [""] + rest
      else [[s[0]] + rest[0]] + rest[1..]
  }

  /** implode: the parts joined by the separator. */
  function Join(parts: seq<string>, sep: string): string
    decreases |parts|
  {
    if |parts| == 0 then ""
    else if |parts| == 1 then parts[0]
    else parts[0] + sep + Join(parts[1..], sep)
  }

  /** Joining a non-empty list: the first part, then each further part behind a separator. */
  lemma JoinCons(p: string, rest: seq<string>, sep: string)
    requires |rest| > 0
    ensures Join([p] + rest, sep) == p + sep + Join(rest, sep)
  {
    assert ([p] + rest)[1..] == rest;
  }

  /** Joining with one more part at the end adds a separator and that part. */
  lemma {:induction false} JoinSnoc(parts: seq<string>, x: string, sep: string)
    requires |parts| > 0
    ensures Join(parts + [x], sep) == Join(parts, sep) + sep + x
    decreases |parts|
  {
    if |parts| == 1 {
      assert (parts + [x])[1..] == [x];
    } else {
      assert (parts + [x])[1..] == parts[1..] + [x];
      JoinSnoc(parts[1..], x, sep);
    }
  }

  /** implode undoes explode. */
  lemma {:induction false} SplitThenJoin(s: string, sep: char)
    ensures Join(Split(s, sep), [sep]) == s
    decreases |s|
  {
    if |s| > 0 {
      var rest := Split(s[1..], sep);
      SplitThenJoin(s[1..], sep);
      if s[0] == sep {
        JoinCons("", rest, [sep]);
      } else if |rest| == 1 {
        assert Split(s, sep) == [[s[0]] + rest[0]];
      } else {
        JoinCons(rest[0], rest[1..], [sep]);
        assert rest == [rest[0]] + rest[1..];
        JoinCons([s[0]] + rest[0], rest[1..], [sep]);
        assert Split(s, sep) == [[s[0]] + rest[0]] + rest[1..];
      }
    }
  }

  /** A piece without the separator splits to itself. */
  lemma {:induction false} SplitPlain(p: string, sep: char)
    requires sep !in p
    ensures Split(p, sep) == [p]
    decreases |p|
  {
    if |p| > 0 {
      assert p[0] != sep && sep !in p[1..];
      SplitPlain(p[1..], sep);
      assert [p[0]] + p[1..] == p;
    }
  }

  /** explode gives more than one piece exactly when the separator occurs. */
  lemma SplitCount(s: string, sep: char)
    ensures sep in s <==> |Split(s, sep)| > 1
  {
    SplitThenJoin(s, sep);
    if sep !in s {
      SplitPlain(s, sep);
    }
    if |Split(s, sep)| == 1 {
      assert Join(Split(s, sep), [sep]) == Split(s, sep)[0];
    }
  }

  /** Splitting "p<sep>t" yields p followed by the pieces of t. */
  lemma {:induction false} SplitAfterPiece(p: string, sep: char, t: string)
    requires sep !in p
    ensures Split(p + [sep] + t, sep) == [p] + Split(t, sep)
    decreases |p|
  {
    var s := p + [sep] + t;
    if |p| == 0 {
      assert s[0] == sep && s[1..] == t;
    } else {
      assert s[0] == p[0] != sep && sep !in p[1..];
      assert s[1..] == p[1..] + [sep] + t;
      SplitAfterPiece(p[1..], sep, t);
      var rest := Split(s[1..], sep);
      assert rest[0] == p[1..] && rest[1..] == Split(t, sep);
      assert [s[0]] + p[1..] == p;
    }
  }

  /** explode undoes implode when no piece contains the separator. */
  lemma {:induction false} JoinThenSplit(parts: seq<string>, sep: char)
    requires |parts| >= 1
    requires forall i :: 0 <= i < |parts| ==> sep !in parts[i]
    ensures Split(Join(parts, [sep]), sep) == parts
    decreases |parts|
  {
    if |parts| == 1 {
      SplitPlain(parts[0], sep);
    } else {
      JoinThenSplit(parts[1..], sep);
      SplitAfterPiece(parts[0], sep, Join(parts[1..], [sep]));
      assert parts == [parts[0]] + parts[1..];
    }
  }

  // ---------------------------------------------------------------------------
  // Substring search and explode with a limit of two

  /** `sub` occurs in `s` starting at index i. */
  predicate OccursAt(s: string, sub: string, i: nat) {
    i + |sub| <= |s| && s[i..i + |sub|] == sub
  }

  /** str_contains / strpos !== false. */
  predicate Contains(s: string, sub: string) {
    exists i: nat :: i <= |s| && OccursAt(s, sub, i)
  }

  /** The first index at or after i where sub occurs. */
  function FindFrom(s: string, sub: string, i: nat): (r: Option<nat>)
    requires i <= |s|
    ensures r.Some? ==> i <= r.value && OccursAt(s, sub, r.value)
    ensures r.Some? ==> forall k: nat :: i <= k < r.value ==> !OccursAt(s, sub, k)
    ensures r.None? ==> forall k: nat :: i <= k ==> !OccursAt(s, sub, k)
    decreases |s| - i
  {
    if OccursAt(s, sub, i) then Some(i)
    else if i == |s| then None
    else FindFrom(s, sub, i + 1)
  }

  /**
   * explode with a limit of two: the text before the first occurrence of sep and the
   * text after it, or the whole string and None when sep does not occur.
   */
  function SplitOnce(s: string, sep: string): (r: (string, Option<string>))
    ensures r.1.None? ==> r.0 == s && !Contains(s, sep)
    ensures r.1.Some? ==> s == r.0 + sep + r.1.value
    ensures r.1.Some? ==> forall k: nat :: k < |r.0| ==> !OccursAt(s, sep, k)
  {
    match FindFrom(s, sep, 0)
    case None => (s, None)
    case Some(i) =>
      assert s == s[..i] + sep + s[i + |sep|..];
      (s[..i], Some(s[i + |sep|..]))
  }

  // ---------------------------------------------------------------------------
  // Splitting into lines at CR LF, LF or CR

  /** Splits at CRLF, LF or CR, preferring CRLF where both could match. */
  function SplitLines(s: string): (lines: seq<string>)
    ensures |lines| >= 1
    ensures forall i :: 0 <= i < |lines| ==> '\n' !in lines[i] && '\r' !in lines[i]
    decreases |s|
  {
    if |s| == 0 then [""]
    else if |s| >= 2 && s[0] == '\r' && s[1] == '\n' then [""] + SplitLines(s[2..])
    else if s[0] == '\n' || s[0] == '\r' then [""] + SplitLines(s[1..])
    else
      var rest := SplitLines(s[1..]);
      [[s[0]] + rest[0]] + rest[1..]
  }

  /** Without carriage returns, splitting into lines is explode on LF. */
  lemma {:induction false} SplitLinesIsSplitOnLf(s: string)
    requires '\r' !in s
    ensures SplitLines(s) == Split(s, '\n')
    decreases |s|
  {
    if |s| > 0 {
      assert '\r' !in s[1..] by {
        forall k | 0 <= k < |s[1..]| ensures s[1..][k] != '\r' {
          assert s[1..][k] == s[k + 1];
        }
      }
      SplitLinesIsSplitOnLf(s[1..]);
    }
  }

  // ---------------------------------------------------------------------------
  // Decimal numbers

  function DigitValue(c: char): nat
    requires IsDigit(c)
  {
    c as int - '0' as int
  }

  function DigitChar(d: nat): (c: char)
    requires d < 10
    ensures IsDigit(c) && DigitValue(c) == d
  {
    ('0' as int + d) as char
  }

  /** A non-empty run of ASCII digits. */
  predicate IsDigits(s: string) {
    |s| > 0 && forall i :: 0 <= i < |s| ==> IsDigit(s[i])
  }

  /** The value of a run of decimal digits. */
  function DigitsValue(s: string): nat
    requires forall i :: 0 <= i < |s| ==> IsDigit(s[i])
    decreases |s|
  {
    if |s| == 0 then 0 else DigitsValue(s[..|s| - 1]) * 10 + DigitValue(s[|s| - 1])
  }

  /** The decimal text of a natural number, as PHP's string conversion writes it. */
  function NatToString(n: nat): (r: string)
    ensures IsDigits(r)
    decreases n
  {
    if n < 10 then [DigitChar(n)] else NatToString(n / 10) + [DigitChar(n % 10)]
  }

  /** Reading back the decimal text of n gives n. */
  lemma {:induction false} DecimalRoundTrip(n: nat)
    ensures DigitsValue(NatToString(n)) == n
    decreases n
  {
    var s := NatToString(n);
    if n >= 10 {
      DecimalRoundTrip(n / 10);
      assert s[..|s| - 1] == NatToString(n / 10);
    } else {
      assert s[..|s| - 1] == [];
    }
  }

  /** A value written as x tens and a last digit d determines both x and d. */
  lemma LastDigitSplit(x: int, d: int, y: int, e: int)
    requires 0 <= d < 10 && 0 <= e < 10 && x * 10 + d == y * 10 + e
    ensures x == y && d == e
  {
  }

  /** Two digit strings of the same length and value are the same string. */
  lemma {:induction false} SameLengthSameValue(a: string, b: string)
    requires IsDigits(a) && IsDigits(b) && |a| == |b|
    requires DigitsValue(a) == DigitsValue(b)
    ensures a == b
    decreases |a|
  {
    var n := |a|;
    var pa, pb := a[..n - 1], b[..n - 1];
    var da, db := DigitValue(a[n - 1]), DigitValue(b[n - 1]);
    assert DigitsValue(a) == DigitsValue(pa) * 10 + da;
    assert DigitsValue(b) == DigitsValue(pb) * 10 + db;
    LastDigitSplit(DigitsValue(pa), da, DigitsValue(pb), db);
    if n > 1 {
      SameLengthSameValue(pa, pb);
    }
    assert a == pa + [a[n - 1]] && b == pb + [b[n - 1]];
  }

  // ---------------------------------------------------------------------------
  // Byte length and str_pad

  /** Number of UTF-8 bytes of one code point. */
  function Utf8Width(c: char): nat {
    if c as int < 0x80 then 1 else if c as int < 0x800 then 2 else if c as int < 0x10000 then 3 else 4
  }

  /** strlen: the UTF-8 byte length of a string. */
  function ByteLength(s: string): nat
    decreases |s|
  {
    if |s| == 0 then 0 else ByteLength(s[..|s| - 1]) + Utf8Width(s[|s| - 1])
  }

  /** strlen of a concatenation is the sum of the parts. */
  lemma {:induction false} ByteLengthAppend(a: string, b: string)
    ensures ByteLength(a + b) == ByteLength(a) + ByteLength(b)
    decreases |b|
  {
    if |b| > 0 {
      assert (a + b)[..|a + b| - 1] == a + b[..|b| - 1];
      ByteLengthAppend(a, b[..|b| - 1]);
    } else {
      assert a + b == a;
    }
  }

  function Spaces(n: nat): (r: string)
    ensures |r| == n
    ensures forall i :: 0 <= i < n ==> r[i] == ' '
  {
    seq(n, i => ' ')
  }

  /** Spaces are one byte each. */
  lemma {:induction false} SpacesByteLength(n: nat)
    ensures ByteLength(Spaces(n)) == n
    decreases n
  {
    if n > 0 {
      assert Spaces(n)[..n - 1] == Spaces(n - 1);
      SpacesByteLength(n - 1);
    }
  }

  /** str_pad: right-pads with spaces up to `width` bytes; never truncates. */
  function StrPad(s: string, width: nat): string {
    if ByteLength(s) >= width then s else s + Spaces(width - ByteLength(s))
  }

  /** str_pad keeps the text, appends only spaces, and reaches at least `width` bytes. */
  lemma StrPadShape(s: string, width: nat)
    ensures StrPad(s, width)[..|s|] == s
    ensures forall i :: |s| <= i < |StrPad(s, width)| ==> StrPad(s, width)[i] == ' '
    ensures ByteLength(StrPad(s, width)) == if ByteLength(s) >= width then ByteLength(s) else width
  {
    if ByteLength(s) < width {
      ByteLengthAppend(s, Spaces(width - ByteLength(s)));
      SpacesByteLength(width - ByteLength(s));
    }
  }
}

=== FILE: registry.dfy ===
/**
 * The static side of BaseModel (src/RPCharacterBot/Common/BaseModel.php): one
 * ModelCache per model class, created on the class's first fetch; the fetch
 * that answers from the cache or asks the database; the periodic flush that
 * writes every dirty object back; and the completion of each write.
 *
 * Objects live in a heap under handles that are never reused (PHP's `new`).
 * The database is a parameter: a fetch is given the answer to the query it
 * issues, and a write's completion is given the outcome of its statement.
 */
module Registries {
  import opened Wrappers
  import opened Values
  import opened Db
  import opened Lifecycle
  import opened Entities
  import opened PhpArrays
  import opened CacheGroups
  import opened UpdateModels
  import opened ModelCaches
  import Users
  import PairUsers

  /** The default size of a class's cache when the configuration names none. */
  const DefaultCacheSize: int := 100

  /** The bot configuration's `caches` section: cache sizes by configuration name, when present. */
  datatype Config = Config(caches: Option<map<string, int>>)

  /**
   * The static cache table with its classes in creation order, the number of periodic
   * flush timers registered, and the heap with its next free handle.
   */
  datatype Registry = Registry(heap: Heap, caches: seq<(EntityClass, ModelCache)>, timers: nat, next: Handle)

  const Initial: Registry := Registry(map[], [], 0, 0)

  /**
   * The invariant every operation keeps: one flush timer once any cache exists
   * and none before, at most one cache per class, and no handle at or beyond
   * the next free one.
   */
  predicate Valid(reg: Registry) {
    && reg.timers == (if |reg.caches| == 0 then 0 else 1)
    && (forall i, j :: 0 <= i < j < |reg.caches| ==> reg.caches[i].0 != reg.caches[j].0)
    && (forall h :: h in reg.heap ==> h < reg.next)
  }

  lemma InitialValid()
    ensures Valid(Initial) && Initial.timers == 0
  {
  }

  predicate HasCache(reg: Registry, cls: EntityClass) {
    FirstKey(reg.caches, cls) < |reg.caches|
  }

  /** The cache of a class that has one. */
  function CacheOf(reg: Registry, cls: EntityClass): ModelCache
    requires HasCache(reg, cls)
  {
    reg.caches[FirstKey(reg.caches, cls)].1
  }

  /** The size a new cache of the class gets: the configured one, or 100. */
  function CacheSize(cfg: Config, cls: EntityClass): (n: int)
    ensures cfg.caches.None? || ConfigName(cls) !in cfg.caches.value ==> n == DefaultCacheSize
    ensures cfg.caches.Some? && ConfigName(cls) in cfg.caches.value ==> n == cfg.caches.value[ConfigName(cls)]
  {
    match cfg.caches
    case Some(sizes) => if ConfigName(cls) in sizes then sizes[ConfigName(cls)] else DefaultCacheSize
    case None => DefaultCacheSize
  }

  /**
   * The cache set-up at the start of fetchByQueryInternal: a class without a
   * cache gets one, with its configured size and its own priority; the flush
   * timer is registered when this is the first cache of all.
   */
  function EnsureCache(reg: Registry, cfg: Config, cls: EntityClass): (r: Registry)
    ensures r.heap == reg.heap && r.next == reg.next
    ensures HasCache(r, cls) && reg.caches <= r.caches
    ensures HasCache(reg, cls) ==> r == reg
    ensures !HasCache(reg, cls) ==>
      r.caches == reg.caches + [(cls, NewCache(CacheSize(cfg, cls), Priority(cls)))]
    ensures Valid(reg) ==> Valid(r)
  {
    if HasCache(reg, cls) then reg
    else
      var r := reg.(caches := reg.caches + [(cls, NewCache(CacheSize(cfg, cls), Priority(cls)))],
                    timers := if |reg.caches| == 0 then reg.timers + 1 else reg.timers);
      FindCacheAppended(reg.caches, (cls, NewCache(CacheSize(cfg, cls), Priority(cls))));
      r
  }

  lemma {:induction false} FindCacheAppended(caches: seq<(EntityClass, ModelCache)>, entry: (EntityClass, ModelCache))
    requires FirstKey(caches, entry.0) == |caches|
    ensures FirstKey(caches + [entry], entry.0) == |caches|
    decreases |caches|
  {
    if |caches| > 0 {
      assert (caches + [entry])[1..] == caches[1..] + [entry];
      FindCacheAppended(caches[1..], entry);
    }
  }

  /** However many classes are fetched, only one flush timer is ever registered. */
  lemma {:induction false} OneFlushTimer(reg: Registry, cfg: Config, classes: seq<EntityClass>)
    requires Valid(reg)
    ensures Valid(EnsureAll(reg, cfg, classes))
    ensures EnsureAll(reg, cfg, classes).timers <= 1
    ensures |classes| > 0 ==> EnsureAll(reg, cfg, classes).timers == 1
    decreases |classes|
  {
    if |classes| > 0 {
      OneFlushTimer(EnsureCache(reg, cfg, classes[0]), cfg, classes[1..]);
      EnsureAllKeepsCaches(EnsureCache(reg, cfg, classes[0]), cfg, classes[1..]);
    }
  }

  /** Cache set-up for a sequence of first fetches. */
  function EnsureAll(reg: Registry, cfg: Config, classes: seq<EntityClass>): Registry
    decreases |classes|
  {
    if |classes| == 0 then reg else EnsureAll(EnsureCache(reg, cfg, classes[0]), cfg, classes[1..])
  }

  lemma {:induction false} EnsureAllKeepsCaches(reg: Registry, cfg: Config, classes: seq<EntityClass>)
    ensures reg.caches <= EnsureAll(reg, cfg, classes).caches
    decreases |classes|
  {
    if |classes| > 0 {
      EnsureAllKeepsCaches(EnsureCache(reg, cfg, classes[0]), cfg, classes[1..]);
    }
  }

  /** The registry with the class's cache replaced. */
  function WithCache(reg: Registry, cls: EntityClass, mc: ModelCache): (r: Registry)
    requires HasCache(reg, cls)
    ensures r.heap == reg.heap && r.next == reg.next && r.timers == reg.timers
    ensures |r.caches| == |reg.caches| && HasCache(r, cls) && CacheOf(r, cls) == mc
    ensures forall c :: c != cls ==> FirstKey(r.caches, c) == FirstKey(reg.caches, c)
    ensures forall c :: c != cls && HasCache(reg, c) ==> CacheOf(r, c) == CacheOf(reg, c)
    ensures forall j :: 0 <= j < |r.caches| ==> r.caches[j].0 == reg.caches[j].0
    ensures Valid(reg) ==> Valid(r)
  {
    var i := FirstKey(reg.caches, cls);
    var r := reg.(caches := reg.caches[i := (cls, mc)]);
    FindCacheSameClasses(reg.caches, r.caches);
    r
  }

  lemma {:induction false} FindCacheSameClasses(a: seq<(EntityClass, ModelCache)>, b: seq<(EntityClass, ModelCache)>)
    requires |a| == |b| && forall j :: 0 <= j < |a| ==> a[j].0 == b[j].0
    ensures forall c :: FirstKey(a, c) == FirstKey(b, c)
    decreases |a|
  {
    if |a| > 0 {
      FindCacheSameClasses(a[1..], b[1..]);
    }
  }

  /** A new object per entry, in turn: fresh handles from the next free one on. */
  function Alloc(reg: Registry, objects: seq<Entity>): (r: (Registry, seq<Handle>))
    requires forall h :: h in reg.heap ==> h < reg.next
    ensures r.0.caches == reg.caches && r.0.timers == reg.timers
    ensures r.0.next == reg.next + |objects| && |r.1| == |objects|
    ensures forall h :: h in r.0.heap ==> h < r.0.next
    ensures forall h :: h in reg.heap ==> h in r.0.heap && r.0.heap[h] == reg.heap[h]
    ensures forall k :: 0 <= k < |objects| ==> r.1[k] == reg.next + k && r.1[k] !in reg.heap
    ensures forall k :: 0 <= k < |objects| ==> r.1[k] in r.0.heap && r.0.heap[r.1[k]] == objects[k]
    decreases |objects|
  {
    if |objects| == 0 then (reg, [])
    else
      var reg1 := reg.(heap := reg.heap[reg.next := objects[0]], next := reg.next + 1);
      var (r, hs) := Alloc(reg1, objects[1..]);
      (r, [reg.next] + hs)
  }

  /**
   * The objects a database answer turns into: one CURRENT object per row, in
   * row order; with no rows, one NEW object built from the query if asked for,
   * else none.
   */
  function Loaded(cls: EntityClass, query: Query, rows: seq<Row>, createNew: bool): (r: seq<Entity>)
    ensures forall k :: 0 <= k < |r| ==> r[k].state in {Current, New}
    ensures |rows| > 0 ==> |r| == |rows|
    ensures |rows| > 0 ==> forall k :: 0 <= k < |rows| ==> r[k].state == Current && r[k].value == FromDbResult(cls, rows[k])
    ensures |rows| == 0 && createNew ==> r == [Tracked(New, CreateNewFromQuery(cls, query))]
    ensures |rows| == 0 && !createNew ==> r == []
    ensures forall k :: 0 <= k < |r| ==> ClassOf(r[k].value) == cls
  {
    if |rows| > 0 then seq(|rows|, k requires 0 <= k < |rows| => Construct(FromDbResult(cls, rows[k])))
    else if createNew then [Tracked(New, CreateNewFromQuery(cls, query))]
    else []
  }

  /** The database's answer to a fetch query. */
  datatype DbAnswer = Rows(rows: seq<Row>) | QueryFailed

  /**
   * The outcome of a fetch: the registry after it, the query sent to the
   * database (none on a cache hit), the objects the promise resolves with
   * (None when it never resolves), and the objects whose write-back the cache
   * overflow forced.
   */
  datatype FetchOutcome = FetchOutcome(reg: Registry, issued: Option<DBQuery>, result: Option<seq<Handle>>, forceSaved: seq<Handle>)

  /**
   * fetchByQueryInternal. A cache hit resolves with the group's objects that
   * are not DELETED and sends nothing. A miss sends the class's fetch query;
   * the answer's objects are cached under the query when there are any. A
   * failed query, or an add to the cache that throws, leaves the promise
   * unresolved.
   */
  function Fetch(reg: Registry, cfg: Config, cls: EntityClass, query: Query, createNew: bool, answer: DbAnswer): (r: FetchOutcome)
    requires Valid(reg)
    ensures Valid(r.reg) && HasCache(r.reg, cls)
    ensures forall c :: c != cls && HasCache(reg, c) ==> HasCache(r.reg, c) && CacheOf(r.reg, c) == CacheOf(reg, c)
    ensures forall h :: h in reg.heap ==> h in r.reg.heap && r.reg.heap[h] == reg.heap[h]
    ensures r.issued.None? ==> r.result.Some? && |r.result.value| > 0 && r.reg.heap == reg.heap && r.forceSaved == []
    ensures r.issued.Some? ==> r.issued.value == FetchQuery(cls, query)
    ensures answer.QueryFailed? && r.issued.Some? ==> r.result.None? && r.reg.heap == reg.heap
    ensures r.result.Some? ==> forall k :: 0 <= k < |r.result.value| ==> !IsDeleted(r.reg.heap, r.result.value[k])
    ensures r.issued.Some? && r.result.Some? ==> forall k :: 0 <= k < |r.result.value| ==>
      r.result.value[k] !in reg.heap && r.result.value[k] in r.reg.heap
    ensures r.issued.None? <==> Lookup(reg, cfg, cls, query).1.Some?
    ensures r.issued.None? ==> r.result == Lookup(reg, cfg, cls, query).1 && r.reg == Lookup(reg, cfg, cls, query).0
    ensures answer.Rows? && Fits(reg, cfg, cls) ==> r.result.Some?
  {
    var (reg2, hit) := Lookup(reg, cfg, cls, query);
    if hit.Some? then FetchOutcome(reg2, None, hit, [])
    else
      var mc := CacheOf(EnsureCache(reg, cfg, cls), cls);
      assert CacheOf(reg2, cls) == GetCacheGroupForQuery(mc, query).0;
      FetchMiss(reg2, cls, query, createNew, answer)
  }

  /**
   * The class's cache, once set up, is a list-shaped array with a size of at
   * least zero: adding to it cannot throw.
   */
  predicate Fits(reg: Registry, cfg: Config, cls: EntityClass) {
    var mc := CacheOf(EnsureCache(reg, cfg, cls), cls);
    Dense(mc.groups) && 0 <= mc.cacheSize
  }

  /**
   * The cache look-up of fetchByQueryInternal, after the class's cache is set
   * up: the live objects of the first group under the query, when there are
   * any, with that group promoted to the front.
   */
  function Lookup(reg: Registry, cfg: Config, cls: EntityClass, query: Query): (r: (Registry, Option<seq<Handle>>))
    requires Valid(reg)
    ensures Valid(r.0) && HasCache(r.0, cls) && r.0.heap == reg.heap
    ensures forall c :: c != cls && HasCache(reg, c) ==> HasCache(r.0, c) && CacheOf(r.0, c) == CacheOf(reg, c)
    ensures r.1.Some? ==> |r.1.value| > 0 && forall k :: 0 <= k < |r.1.value| ==> !IsDeleted(reg.heap, r.1.value[k])
    ensures var mc := CacheOf(EnsureCache(reg, cfg, cls), cls); var i := FindGroup(Groups(mc), query);
      r.1 == (if i < |Groups(mc)| && |Live(reg.heap, Groups(mc)[i].cachedObjects)| > 0
              then Some(Live(reg.heap, Groups(mc)[i].cachedObjects)) else None)
    ensures var mc := CacheOf(EnsureCache(reg, cfg, cls), cls);
      CacheOf(r.0, cls) == GetCacheGroupForQuery(mc, query).0
  {
    var reg1 := EnsureCache(reg, cfg, cls);
    var c := CacheOf(reg1, cls);
    var (mc, hit) := GetObjectsByQuery(c, reg.heap, query);
    ObjectsAnswer(c, reg.heap, query);
    (WithCache(reg1, cls, mc), hit)
  }

  /** The miss path of fetchByQueryInternal: the query is sent and its answer handled. */
  function FetchMiss(reg: Registry, cls: EntityClass, query: Query, createNew: bool, answer: DbAnswer): (r: FetchOutcome)
    requires Valid(reg) && HasCache(reg, cls)
    ensures Valid(r.reg) && HasCache(r.reg, cls)
    ensures forall c :: c != cls && HasCache(reg, c) ==> HasCache(r.reg, c) && CacheOf(r.reg, c) == CacheOf(reg, c)
    ensures forall h :: h in reg.heap ==> h in r.reg.heap && r.reg.heap[h] == reg.heap[h]
    ensures r.issued == Some(FetchQuery(cls, query))
    ensures answer.QueryFailed? ==> r.result.None? && r.reg == reg
    ensures r.result.Some? ==> forall k :: 0 <= k < |r.result.value| ==>
      r.result.value[k] !in reg.heap && r.result.value[k] in r.reg.heap && r.reg.heap[r.result.value[k]].state != Deleted
    ensures answer.Rows? && Dense(CacheOf(reg, cls).groups) && 0 <= CacheOf(reg, cls).cacheSize ==> r.result.Some?
  {
    var issued := Some(FetchQuery(cls, query));
    match answer
    case QueryFailed => FetchOutcome(reg, issued, None, [])
    case Rows(rows) =>
      var loaded := Loaded(cls, query, rows, createNew);
      var (reg3, hs, added) := Received(reg, cls, query, loaded);
      assert forall k :: 0 <= k < |loaded| ==> loaded[k].state != Deleted;
      DenseAddNeverThrows(CacheOf(reg, cls), reg3.heap, query, hs);
      FetchOutcome(reg3, issued, if added.crashed then None else Some(hs), added.forceSaved)
  }

  /**
   * The fetch query's completion handler: the loaded objects are allocated and,
   * when there are any, added to the class's cache under the query.
   */
  function Received(reg: Registry, cls: EntityClass, query: Query, loaded: seq<Entity>): (r: (Registry, seq<Handle>, AddOutcome))
    requires Valid(reg) && HasCache(reg, cls)
    ensures Valid(r.0) && HasCache(r.0, cls)
    ensures forall c :: c != cls && HasCache(reg, c) ==> HasCache(r.0, c) && CacheOf(r.0, c) == CacheOf(reg, c)
    ensures forall h :: h in reg.heap ==> h in r.0.heap && r.0.heap[h] == reg.heap[h]
    ensures |r.1| == |loaded|
    ensures forall k :: 0 <= k < |loaded| ==> r.1[k] !in reg.heap && r.1[k] in r.0.heap && r.0.heap[r.1[k]] == loaded[k]
    ensures |loaded| == 0 ==> r.0 == reg && r.2 == AddOutcome(CacheOf(reg, cls), [], false)
    ensures |loaded| > 0 ==> r.2 == AddModelsToCache(CacheOf(reg, cls), r.0.heap, query, r.1)
    ensures |loaded| > 0 ==> CacheOf(r.0, cls) == r.2.cache
  {
    var mc := CacheOf(reg, cls);
    var (reg3, hs) := Alloc(reg, loaded);
    if |hs| == 0 then (reg3, hs, AddOutcome(mc, [], false))
    else
      var added := AddModelsToCache(mc, reg3.heap, query, hs);
      (WithCache(reg3, cls, added.cache), hs, added)
  }

  /** On a miss answered with rows, the promise resolves with one new CURRENT object per row, in row order. */
  lemma FetchRowsResolvesWithRows(reg: Registry, cfg: Config, cls: EntityClass, query: Query, createNew: bool, rows: seq<Row>)
    requires Valid(reg) && |rows| > 0
    requires Lookup(reg, cfg, cls, query).1.None? && Fits(reg, cfg, cls)
    ensures var r := Fetch(reg, cfg, cls, query, createNew, Rows(rows));
      r.issued == Some(FetchQuery(cls, query)) && r.result.Some?
      && |r.result.value| == |rows|
      && (forall k :: 0 <= k < |rows| ==>
            r.result.value[k] !in reg.heap && r.reg.heap[r.result.value[k]] == Tracked(Current, FromDbResult(cls, rows[k])))
  {
  }

  /**
   * On a miss answered with no rows, the promise resolves with one NEW object
   * built from the query when createNew is set, and with nothing otherwise.
   */
  lemma FetchNoRows(reg: Registry, cfg: Config, cls: EntityClass, query: Query, createNew: bool)
    requires Valid(reg)
    requires Lookup(reg, cfg, cls, query).1.None? && Fits(reg, cfg, cls)
    ensures var r := Fetch(reg, cfg, cls, query, createNew, Rows([]));
      r.issued == Some(FetchQuery(cls, query)) && r.result.Some?
      && if createNew then
        |r.result.value| == 1 && r.result.value[0] !in reg.heap
        && r.reg.heap[r.result.value[0]] == Tracked(New, CreateNewFromQuery(cls, query))
      else r.result.value == [] && r.reg.heap == reg.heap
  {
  }

  /** FindGroup finds a key appended after groups that lack it. */
  lemma {:induction false} FindGroupAppended(gs: seq<CacheGroup>, g: CacheGroup)
    requires FindGroup(gs, g.queryString) == |gs|
    ensures FindGroup(gs + [g], g.queryString) == |gs|
    decreases |gs|
  {
    if |gs| > 0 {
      assert (gs + [g])[1..] == gs[1..] + [g];
      FindGroupAppended(gs[1..], g);
    }
  }

  /**
   * A fetch whose query is new to a list-shaped cache that is not full, and
   * whose answer yields objects, caches them: fetching the same query again
   * sends nothing and resolves with the same objects, in the same order.
   */
  lemma FetchThenHit(reg: Registry, cfg: Config, cls: EntityClass, query: Query, createNew: bool, rows: seq<Row>, again: DbAnswer)
    requires Valid(reg)
    requires var mc := CacheOf(EnsureCache(reg, cfg, cls), cls);
      Dense(mc.groups) && |Groups(mc)| < mc.cacheSize && FindGroup(Groups(mc), query) == |Groups(mc)|
    requires |rows| > 0 || createNew
    ensures var first := Fetch(reg, cfg, cls, query, createNew, Rows(rows));
      var second := Fetch(first.reg, cfg, cls, query, createNew, again);
      first.issued.Some? && first.result.Some? && |first.result.value| > 0
      && second.issued.None? && second.result == first.result
  {
    var reg1 := EnsureCache(reg, cfg, cls);
    var mc := CacheOf(reg1, cls);
    var first := Fetch(reg, cfg, cls, query, createNew, Rows(rows));
    var reg2 := WithCache(reg1, cls, mc);
    assert Lookup(reg, cfg, cls, query) == (reg2, None);
    var loaded := Loaded(cls, query, rows, createNew);
    var (reg3, hs, added) := Received(reg2, cls, query, loaded);
    assert first == FetchOutcome(reg3, Some(FetchQuery(cls, query)), Some(hs), added.forceSaved);
    AddNewKeyBelowCapacity(mc, reg3.heap, query, hs);
    var mc' := CacheOf(reg3, cls);
    assert Groups(mc') == Groups(mc) + [CacheGroup(query, hs)];
    FindGroupAppended(Groups(mc), CacheGroup(query, hs));
    assert forall k :: 0 <= k < |hs| ==> !IsDeleted(reg3.heap, hs[k]);
    LiveOfLiveIsAll(reg3.heap, hs);
    assert GetObjectsByQuery(mc', reg3.heap, query).1 == Some(hs);
  }

  /**
   * On a full list-shaped cache the same fetch is not cached: the new group is
   * dropped again at once, its objects are force-saved, and fetching the same
   * query again goes back to the database.
   */
  lemma FetchAtCapacityRefetches(reg: Registry, cfg: Config, cls: EntityClass, query: Query, createNew: bool, rows: seq<Row>, again: DbAnswer)
    requires Valid(reg)
    requires var mc := CacheOf(EnsureCache(reg, cfg, cls), cls);
      Dense(mc.groups) && |Groups(mc)| == mc.cacheSize && FindGroup(Groups(mc), query) == |Groups(mc)|
    requires |rows| > 0 || createNew
    ensures var first := Fetch(reg, cfg, cls, query, createNew, Rows(rows));
      var second := Fetch(first.reg, cfg, cls, query, createNew, again);
      first.result.Some? && first.forceSaved == first.result.value
      && second.issued == Some(FetchQuery(cls, query))
  {
    var reg1 := EnsureCache(reg, cfg, cls);
    var mc := CacheOf(reg1, cls);
    var first := Fetch(reg, cfg, cls, query, createNew, Rows(rows));
    var reg2 := WithCache(reg1, cls, mc);
    assert Lookup(reg, cfg, cls, query) == (reg2, None);
    var loaded := Loaded(cls, query, rows, createNew);
    var (reg3, hs, added) := Received(reg2, cls, query, loaded);
    AddNewKeyAtCapacity(mc, reg3.heap, query, hs);
    assert first == FetchOutcome(reg3, Some(FetchQuery(cls, query)), Some(hs), added.forceSaved);
    assert Groups(CacheOf(reg3, cls)) == Groups(mc);
  }

  /** fetchSingleByQuery: the first object, or null when there is none; unresolved when the fetch is. */
  function FetchSingle(reg: Registry, cfg: Config, cls: EntityClass, query: Query, createNew: bool, answer: DbAnswer): (r: (FetchOutcome, Option<Option<Handle>>))
    requires Valid(reg)
    ensures r.0 == Fetch(reg, cfg, cls, query, createNew, answer)
    ensures r.1.None? <==> r.0.result.None?
    ensures r.1.Some? ==> (r.1.value.None? <==> |r.0.result.value| == 0)
    ensures r.1.Some? && r.1.value.Some? ==> r.1.value.value == r.0.result.value[0]
  {
    var f := Fetch(reg, cfg, cls, query, createNew, answer);
    (f, match f.result
        case None => None
        case Some(objects) => Some(if |objects| == 0 then None else Some(objects[0])))
  }

  /** The three statements a write-back sends. */
  datatype WriteKind = InsertWrite | UpdateWrite | DeleteWrite

  datatype Write = Write(model: Handle, kind: WriteKind, statement: DBQuery)

  /**
   * applyUpdate: the statement the object's state calls for. A CURRENT object
   * sends nothing (its promise never settles).
   */
  function ApplyUpdate(e: Entity): (r: Option<(WriteKind, DBQuery)>)
    ensures r.None? <==> e.state == Current
    ensures r.Some? && r.value.0 == InsertWrite <==> e.state == New
    ensures r.Some? && r.value.0 == UpdateWrite <==> e.state == Updated
    ensures r.Some? && r.value.0 == DeleteWrite <==> e.state == Deleted
    ensures r.Some? && r.value.0 == DeleteWrite ==> r.value.1.sql.Delete? && r.value.1.WellFormed()
    ensures r.Some? && r.value.0 == InsertWrite ==> r.value.1.sql.Insert? && r.value.1.Binds(col => Column(e.value, col))
    ensures r.Some? && r.value.0 == UpdateWrite ==> r.value.1.sql.Update?
  {
    match e.state
    case Deleted => Some((DeleteWrite, DeleteStatement(e.value)))
    case Updated => Some((UpdateWrite, UpdateStatement(e.value)))
    case New => Some((InsertWrite, InsertStatement(e.value)))
    case Current => None
  }

  /** forceSaveToDb on each object in turn: the writes sent, in order. */
  function Dispatch(heap: Heap, hs: seq<Handle>): (ws: seq<Write>)
    ensures forall k :: 0 <= k < |ws| ==> ws[k].model in hs && ws[k].model in heap
    ensures forall k :: 0 <= k < |ws| ==> ApplyUpdate(heap[ws[k].model]) == Some((ws[k].kind, ws[k].statement))
    decreases |hs|
  {
    if |hs| == 0 then []
    else
      var rest := Dispatch(heap, hs[1..]);
      if hs[0] in heap && ApplyUpdate(heap[hs[0]]).Some? then
        var (kind, stmt) := ApplyUpdate(heap[hs[0]]).value;
        [Write(hs[0], kind, stmt)] + rest
      else rest
  }

  /** Every dirty object handed to forceSaveToDb gets a write. */
  lemma DispatchCoversDirty(heap: Heap, hs: seq<Handle>, h: Handle)
    requires h in hs && h in heap && heap[h].state != Current
    ensures exists k :: 0 <= k < |Dispatch(heap, hs)| && Dispatch(heap, hs)[k].model == h
  {
    var k := DispatchIndex(heap, hs, h);
  }

  /** The position of a dirty object's write. */
  lemma {:induction false} DispatchIndex(heap: Heap, hs: seq<Handle>, h: Handle) returns (k: nat)
    requires h in hs && h in heap && heap[h].state != Current
    ensures k < |Dispatch(heap, hs)| && Dispatch(heap, hs)[k].model == h
    decreases |hs|
  {
    DispatchStep(heap, hs);
    if hs[0] == h {
      k := 0;
    } else {
      assert h in hs[1..];
      var j := DispatchIndex(heap, hs[1..], h);
      k := j + (|Dispatch(heap, hs)| - |Dispatch(heap, hs[1..])|);
    }
  }

  /** One step of Dispatch: a write for the first object when it needs one, then the rest. */
  lemma DispatchStep(heap: Heap, hs: seq<Handle>)
    requires |hs| > 0
    ensures var rest := Dispatch(heap, hs[1..]);
      if hs[0] in heap && ApplyUpdate(heap[hs[0]]).Some? then
        Dispatch(heap, hs) == [Write(hs[0], ApplyUpdate(heap[hs[0]]).value.0, ApplyUpdate(heap[hs[0]]).value.1)] + rest
      else Dispatch(heap, hs) == rest
  {
  }

  /** The outcome of a sent statement: success (with the insert id the driver reports) or an error. */
  datatype WriteAnswer = Succeeded(insertId: Scalar) | WriteFailed

  /**
   * The completion handlers of performInsert, performUpdate and performDelete.
   * A successful insert stores the new id and marks the object CURRENT; a
   * successful update marks it CURRENT; a successful delete removes it from its
   * class's cache and leaves its state alone. A failed statement changes
   * nothing (an insert is then retried by the next flush).
   */
  function Complete(reg: Registry, h: Handle, kind: WriteKind, answer: WriteAnswer): (r: Registry)
    requires h in reg.heap
    ensures Valid(reg) ==> Valid(r)
    ensures r.heap.Keys == reg.heap.Keys && r.next == reg.next
    ensures forall x :: x in reg.heap && x != h ==> r.heap[x] == reg.heap[x]
    ensures answer.WriteFailed? ==> r == reg
    ensures answer.Succeeded? && kind != DeleteWrite ==> r.heap[h].state == Current && r.caches == reg.caches
    ensures answer.Succeeded? && kind == UpdateWrite ==> r.heap[h].value == reg.heap[h].value
    ensures answer.Succeeded? && kind == InsertWrite ==>
      r.heap[h].value == SetObjectIdAfterInsert(reg.heap[h].value, answer.insertId)
    ensures answer.Succeeded? && kind == DeleteWrite ==> r.heap == reg.heap
  {
    match answer
    case WriteFailed => reg
    case Succeeded(insertId) =>
      var e := reg.heap[h];
      match kind
      case InsertWrite => reg.(heap := reg.heap[h := Tracked(Current, SetObjectIdAfterInsert(e.value, insertId))])
      case UpdateWrite => reg.(heap := reg.heap[h := e.(state := Current)])
      case DeleteWrite =>
        var cls := ClassOf(e.value);
        if HasCache(reg, cls) then WithCache(reg, cls, DeleteObject(CacheOf(reg, cls), h)) else reg
  }

  /** After a successful delete the object is in no group of its class's cache. */
  lemma DeleteCompletionUncaches(reg: Registry, h: Handle, id: Scalar)
    requires h in reg.heap && HasCache(reg, ClassOf(reg.heap[h].value))
    ensures var r := Complete(reg, h, DeleteWrite, Succeeded(id));
      var mc := CacheOf(r, ClassOf(reg.heap[h].value));
      forall g :: g in Groups(mc) ==> h !in g.cachedObjects
  {
  }

  /**
   * A dirty object whose write-back succeeds settles: NEW and UPDATED objects
   * become CURRENT, so the next flush does not send them again.
   */
  lemma WriteBackSettles(reg: Registry, h: Handle, id: Scalar)
    requires h in reg.heap && reg.heap[h].state in {New, Updated}
    ensures var w := ApplyUpdate(reg.heap[h]);
      w.Some? && ApplyUpdate(Complete(reg, h, w.value.0, Succeeded(id)).heap[h]).None?
  {
  }

  /**
   * A change made while an update is in flight is lost: setUpdateState does
   * not mark the already UPDATED object, the completion then marks it CURRENT,
   * and the sent statement carries the old values. The flush will not send the
   * new values.
   */
  lemma ChangeDuringUpdateIsLost(reg: Registry, h: Handle, changed: EntityData, id: Scalar)
    requires h in reg.heap && reg.heap[h].state == Updated
    ensures var sent := ApplyUpdate(reg.heap[h]);
      var edited := reg.(heap := reg.heap[h := SetDirty(reg.heap[h], changed)]);
      var done := Complete(edited, h, UpdateWrite, Succeeded(id));
      sent == Some((UpdateWrite, UpdateStatement(reg.heap[h].value)))
      && done.heap[h] == Tracked(Current, changed)
      && ApplyUpdate(done.heap[h]).None?
  {
  }

  /**
   * delete() called while an update or insert is in flight is undone: the
   * completion overwrites DELETED with CURRENT, so the row is never deleted.
   */
  lemma DeleteDuringWriteIsLost(reg: Registry, h: Handle, id: Scalar)
    requires h in reg.heap && reg.heap[h].state in {New, Updated}
    ensures var sent := ApplyUpdate(reg.heap[h]).value.0;
      var deleted := reg.(heap := reg.heap[h := MarkDeleted(reg.heap[h])]);
      Complete(deleted, h, sent, Succeeded(id)).heap[h].state == Current
  {
  }

  /** The first loop of storeCachedObjects: the queue, filled cache by cache. */
  method CollectAll(reg: Registry) returns (queue: seq<UpdateModel>)
    ensures queue == FlushQueue(reg.heap, reg.caches)
  {
    queue := [];
    var i := 0;
    while i < |reg.caches|
      invariant 0 <= i <= |reg.caches|
      invariant queue == FlushQueue(reg.heap, reg.caches[..i])
    {
      assert reg.caches[..i + 1][..i] == reg.caches[..i];
      queue := CollectRequiredUpdates(reg.caches[i].1, reg.heap, queue);
      i := i + 1;
    }
    assert reg.caches[..i] == reg.caches;
  }

  /** The second loop of storeCachedObjects: applyUpdate on each queued object, in queue order. */
  method SendAll(heap: Heap, queue: seq<UpdateModel>) returns (writes: seq<Write>)
    requires forall k :: 0 <= k < |queue| ==> queue[k].model in heap && heap[queue[k].model].state != Current
    ensures |writes| == |queue|
    ensures forall k :: 0 <= k < |queue| ==> writes[k].model == queue[k].model
    ensures forall k :: 0 <= k < |queue| ==> ApplyUpdate(heap[queue[k].model]) == Some((writes[k].kind, writes[k].statement))
  {
    writes := [];
    var k := 0;
    while k < |queue|
      invariant 0 <= k <= |queue| && |writes| == k
      invariant forall j :: 0 <= j < k ==> writes[j].model == queue[j].model
      invariant forall j :: 0 <= j < k ==> ApplyUpdate(heap[queue[j].model]) == Some((writes[j].kind, writes[j].statement))
    {
      var (kind, stmt) := ApplyUpdate(heap[queue[k].model]).value;
      writes := writes + [Write(queue[k].model, kind, stmt)];
      k := k + 1;
    }
  }

  /**
   * storeCachedObjects: the queue is filled cache by cache, in the order the
   * caches were created, and each queued object's write is sent in queue
   * order. The priorities are recorded but do not order anything.
   */
  method StoreCachedObjects(reg: Registry) returns (queue: seq<UpdateModel>, writes: seq<Write>)
    ensures queue == FlushQueue(reg.heap, reg.caches)
    ensures |writes| == |queue|
    ensures forall k :: 0 <= k < |queue| ==> writes[k].model == queue[k].model && queue[k].model in reg.heap
    ensures forall k :: 0 <= k < |queue| ==> ApplyUpdate(reg.heap[queue[k].model]) == Some((writes[k].kind, writes[k].statement))
  {
    queue := CollectAll(reg);
    FlushQueueDirty(reg.heap, reg.caches);
    writes := SendAll(reg.heap, queue);
  }

  /** The queue storeCachedObjects builds from the caches, in order. */
  function FlushQueue(heap: Heap, caches: seq<(EntityClass, ModelCache)>): seq<UpdateModel>
    decreases |caches|
  {
    if |caches| == 0 then []
    else
      var mc := caches[|caches| - 1].1;
      FlushQueue(heap, caches[..|caches| - 1]) + PendingAll(heap, Groups(mc), mc.cachePriority)
  }

  /** Every queued object is in the heap and not CURRENT. */
  lemma {:induction false} FlushQueueDirty(heap: Heap, caches: seq<(EntityClass, ModelCache)>)
    ensures forall k :: 0 <= k < |FlushQueue(heap, caches)| ==>
      FlushQueue(heap, caches)[k].model in heap && heap[FlushQueue(heap, caches)[k].model].state != Current
    decreases |caches|
  {
    if |caches| > 0 {
      FlushQueueDirty(heap, caches[..|caches| - 1]);
      var mc := caches[|caches| - 1].1;
      forall u | u in PendingAll(heap, Groups(mc), mc.cachePriority)
        ensures u.model in heap && heap[u.model].state != Current
      {
        PendingAllMembers(heap, Groups(mc), mc.cachePriority, u.model);
      }
    }
  }

  /**
   * A flush queues an object exactly when some cache holds it in a group and it
   * is not CURRENT, with that cache's priority.
   */
  lemma {:induction false} FlushQueueMembers(heap: Heap, caches: seq<(EntityClass, ModelCache)>, h: Handle, p: int)
    ensures UpdateModel(h, p) in FlushQueue(heap, caches) <==>
      h in heap && heap[h].state != Current
      && (exists i, j :: 0 <= i < |caches| && caches[i].1.cachePriority == p
            && 0 <= j < |Groups(caches[i].1)| && h in Groups(caches[i].1)[j].cachedObjects)
    decreases |caches|
  {
    if |caches| > 0 {
      var init := caches[..|caches| - 1];
      var mc := caches[|caches| - 1].1;
      FlushQueueMembers(heap, init, h, p);
      PendingAllMembers(heap, Groups(mc), mc.cachePriority, h);
      if UpdateModel(h, p) in PendingAll(heap, Groups(mc), mc.cachePriority) {
        assert p == mc.cachePriority;
        var j :| 0 <= j < |Groups(mc)| && h in Groups(mc)[j].cachedObjects && h in heap && heap[h].state != Current;
        assert caches[|caches| - 1].1 == mc;
      }
      if h in heap && heap[h].state != Current
        && (exists i, j :: 0 <= i < |caches| && caches[i].1.cachePriority == p
              && 0 <= j < |Groups(caches[i].1)| && h in Groups(caches[i].1)[j].cachedObjects)
      {
        var i, j :| 0 <= i < |caches| && caches[i].1.cachePriority == p
           && 0 <= j < |Groups(caches[i].1)| && h in Groups(caches[i].1)[j].cachedObjects;
        if i < |caches| - 1 {
          assert init[i] == caches[i];
        }
      }
      if exists i, j :: 0 <= i < |init| && init[i].1.cachePriority == p
           && 0 <= j < |Groups(init[i].1)| && h in Groups(init[i].1)[j].cachedObjects
      {
        var i, j :| 0 <= i < |init| && init[i].1.cachePriority == p
           && 0 <= j < |Groups(init[i].1)| && h in Groups(init[i].1)[j].cachedObjects;
        assert caches[i] == init[i];
      }
    }
  }

  /**
   * An in-place edit of a cached object decides the next flush: after the
   * object at a handle some cache holds is replaced, the flush queues it, with
   * that cache's priority, exactly when the new value is not CURRENT. A delete
   * or a dirty-marking setter is written back; a quiet setter on a CURRENT
   * object is not.
   */
  lemma EditReachesFlush(reg: Registry, h: Handle, e: Entity, i: nat, j: nat)
    requires i < |reg.caches| && j < |Groups(reg.caches[i].1)| && h in Groups(reg.caches[i].1)[j].cachedObjects
    ensures UpdateModel(h, reg.caches[i].1.cachePriority) in FlushQueue(reg.heap[h := e], reg.caches)
        <==> e.state != Current
  {
    FlushQueueMembers(reg.heap[h := e], reg.caches, h, reg.caches[i].1.cachePriority);
  }

  /** uncacheBySubQuery: the class's cache drops the matching groups; a class without a cache is left alone. */
  function UncacheBySubQuery(reg: Registry, cls: EntityClass, sub: Query): (r: Registry)
    ensures r.heap == reg.heap && r.next == reg.next && r.timers == reg.timers
    ensures !HasCache(reg, cls) ==> r == reg
    ensures HasCache(reg, cls) ==> HasCache(r, cls) && CacheOf(r, cls) == Uncache(CacheOf(reg, cls), sub)
    ensures forall c :: c != cls && HasCache(reg, c) ==> HasCache(r, c) && CacheOf(r, c) == CacheOf(reg, c)
    ensures Valid(reg) ==> Valid(r)
    ensures HasCache(reg, cls) && Dense(CacheOf(reg, cls).groups) ==>
      Groups(CacheOf(r, cls)) == Filter(Groups(CacheOf(reg, cls)), UnmatchedBy(sub))
  {
    if HasCache(reg, cls) then
      UncacheFiltersWhenDense(CacheOf(reg, cls), sub);
      WithCache(reg, cls, Uncache(CacheOf(reg, cls), sub))
    else reg
  }

  /** User::uncacheById: the user groups whose key holds that id go; every other group and object stays. */
  function UncacheUserById(reg: Registry, id: Scalar): (r: Registry)
    ensures r.heap == reg.heap && r.timers == reg.timers
    ensures forall c :: c != UserClass && HasCache(reg, c) ==> HasCache(r, c) && CacheOf(r, c) == CacheOf(reg, c)
    ensures HasCache(reg, UserClass) && Dense(CacheOf(reg, UserClass).groups) ==>
      HasCache(r, UserClass)
      && Groups(CacheOf(r, UserClass)) == Filter(Groups(CacheOf(reg, UserClass)), UnmatchedBy(Users.UncacheByIdQuery(id)))
  {
    UncacheBySubQuery(reg, UserClass, Users.UncacheByIdQuery(id))
  }

  /** ThreadUser::uncacheByUserId: the thread selections keyed by that user go; everything else stays. */
  function UncacheThreadUsersByUserId(reg: Registry, userId: Scalar): (r: Registry)
    ensures r.heap == reg.heap && r.timers == reg.timers
    ensures forall c :: c != PairClass(PairUsers.ThreadScope) && HasCache(reg, c) ==> HasCache(r, c) && CacheOf(r, c) == CacheOf(reg, c)
    ensures var cls := PairClass(PairUsers.ThreadScope);
      HasCache(reg, cls) && Dense(CacheOf(reg, cls).groups) ==>
      HasCache(r, cls)
      && Groups(CacheOf(r, cls)) == Filter(Groups(CacheOf(reg, cls)), UnmatchedBy(PairUsers.UncacheByUserIdQuery(userId)))
  {
    UncacheBySubQuery(reg, PairClass(PairUsers.ThreadScope), PairUsers.UncacheByUserIdQuery(userId))
  }

  /** After User::uncacheById, no user group is keyed by a query for a loosely equal id. */
  lemma UncachedUserKeyAbsent(mc: ModelCache, id: Scalar, id2: Scalar)
    requires Dense(mc.groups) && LooseEq(id2, id)
    ensures var gs := Groups(Uncache(mc, Users.UncacheByIdQuery(id)));
      forall j :: 0 <= j < |gs| ==> gs[j].queryString != [("id", id2)]
  {
    var sub := Users.UncacheByIdQuery(id);
    var key: Query := [("id", id2)];
    UncacheRemovesExactlyMatches(mc, sub);
    var gs := Groups(Uncache(mc, sub));
    assert Matches(key, sub) by {
      assert QueryHas(key, "id") by { assert key[0].0 == "id"; }
    }
    forall j | 0 <= j < |gs| ensures gs[j].queryString != key {
      assert UnmatchedBy(sub)(gs[j]);
    }
  }

  /**
   * After User::uncacheById, a fetch of a user by any id loosely equal to the
   * uncached one misses the cache and asks the database again.
   */
  lemma UncacheByIdForcesRefetch(reg: Registry, cfg: Config, id: Scalar, id2: Scalar, createNew: bool, answer: DbAnswer)
    requires Valid(reg) && HasCache(reg, UserClass) && Dense(CacheOf(reg, UserClass).groups)
    requires LooseEq(id2, id)
    ensures Fetch(UncacheUserById(reg, id), cfg, UserClass, [("id", id2)], createNew, answer).issued.Some?
  {
    UncachedUserKeyAbsent(CacheOf(reg, UserClass), id, id2);
  }
}

=== FILE: update_model.dfy ===
/**
 * A queued write-back (src/RPCharacterBot/Common/Cache/UpdateModel.php): the
 * object and the priority of the cache it came from. Both fields are fixed at
 * construction; getModel and getPriority are the field selectors.
 */
module UpdateModels {
  import opened CacheGroups

  datatype UpdateModel = UpdateModel(model: Handle, priority: int)
}

=== FILE: users.dfy ===
/** A Discord user's settings (src/RPCharacterBot/Model/User.php): the OOC prefix. */
module Users {
  import opened Values
  import opened Db
  import opened Lifecycle

  const ConfigName: string := "users"
  const Priority: int := 1
  const Table: string := "users"

  datatype User = User(id: Scalar, oocPrefix: Scalar)

  const Columns: seq<string> := ["id", "ooc_prefix"]

  function Column(u: User, col: string): Scalar {
    if col == "id" then u.id else if col == "ooc_prefix" then u.oocPrefix else Null
  }

  function ToRow(u: User): Row {
    map col | col in Columns :: Column(u, col)
  }

  function FromDbResult(row: Row): (u: User)
    ensures forall col :: col in Columns ==> Column(u, col) == RowGet(row, col)
  {
    User(RowGet(row, "id"), RowGet(row, "ooc_prefix"))
  }

  lemma RowRoundTrip(u: User)
    ensures FromDbResult(ToRow(u)) == u
  {
    var row := ToRow(u);
    assert RowGet(row, "id") == u.id && RowGet(row, "ooc_prefix") == u.oocPrefix;
  }

  /** A new user: the query's id and no OOC prefix of its own. */
  function CreateNewFromQuery(q: Query): (u: User)
    ensures Column(u, "id") == QueryGet(q, "id") && u.oocPrefix == Null
  {
    User(QueryGet(q, "id"), Null)
  }

  function FetchQuery(q: Query): (r: DBQuery)
    ensures r.sql.Select? && r.sql.Table() == Table && r.sql.Columns() == ["id"]
    ensures r.WellFormed() && r.Binds(col => QueryGet(q, col))
  {
    DBQuery(Select(Table, ["id"]), [QueryGet(q, "id")])
  }

  function InsertStatement(u: User): (r: DBQuery)
    ensures r.sql.Insert? && r.sql.Table() == Table && r.sql.Columns() == Columns
    ensures r.WellFormed() && r.Binds(col => Column(u, col))
  {
    DBQuery(Insert(Table, ["id", "ooc_prefix"], 2), [u.id, u.oocPrefix])
  }

  function DeleteStatement(u: User): (r: DBQuery)
    ensures r.sql.Delete? && r.sql.Table() == Table && r.sql.Columns() == ["id"]
    ensures r.WellFormed() && r.Binds(col => Column(u, col))
  {
    DBQuery(Delete(Table, ["id"]), [u.id])
  }

  function UpdateStatement(u: User): (r: DBQuery)
    ensures r.sql.Update? && r.sql.Table() == Table && r.sql.Columns() == ["ooc_prefix", "id"]
    ensures r.WellFormed() && r.Binds(col => Column(u, col))
  {
    DBQuery(Update(Table, ["ooc_prefix"], ["id"]), [u.oocPrefix, u.id])
  }

  /** A user created from a query is deleted by the same key it was fetched by. */
  lemma NewUserKeyedByItsQuery(q: Query)
    ensures DeleteStatement(CreateNewFromQuery(q)).parameters == FetchQuery(q).parameters
    ensures InsertStatement(CreateNewFromQuery(q)).parameters[0] == FetchQuery(q).parameters[0]
  {
  }

  /** setOocPrefix assigns the prefix and marks the user UPDATED if it was CURRENT. */
  function SetOocPrefix(o: Tracked<User>, prefix: Scalar): (r: Tracked<User>)
    ensures r.value.oocPrefix == prefix && r.value.id == o.value.id
    ensures r.state == SetUpdateState(o.state, Updated)
  {
    SetDirty(o, o.value.(oocPrefix := prefix))
  }

  /** The sub-query uncacheById invalidates with. */
  function UncacheByIdQuery(id: Scalar): (sub: Query)
    ensures QueryHas(sub, "id") && QueryGet(sub, "id") == id && |sub| == 1
  {
    var sub := [("id", id)];
    assert sub[0].0 == "id";
    sub
  }

  predicate LooseSame(a: User, b: User) {
    LooseEq(a.id, b.id) && LooseEq(a.oocPrefix, b.oocPrefix)
  }
}

=== FILE: values.dfy ===
/**
 * Scalar values as they travel between the bot, its queries and the database
 * (`null`, strings, integers), together with PHP's loose `==` on them, which the
 * source uses for ids, settings and query matching.
 */
module Values {
  import opened PhpText

  datatype Scalar = Null | Text(s: string) | Num(n: int)

  /**
   * A numeric string in the sense of PHP's `==`. Only non-empty runs of ASCII
   * digits are recognised (see README "Left out").
   */
  predicate IsNumeric(s: string) { IsDigits(s) }

  /**
   * PHP 8's loose `==` on two scalars: null equals "" and 0; two numeric strings
   * compare by value; a number and a numeric string compare by value; anything
   * else compares as text.
   */
  predicate LooseEq(a: Scalar, b: Scalar) {
    match (a, b)
    case (Null, Null) => true
    case (Null, Text(s)) => s == ""
    case (Text(s), Null) => s == ""
    case (Null, Num(n)) => n == 0
    case (Num(n), Null) => n == 0
    case (Num(x), Num(y)) => x == y
    case (Text(x), Text(y)) =>
      if IsNumeric(x) && IsNumeric(y) then DigitsValue(x) == DigitsValue(y) else x == y
    case (Text(s), Num(n)) => IsNumeric(s) && DigitsValue(s) == n
    case (Num(n), Text(s)) => IsNumeric(s) && DigitsValue(s) == n
  }

  /** Loose equality is reflexive and symmetric. */
  lemma LooseEqIsEquivalenceLike(a: Scalar, b: Scalar)
    ensures LooseEq(a, a)
    ensures LooseEq(a, b) == LooseEq(b, a)
  {
  }

  /** The loose comparison with zero that the row readers use for boolean columns. */
  predicate NonZero(v: Scalar) { !LooseEq(v, Num(0)) }

  /** The integer a boolean flag is written as: 1 for true, 0 for false. */
  function Flag(b: bool): (r: Scalar)
    ensures NonZero(r) == b
  {
    if b then Num(1) else Num(0)
  }

  /**
   * A query as the callers build it: an ordered list of column/value pairs.
   * Order matters because the cache key is its JSON encoding.
   */
  type Query = seq<(string, Scalar)>

  /** A database row: column name to value. */
  type Row = map<string, Scalar>

  /** The value stored under key in a query, or null when the key is absent. */
  function QueryGet(q: Query, key: string): (v: Scalar)
    ensures (forall i :: 0 <= i < |q| ==> q[i].0 != key) ==> v == Null
    ensures |q| > 0 && q[0].0 == key ==> v == q[0].1
    decreases |q|
  {
    if |q| == 0 then Null else if q[0].0 == key then q[0].1 else QueryGet(q[1..], key)
  }

  /** array_key_exists on a query. */
  predicate QueryHas(q: Query, key: string) {
    exists i :: 0 <= i < |q| && q[i].0 == key
  }

  /** The column value of a row, or null when the column is missing. */
  function RowGet(row: Row, key: string): Scalar {
    if key in row then row[key] else Null
  }
}

=== FILE: wrappers.dfy ===
/** The Option type used wherever the PHP code returns or stores `null`. */
module Wrappers {

  datatype Option<+T> = None | Some(value: T) {

    /** Returns the value held in Some, or the given default for None. */
    function GetOr(default: T): T {
      match this
      case Some(v) => v
      case None => default
    }
  }
}
